=== FILE: README.md ===
# HTTP/1.1 server core, modelled in Dafny

This project models the sequential core of a small HTTP/1.1 server written in
Rust: the status-code registry, the multi-valued header map, the header
parser, the byte-sequence search and split helpers, the budgeted line reader,
the request-line accessors, the response serialiser and the routing engine.
The routing engine has three matchers (exact, dynamic `:param`, subtree
prefix), a chain that tries them in order, a per-method router, and an older
single-table router that the same snapshot still carries.

Everything is a pure function over immutable values. Strings are `seq<char>`
with one character per octet. A route handler is an opaque `nat` identifier.
An HTTP method is `Method = Get | Post`, and a request method the server does
not recognise is `None`. Each `assert!` and `unwrap` of the source that can
fail becomes a `requires`. Fallible operations return `Result` or `Option`.

Files, one module each, following the source layout:

- `wrappers.dfy` (`Wrappers`): `Option`, `Result`, and `Collect`, which
  collects a sequence of results as Rust's `collect::<Result<_, _>>()` does.
- `text.dfy` (`Text`): the standard-library string helpers the source relies
  on: `str::lines`, `trim`, `rsplit_once`, ASCII lowercase, and byte-wise
  string order.
- `decimal.dfy` (`Decimal`): `usize` formatting and `parse::<usize>()`.
- `status_codes.dfy` (`StatusCodes`): `src/status_code_registry.rs`.
- `multi_map.dfy` (`MultiMaps`): `src/multi_map.rs`.
- `headers.dfy` (`Headers`): `src/headers.rs`.
- `slice_ext.dfy` (`SliceExt`): `src/slice_ext.rs`.
- `stream_reader.dfy` (`StreamReaders`): `src/stream_reader.rs`. The reader is
  a state `(remaining input, remaining budget)`.
- `request.dfy` (`Requests`): `src/request.rs`.
- `response_writer.dfy` (`ResponseWriters`): `src/response_writer.rs`.
- `matcher.dfy` (`Matches`): the `Match` record of `src/router/matcher/mod.rs`.
- `exact.dfy`, `dynamic.dfy`, `subtree.dfy`, `chain.dfy`: the four files
  under `src/router/matcher/`.
- `router.dfy` (`Routers`): the per-method router of `src/router/mod.rs`.
- `legacy_router.dfy` (`LegacyRouters`): the older router of `src/router.rs`.

The snapshot mixes versions, and each file is modelled as written:

- `chain.rs` expects a dynamic match to carry the full registered pattern,
  while `dynamic.rs` stores only a handler. Dynamic entries are therefore
  `Match(pattern, handler)` keyed by prefix, which satisfies both files.
- `exact.rs` returns only the handler from `pattern_match`, while `chain.rs`
  returns that result as a `Match` and its test reads `m.pattern` from it.
  The exact matcher therefore returns `Match(target, handler)`: pairing the
  handler with the pattern, which for an exact hit is the target, is a
  modelling choice that lets `chain.rs` hold.
- The two routers are separate modules.

## Model

| member | source | states |
|---|---|---|
| StatusCodes.Code | src/status_code_registry.rs:9-77 | every reason phrase's declared code lies in 100..511 |
| StatusCodes.AsStr | src/status_code_registry.rs:79-143 | every phrase has a non-empty text |
| StatusCodes.EveryPhraseListed | src/status_code_registry.rs:9-77 | the enumeration order the registry iterates covers every phrase |
| StatusCodes.CodeInjective | src/status_code_registry.rs:9-77 | distinct phrases have distinct codes |
| StatusCodes.PhraseOfCode | src/status_code_registry.rs:9-77 | reading the IANA table backwards from a phrase's code gives that phrase |
| StatusCodes.CodeOfPhrase | src/status_code_registry.rs:9-77 | a phrase found for a code in the IANA table has that code |
| StatusCodes.InformationalCode | src/status_code_registry.rs:12-16 | each 1xx phrase is found again from its code |
| StatusCodes.SuccessfulCode | src/status_code_registry.rs:17-27 | each 2xx phrase is found again from its code |
| StatusCodes.RedirectionCode | src/status_code_registry.rs:28-36 | each 3xx phrase is found again from its code |
| StatusCodes.ClientErrorLowCode | src/status_code_registry.rs:37-52 | each phrase with code 400 to 414 is found again from its code |
| StatusCodes.ClientErrorHighCode | src/status_code_registry.rs:53-65 | each phrase with code 415 to 451 is found again from its code |
| StatusCodes.ServerErrorCode | src/status_code_registry.rs:66-76 | each 5xx phrase is found again from its code |
| StatusCodes.InformationalPhrase | src/status_code_registry.rs:12-16 | a 1xx table row names a phrase whose code is the row's code |
| StatusCodes.SuccessfulPhrase | src/status_code_registry.rs:17-27 | a 2xx table row names a phrase whose code is the row's code |
| StatusCodes.RedirectionPhrase | src/status_code_registry.rs:28-36 | a 3xx table row names a phrase whose code is the row's code |
| StatusCodes.ClientErrorPhraseLow | src/status_code_registry.rs:37-52 | a table row for 400 to 414 names a phrase whose code is the row's code |
| StatusCodes.ClientErrorPhraseHigh | src/status_code_registry.rs:53-65 | a table row for 415 to 451 names a phrase whose code is the row's code |
| StatusCodes.ServerErrorPhrase | src/status_code_registry.rs:66-76 | a 5xx table row names a phrase whose code is the row's code |
| StatusCodes.InformationalListed | src/status_code_registry.rs:12-16 | every phrase with a 1xx code is in the informational group |
| StatusCodes.SuccessfulListed | src/status_code_registry.rs:17-27 | every phrase with a 2xx code is in the successful group |
| StatusCodes.RedirectionListed | src/status_code_registry.rs:28-36 | every phrase with a 3xx code is in the redirection group |
| StatusCodes.ClientErrorListed | src/status_code_registry.rs:37-65 | every phrase with a 4xx code is in the client-error group |
| StatusCodes.ServerErrorListed | src/status_code_registry.rs:66-76 | every phrase with a 5xx code is in the server-error group |
| StatusCodes.Build | src/status_code_registry.rs:170-182 | the loop that fills both lookups maps exactly the iterated phrases to their codes, and every code in the reverse map goes back to a phrase with that code |
| StatusCodes.GetReasonPhrase | src/status_code_registry.rs:156-158 | a phrase returned for a code has that code |
| StatusCodes.GetStatusCode | src/status_code_registry.rs:160-162 | is total and returns the phrase's declared code |
| StatusCodes.ReasonOfStatus | src/status_code_registry.rs:170-190 | for every phrase p, looking up the code of p gives back p |
| StatusCodes.StatusOfReason | src/status_code_registry.rs:173-186 | whenever a code yields a phrase, that phrase's code is the code |
| StatusCodes.RegistryMatchesTable | src/status_code_registry.rs:184-186 | the built registry agrees with the IANA table read backwards, for every 16-bit code |
| StatusCodes.OkExample | src/status_code_registry.rs:197-202 | code 200 gives OK |
| StatusCodes.UnregisteredExample | src/status_code_registry.rs:204-209 | code 600 gives no phrase |
| StatusCodes.NotFoundText | src/status_code_registry.rs:218-222 | the text of NotFound is "Not Found" |
| MultiMaps.Push | src/multi_map.rs:12-30 | after a push the value is a vector whose items are the old items followed by the added ones |
| MultiMaps.Next | src/multi_map.rs:70-86 | the iterator yields the item at its index and advances, and yields nothing past the end |
| MultiMaps.DrainYieldsItems | src/multi_map.rs:59-86 | draining an iterator yields the remaining items in order: a scalar yields exactly one item |
| MultiMaps.PushIterates | src/multi_map.rs:12-30 | iterating push(a, b) yields the items of a and then those of b |
| MultiMaps.NewEmpty | src/multi_map.rs:96-98 | a new map has no keys |
| MultiMaps.Insert | src/multi_map.rs:104-110 | an absent key gets the value unchanged, a present key gets the pushed vector, and other keys are untouched |
| MultiMaps.InsertLen | src/multi_map.rs:100-110 | the length counts distinct keys: it grows by one on a new key and stays put on an existing one |
| MultiMaps.InsertScalar | src/multi_map.rs:112-114 | the key's items end with the new scalar |
| MultiMaps.InsertVector | src/multi_map.rs:116-118 | the key holds a vector whose items end with the given ones, which may be none |
| MultiMaps.GetScalar | src/multi_map.rs:128-138 | Ok(None) iff the key is absent, an error iff it holds a vector, a value iff it holds a scalar |
| MultiMaps.GetVector | src/multi_map.rs:140-150 | the dual of GetScalar: a value iff the key holds a vector, an error iff it holds a scalar |
| MultiMaps.GetValueIter | src/multi_map.rs:152-158 | an iterator exists iff the key is present and it yields the key's items |
| MultiMaps.FromIterCollects | src/multi_map.rs:161-173 | collecting pairs gives exactly their keys, and each key's items are those of its pairs in arrival order |
| MultiMaps.FromIterSingle | src/multi_map.rs:161-173 | a single pair is stored as given, so an empty vector is kept |
| MultiMaps.ItemsForAbsent | src/multi_map.rs:161-173 | a key carried by no pair collects no items |
| Headers.ParseValuesLine | src/headers.rs:18-25 | a value line always becomes a vector of at least one piece, each piece free of commas and trimmed |
| Headers.ParseValuesLineCons | src/headers.rs:18-25 | the line is split at every comma, left to right, trimming each piece |
| Headers.ValuesArePieces | src/headers.rs:18-25 | the values are the comma-split pieces of the line, in order, each trimmed |
| Headers.ParseLine | src/headers.rs:31-36 | a line fails iff it has no colon; otherwise the name is lowercase and colon-free and the value is a vector |
| Headers.ParseLineSplit | src/headers.rs:32-35 | the name is the text before the first colon, lowercased and not trimmed, and the value is parsed from the rest |
| Headers.HeaderLines | src/headers.rs:29-30 | the header lines are the longest run of non-empty lines at the start |
| Headers.ParseLines | src/headers.rs:31-37 | a failure is the missing-colon error, and a success holds one pair per line |
| Headers.ParseLinesFails | src/headers.rs:31-37 | the collected parse fails iff some line has no colon |
| Headers.ParseLinesPairs | src/headers.rs:31-37 | a successful collected parse holds, at each position, the pair parsed from that line |
| Headers.ParseLinesAll | src/headers.rs:31-37 | when every line parses, the collected parse is exactly those pairs in order |
| Wrappers.CollectFirstError | src/headers.rs:31-37 | collecting results fails iff some item fails, and then with the error of the first failing item |
| Wrappers.CollectValues | src/headers.rs:31-37 | a successful collect holds each item's value at its position |
| Wrappers.CollectAll | src/headers.rs:31-37 | when every item succeeds, collecting gives exactly their values |
| Headers.ParseStopsAtBlank | src/headers.rs:29-30 | whatever follows the first empty line does not affect the parse |
| Headers.HeaderLinesIdempotent | src/headers.rs:29-30 | taking the leading header lines twice changes nothing |
| Headers.SameHeaderLinesSameParse | src/headers.rs:27-37 | two inputs with the same leading header lines parse the same |
| Headers.ParseFailsIffColonMissing | src/headers.rs:27-40 | the parse fails iff some header line before the first empty line has no colon |
| Headers.ParsedValuesAreVectors | src/headers.rs:18-37 | every value a successful parse stores is a vector |
| Headers.FromIterKeepsVectors | src/headers.rs:36-39 | collecting pairs whose values are all vectors stores only vectors |
| Headers.ParsedValuesInLineOrder | src/headers.rs:27-37 | a name's values are the values of all lines carrying it, in line order |
| Headers.RepeatedHeaderKeepsBoth | src/headers.rs:27-53 | two lines with the same name iterate as both values in line order |
| Headers.ParseSingleHeader | src/headers.rs:27-40 | one header line parses to its lowercased name holding a one-item vector |
| Headers.ParseTwoHeaderLines | src/headers.rs:27-40 | two header lines before an empty line parse to both lowercased names, each holding its one-item vector |
| Headers.RepeatedHeaderHead | src/headers.rs:27-40 | a name repeated on two lines parses to the collection of both one-item vectors under that name |
| Headers.ContentLengthHead | src/headers.rs:27-40 | a `Content-Length: n` head parses to a content-length entry holding the one-item vector of n's digits |
| Headers.UserAgentHead | src/headers.rs:27-40 | a `User-Agent: v` head parses to a user-agent entry holding the one-item vector of v |
| Headers.GetScalar | src/headers.rs:42-47 | the lookup lowercases the key; an error iff the entry is a vector, a value iff it is a scalar |
| Headers.GetIter | src/headers.rs:49-53 | the lowercased key is present iff an iterator is returned, and it yields the entry's items |
| Headers.LookupIgnoresCase | src/headers.rs:42-53 | two keys with the same lowercase form give the same lookups |
| Headers.GetAcceptEncoding | src/headers.rs:55-57 | present iff an accept-encoding entry exists, yielding its items |
| Headers.GetConnection | src/headers.rs:59-61 | present iff a connection entry exists, yielding its items |
| Headers.GetContentLength | src/headers.rs:63-72 | absent gives Ok(None), a scalar that parses gives its number, a scalar that does not parse or a vector gives an error |
| Headers.ContentLengthRejectedAsWritten | src/headers.rs:63-72 | a parsed `Content-Length: n` header is always rejected as not scalar |
| Headers.ContentLength | src/headers.rs:63-72 | the content length is the number of a one-item entry, absent gives Ok(None), anything else an error |
| Headers.ContentLengthReadBack | src/headers.rs:63-72 | a parsed `Content-Length: n` header reads back as n for every usize n |
| Headers.GetUserAgent | src/headers.rs:74-76 | Ok(None) iff absent, an error iff the entry is a vector |
| Headers.UserAgentRejectedAsWritten | src/headers.rs:74-76 | a parsed `User-Agent: v` header is always rejected as not scalar |
| Headers.UserAgent | src/headers.rs:74-76 | the user agent is the item of a one-item entry, absent gives Ok(None) |
| Headers.UserAgentReadBack | src/lib.rs:137-156 | a parsed `User-Agent: v` header reads back as v, as the server's own test expects |
| SliceExt.PositionFrom | src/slice_ext.rs:52-55 | the result is the least occurrence at or after the start, or none if there is none |
| SliceExt.PositionPattern | src/slice_ext.rs:52-55 | the least index at which the non-empty pattern occurs, none iff it never occurs |
| SliceExt.SplitOnce | src/slice_ext.rs:38-45 | none iff the pattern is absent; otherwise left ++ pattern ++ right is the input and the split is at the first occurrence |
| SliceExt.SplitOnceLeftClean | src/slice_ext.rs:38-45 | the left part holds no occurrence of the pattern |
| SliceExt.SplitNext | src/slice_ext.rs:21-35 | each step yields the text before the next occurrence, or the whole rest at the end, then nothing |
| SliceExt.SplitJoin | src/slice_ext.rs:21-35 | the parts of a split re-joined with the pattern give the input, and no part holds the pattern |
| SliceExt.SplitWithoutPattern | src/slice_ext.rs:21-35 | with no occurrence, split yields the whole slice once and then nothing |
| SliceExt.SplitCons | src/slice_ext.rs:21-35 | splitting on one element peels off the text before its first occurrence |
| SliceExt.SplitSingle | src/slice_ext.rs:21-35 | splitting on an element that does not occur yields the whole slice alone |
| SliceExt.SplitUnfold | src/slice_ext.rs:21-35 | a split is the part before the first occurrence followed by the split of the rest, or the whole slice when there is none |
| StreamReaders.New | src/stream_reader.rs:14-18 | a new reader starts with the u64 maximum as budget |
| StreamReaders.SetLimit | src/stream_reader.rs:20-22 | the budget is replaced and the input kept |
| StreamReaders.Available | src/stream_reader.rs:24-34 | the readable bytes are the input cut to the budget |
| StreamReaders.ReadLine | src/stream_reader.rs:24-30 | end of file iff nothing is readable; otherwise a non-empty line up to and including the first LF, or all readable bytes, with the budget reduced by what was consumed |
| StreamReaders.ReadExact | src/stream_reader.rs:32-34 | succeeds iff both the input and the budget hold n bytes, and then consumes exactly n of each |
| StreamReaders.ReadLinesCoverAvailable | src/stream_reader.rs:24-30 | reading lines until end of file consumes exactly the readable bytes |
| StreamReaders.AvailableAfterRead | src/stream_reader.rs:24-30 | a read line followed by what is still readable is what was readable before |
| StreamReaders.AvailableAfterLine | src/stream_reader.rs:24-30 | a line with its LF within budget is followed in the readable bytes by what a reader on the rest can read |
| StreamReaders.ReadLineWhole | src/stream_reader.rs:66-84 | a line ending in LF within budget is returned whole with its LF |
| StreamReaders.ReadLineNoNewline | src/stream_reader.rs:81-84 | with no LF the line is all readable bytes |
| StreamReaders.ReadLineStopsAtBudget | src/stream_reader.rs:86-99 | a budget shorter than the line stops the read there, and the next read hits end of file |
| StreamReaders.ReadLineExactBudget | src/stream_reader.rs:86-99 | a budget of exactly the line with its LF yields that line, and the next read hits end of file |
| StreamReaders.BudgetOf1024 | src/stream_reader.rs:101-110 | on input with no newline a budget of 1024 yields exactly 1024 bytes and leaves no budget |
| StreamReaders.ReadExactThenRest | src/stream_reader.rs:32-34 | reading a bytes and then b bytes is reading a + b bytes |
| Requests.Fields | src/request.rs:14-25 | splitting at spaces gives space-free pieces that re-join to the line |
| Requests.HttpMethod | src/request.rs:14-16 | the method is the space-free first piece of the line |
| Requests.RequestTarget | src/request.rs:18-20 | the target needs a second piece and is space-free |
| Requests.HttpVersion | src/request.rs:23-25 | the version needs a third piece and is space-free |
| Requests.FieldsOfRequestLine | src/request.rs:14-25 | a line of three space-free words splits into exactly those words |
| Requests.FieldsCons | src/request.rs:14-25 | a space-free first word is the first piece and the rest splits on its own |
| Requests.FieldsSingle | src/request.rs:14-25 | a space-free line is a single piece |
| Requests.FieldsOfTwoThenRest | src/request.rs:14-25 | two space-free words are the first two pieces and the rest splits on its own |
| Requests.AccessorsOfRequestLine | src/request.rs:40-51 | method, target and version of such a line are the three words |
| Requests.GetParam | src/request.rs:53-55 | returns the stored parameter |
| Requests.SetParam | src/request.rs:57-59 | after setting, the parameter reads back and the status line is unchanged |
| Requests.SetParamKeepsFields | src/request.rs:53-59 | setting the parameter changes no field of the line, and the last set wins |
| Requests.FirstLine | src/request.rs:73-76 | the first line is a prefix of the input that ends at the first LF, or is the whole input |
| Requests.Read | src/request.rs:73-78 | reading consumes one line and leaves no parameter; a line of two bytes or more loses its last two, and a shorter line, which a release build's wrapping `len - 2` leaves alone, is kept whole |
| Requests.ReadAtEndOfInput | src/request.rs:73-78 | an empty read at end of input gives an empty request line |
| Requests.ReadRequestLine | src/request.rs:73-78 | a CRLF-terminated line is read back exactly, and the rest is left |
| Requests.ReadGetRoot | src/request.rs:97-105 | reading `GET / HTTP/1.1` gives method GET, target / and version HTTP/1.1 |
| ResponseWriters.NewEmpty | src/response_writer.rs:21-23 | no status code, no reason, no headers, empty body |
| ResponseWriters.SetStatusCode | src/response_writer.rs:31-35 | the code is kept; the reason is the registered phrase's text, or none for an unregistered code |
| ResponseWriters.SetReasonPhrase | src/response_writer.rs:37-40 | the code is the phrase's registered code and the reason its text |
| ResponseWriters.SetStatusCodeOfPhrase | src/response_writer.rs:31-40 | setting a phrase's code and setting the phrase give the same writer |
| ResponseWriters.SetStatusLine | src/response_writer.rs:43-46 | code and reason are stored as given |
| ResponseWriters.SetBody | src/response_writer.rs:60-66 | the body is replaced and nothing else changes |
| ResponseWriters.SetBodyLastWins | src/response_writer.rs:60-66 | of two bodies set, the last one is kept |
| ResponseWriters.Write | src/response_writer.rs:68-97 | the output starts with the status line; it is that line plus CRLF iff the code is 404; otherwise it ends with the body |
| ResponseWriters.NotFoundIgnoresBody | src/response_writer.rs:76-79 | a 404 is written the same whatever headers and body were set |
| ResponseWriters.UnregisteredCodeHasNoReason | src/response_writer.rs:31-35 | an unregistered code is written without a reason phrase |
| ResponseWriters.StatusLineReadsBack | src/response_writer.rs:70-74 | the status line splits back into version, code and reason, and the code's digits parse back to the code |
| ResponseWriters.StatusLineFields | src/response_writer.rs:70-74 | the status line splits into the version, the code's digits and the pieces of the reason |
| ResponseWriters.WriteReachable | src/response_writer.rs:81-96 | a non-404 response is the status line, Content-Type, Content-Length, an empty line and the body |
| ResponseWriters.WriteFramesBody | src/response_writer.rs:81-96 | the header parser reads the written header block back as text/plain with a Content-Length equal to the body length |
| ResponseWriters.FramedHeaders | src/response_writer.rs:81-96 | the header block written before a body parses to exactly a text/plain content type and the body length's digits |
| ResponseWriters.FramedContentLength | src/response_writer.rs:81-96 | the content length read from those headers is the body length |
| ResponseWriters.FramedBodyParses | src/response_writer.rs:81-96 | the written header block parses, with content type text/plain and content length the body length |
| ResponseWriters.FramedBodyEndsWithBody | src/response_writer.rs:92-96 | the written response ends with the body |
| ExactMatchers.NewExact | src/router/matcher/exact.rs:8-10 | a new table matches nothing |
| ExactMatchers.AddRoute | src/router/matcher/exact.rs:12-15 | adding stores or replaces the pattern's handler and leaves other patterns untouched |
| ExactMatchers.PatternMatch | src/router/matcher/exact.rs:17-19 | a match iff the target is a registered pattern, with that pattern's handler; the pattern carried in the match is the target, a modelling choice made so that `chain.rs` holds |
| ExactMatchers.AddThenMatch | src/router/matcher/exact.rs:12-19 | after adding, the pattern matches its new handler and every other target matches as before |
| DynamicMatchers.NewDynamic | src/router/matcher/dynamic.rs:8-10 | a new table matches nothing |
| DynamicMatchers.AddRoute | src/router/matcher/dynamic.rs:12-15 | adding stores or replaces the entry under its prefix and leaves other prefixes untouched |
| DynamicMatchers.PatternMatch | src/router/matcher/dynamic.rs:17-25 | a match comes from a registered prefix with target = prefix / param; the parameter is non-empty and slash-free; no slash or a trailing slash gives no match |
| DynamicMatchers.MatchOfSplit | src/router/matcher/dynamic.rs:17-25 | a target prefix/param matches iff the prefix is registered, with param as parameter |
| DynamicMatchers.NoParameterNoMatch | src/router/matcher/dynamic.rs:19-21 | a target with an empty last segment does not match |
| SubtreeMatchers.NewSubtree | src/router/matcher/subtree.rs:8-10 | a new table is sorted and matches nothing |
| SubtreeMatchers.InsertPosition | src/router/matcher/subtree.rs:15-16 | the stable descending sort puts the new entry after every entry not smaller and before the first smaller one |
| SubtreeMatchers.AddRoute | src/router/matcher/subtree.rs:12-17 | adding keeps the table sorted descending and inserts exactly the new entry, at the stable sort's position: after every entry that is not smaller, so after any equal pattern |
| SubtreeMatchers.ReAddKeepsMatch | src/router/matcher/subtree.rs:12-29 | registering a pattern again changes no match: the older handler keeps winning |
| SubtreeMatchers.RegisteredBeforeInsert | src/router/matcher/subtree.rs:15-16 | a registered pattern sits before the place where the same pattern is inserted again |
| SubtreeMatchers.InsertKeepsSorted | src/router/matcher/subtree.rs:15-16 | inserting at the position the stable sort picks keeps the table sorted descending |
| SubtreeMatchers.FirstPrefix | src/router/matcher/subtree.rs:23-28 | the first entry in table order whose pattern prefixes the target |
| SubtreeMatchers.PatternMatch | src/router/matcher/subtree.rs:19-29 | no match iff no pattern prefixes the target; a match is the first entry in list order whose pattern prefixes the target, with pattern ++ param = target |
| SubtreeMatchers.LongestPrefixWins | src/router/matcher/subtree.rs:15-28 | in a sorted table the match is the longest registered pattern prefixing the target |
| SubtreeMatchers.LongerPatternFirst | src/router/matcher/subtree.rs:16 | when one pattern properly prefixes another the longer one sits earlier |
| SubtreeMatchers.SinglePattern | src/router/matcher/subtree.rs:38-59 | with one pattern, a target matches iff it starts with it, and the parameter is the rest, possibly empty or with slashes |
| SubtreeMatchers.ShorterTargetMisses | src/router/matcher/subtree.rs:61-70 | the pattern without its final slash does not match it |
| Chains.NewChain | src/router/matcher/chain.rs:12-18 | a new chain is valid and matches nothing |
| Chains.Classify | src/router/matcher/chain.rs:20-38 | subtree iff not "/" and ending in a slash; dynamic iff the last segment starts with a colon, under the text before it; exact otherwise |
| Chains.ClassifyDynamic | src/router/matcher/chain.rs:32-35 | a pattern prefix/:name goes to the dynamic table under prefix |
| Chains.ClassifyExact | src/router/matcher/chain.rs:32-37 | a pattern whose last segment is a plain word goes to the exact table |
| Chains.AddRoute | src/router/matcher/chain.rs:20-38 | adding changes only the table the pattern is classified into, as that table adds it, and keeps the subtree table sorted |
| Chains.ReAddSubtreeKeepsMatch | src/router/matcher/chain.rs:20-54 | adding a subtree pattern that is already registered changes no match of the chain |
| Chains.PatternMatch | src/router/matcher/chain.rs:40-54 | no match iff all three tables miss; an exact hit has no parameter and wins; otherwise a dynamic hit is returned with its parameter, and only when that misses too the subtree hit; a parameter always ends the target |
| Chains.AddExactThenMatch | src/router/matcher/chain.rs:44-46 | an exact pattern just added matches itself with no parameter |
| Chains.AddDynamicThenMatch | src/router/matcher/chain.rs:47-49 | a dynamic pattern just added matches prefix/value with parameter value when no exact route is in the way |
| Chains.AddSubtreeThenMatch | src/router/matcher/chain.rs:50-52 | a target the other tables miss matches a subtree pattern at least as long as the one just added |
| Chains.ExampleShape | src/router/matcher/chain.rs:63-73 | the test's routes fill the three tables as listed, the longer subtree pattern first |
| Chains.ExampleExact | src/router/matcher/chain.rs:75-78 | "/" and "/fst" hit the exact table |
| Chains.ExampleParameter | src/router/matcher/chain.rs:79-81 | /fst/snd matches /fst/:var with parameter snd, ahead of the subtree /fst/snd/ |
| Chains.ExampleShortPrefix | src/router/matcher/chain.rs:82-84 | /fst/ab/c matches the subtree /fst/ with parameter ab/c |
| Chains.ExampleLongPrefix | src/router/matcher/chain.rs:85-88 | /fst/snd/ab/c matches the subtree /fst/snd/ with parameter ab/c |
| Chains.RootOnly | src/router/matcher/chain.rs:98-106 | with only "/" registered no other target matches |
| Routers.MethodAt | src/router/mod.rs:41-53 | method indexes run over 0 and 1 and invert Index |
| Routers.ParseMethod | src/router/mod.rs:56-59 | a method name is recognised iff it names a method |
| Routers.NewRouter | src/router/mod.rs:18-22 | a new router has one valid empty chain per method |
| Routers.AddRoute | src/router/mod.rs:24-31 | adding for method m changes only m's chain |
| Routers.PatternMatch | src/router/mod.rs:33-39 | the match is the method's own chain's match |
| Routers.AllowedFrom | src/router/mod.rs:41-53 | the methods from index i on whose chain matches, in index order |
| Routers.FindAllowedMethods | src/router/mod.rs:41-53 | exactly the methods whose chain matches the target, in enum index order |
| Routers.AllowedIffSomeHit | src/router/mod.rs:41-53 | the allowed list is non-empty iff some method's chain matches the target |
| Routers.AllowedOnly | src/router/mod.rs:41-53 | when only one method's chain matches, the allowed list is that method alone |
| Routers.Handle | src/router/mod.rs:55-79 | 400 iff the method is unrecognised; dispatch iff its chain matches, setting the parameter only when there is one; 405 iff its chain misses and another hits, listing allowed methods without it; 404 iff no chain matches |
| Routers.HandleRequest | src/router/mod.rs:55-60 | a request is refused with 400 iff its method is unrecognised, and dispatched only to a hit of its own method |
| Routers.HandleRequestLine | src/router/mod.rs:55-60 | a request line handles as its method and target |
| Routers.RefusalStatus | src/router/mod.rs:56-78 | the refusals set status 400, 405 and 404 |
| Routers.RefusalCodes | src/router/mod.rs:56-78 | the refusal phrases carry codes 400, 405 and 404 |
| Routers.AllowedAfterGet | src/router/mod.rs:97-102 | with one GET route the allowed list for it is [GET] |
| Routers.GetOnPostRoute | src/router/mod.rs:104-120 | a GET on a POST-only route gives 405 allowing POST |
| LegacyRouters.NewRouter | src/router.rs:14-19 | a new router has empty tables |
| LegacyRouters.Normalise | src/router.rs:46-48 | one trailing slash is dropped unless the target is "/" |
| LegacyRouters.Classify | src/router.rs:21-41 | a pattern goes to the exact table under its normalised form, or to the dynamic table under the prefix of its colon segment |
| LegacyRouters.ClassifyDynamic | src/router.rs:31-38 | prefix/:name, with or without a trailing slash, is dynamic under prefix |
| LegacyRouters.AddRoute | src/router.rs:21-41 | adding updates only the table the pattern is classified into |
| LegacyRouters.RootIsExact | src/router.rs:26-29 | "/" is stored in the exact table |
| LegacyRouters.AddSegment | src/router.rs:35-40 | a plain pattern is stored in the exact table |
| LegacyRouters.AddParameterPattern | src/router.rs:35-38 | a colon pattern is stored in the dynamic table under its prefix |
| LegacyRouters.Route | src/router.rs:43-62 | for every split of the normalised target at its last slash, including an empty last segment: the prefix's one-parameter handler with the last segment as parameter if the prefix is registered, otherwise the exact handler of the whole normalised target, otherwise not found |
| LegacyRouters.RouteOfSplit | src/router.rs:50-61 | dynamic lookup on the prefix comes first, then exact lookup, then not found |
| LegacyRouters.TrailingSlashIgnored | src/router.rs:46-48 | a target with a trailing slash routes like the one without |
| LegacyRouters.NormaliseOptionalSlash | src/router.rs:46-48 | a target without a trailing slash normalises to itself whether or not one slash is added |
| LegacyRouters.ExactOnlyRoute | src/router.rs:43-62 | with no dynamic routes a one-segment target dispatches iff it is in the exact table |
| LegacyRouters.Handle | src/router.rs:43-62 | on no match the only effect is status 404; on a dynamic match the parameter is set |
| LegacyRouters.StatusUnsetIffDispatched | src/router.rs:91-121 | starting from an empty writer the status stays unset iff a handler is dispatched |
| LegacyRouters.ExampleShape | src/router.rs:183-188 | the test's routes fill the two tables as listed |
| LegacyRouters.ExampleParameter | src/router.rs:159-173 | /items/xyz and /items/xyz/ dispatch with parameter xyz and /items/xyz/a is not found |
| LegacyRouters.ExampleBareSegment | src/router.rs:149-158 | with only the parameter route, /items and /items/ are not found; with an exact route they reach it |
| LegacyRouters.DoubleSlashEmptyParameter | src/router.rs:46-59 | for every table, a target ending in two slashes goes to the one-parameter handler of what precedes them with an empty parameter, else to the exact handler of the target less one slash, else not found |
| LegacyRouters.EmptyParameterReachesHandler | src/router.rs:46-55 | /items// reaches the parameter route with an empty parameter |
| LegacyRouters.ExampleNotFound | src/router.rs:92-121 | an unregistered segment is not found while "/" and registered segments dispatch |

The legacy router strips only one trailing slash, so a target such as
`/items//` reaches the dynamic route `/items/:id` with an empty parameter
(`LegacyRouters.EmptyParameterReachesHandler`). The newer dynamic matcher
rejects empty parameters. Nothing in the legacy source says whether this is
intended, so it is recorded here and not listed as a finding.

## Left out

- `src/server.rs`: the TCP accept loop, threads, timeouts and socket writes are I/O and concurrency.
- `src/lib.rs`: command-line parsing, tracing and the wiring of the demo handlers are glue. Only its `user_agent` handler and test are cited, as evidence for a finding.
- `src/file_server.rs`: filesystem access, and a path normaliser from an external crate.
- `src/middleware/gzip_compressor.rs`: the compression is done by an external crate, and it calls writer methods that `src/response_writer.rs` does not have.
- `src/test_utils.rs`: a test-only reader.
- UTF-8: bytes and characters are the same here. `read_line`'s UTF-8 check is not modelled, and lowercasing is ASCII only.
- `HttpMethod::try_from` is not part of this model. `Routers.ParseMethod` accepts exactly "GET" and "POST".
- `add_allow_header` is not part of this model. `Routers.Handle` returns the allowed-method list instead of header text.
- Handlers: they are opaque identifiers. The model reports which handler is dispatched with which parameter, not what it does.
- Routers.Handle: the writer after a dispatch is the writer passed in. A handler's own writes are not modelled.
- StreamReaders.ReadExact: after a failed read the state is not returned. The source leaves the reader partly consumed in that case.
- Requests.Read: it models the release build, where `buf.len() - 2` wraps and `truncate` keeps a line shorter than two bytes. A debug build panics on that subtraction instead. The `unwrap` of `read_line` is not modelled either, because the input is a fixed byte sequence that cannot fail.
- Text.Trim: strips only ASCII white space. Rust's `trim` also strips Unicode white space spelt in several UTF-8 octets, such as U+3000 as E3 80 80. The model keeps those octets, because a character here stands for one octet and no decoding is modelled.
- Stream I/O: `src/stream_reader.rs` reads from a live stream. The model reads from a fixed byte sequence, so I/O errors and timeouts of the underlying stream are not modelled. `read_line` appends to a buffer the caller passes in, and the model returns the line instead.
- Decimal.ParseUsize: the kinds of parse error are collapsed into `None`.
- ResponseWriters.WriteReachable: it is stated only for an empty header list. `add_header` is private to `write`, so no other list is reachable.
- Request headers: `src/request.rs` has none, although `src/lib.rs` calls `get_headers`. The header parser is modelled on its own.
- `src/router/matcher/mod.rs` declares only the exact and dynamic submodules, while `chain.rs` also uses a subtree matcher. All four matchers are modelled as the files show them.
- `chain.rs` calls the dynamic matcher's `add_route` with three arguments, while `dynamic.rs` takes two. The model stores the pattern with the handler so that both files hold.

## Findings

| source | as written | input that shows it | evidently intended | confidence | as-written member | corrected member |
|---|---|---|---|---|---|---|
| src/headers.rs:63-72 | `get_content_length` reads the entry with `get_scalar`, but `parse` stores every value as a vector (src/headers.rs:18-25), so a parsed Content-Length is always rejected | `Content-Length: 5` followed by an empty line | a one-item value is read as the length, so the header reads back as 5 | high, not executed | Headers.ContentLengthRejectedAsWritten | Headers.ContentLengthReadBack |
| src/headers.rs:74-76 | `get_user_agent` reads the entry with `get_scalar`, so a parsed User-Agent is always rejected, and the `user_agent` handler (src/lib.rs:55-63) answers 400 | `User-Agent: test` followed by an empty line | the value is read back, as the test at src/lib.rs:137-156 expects body `test` | high, not executed | Headers.UserAgentRejectedAsWritten | Headers.UserAgentReadBack |

=== FILE: chain.dfy ===
/** A route chain (src/router/matcher/chain.rs): three tables tried in a
    fixed order. A pattern goes to the exact table, to the one-parameter
    table when its last segment starts with a colon, or to the prefix table
    when it ends with a slash; a lookup asks the exact table first, then the
    one-parameter table, then the prefix table. */
module Chains {
  import opened Wrappers
  import opened Matches
  import Text
  import ExactMatchers
  import DynamicMatchers
  import SubtreeMatchers

  datatype Chain = Chain(
    exact: ExactMatchers.Exact,
    dynamic: DynamicMatchers.Dynamic,
    subtree: SubtreeMatchers.Subtree)

  /** What every chain built by `new` and `add_route` keeps: the prefix
      table in descending order. */
  predicate Valid(c: Chain)
  {
    SubtreeMatchers.Sorted(c.subtree.routes)
  }

  function NewChain(): (c: Chain)
    ensures Valid(c)
    ensures forall t :: PatternMatch(c, t).None?
  {
    Chain(ExactMatchers.NewExact(), DynamicMatchers.NewDynamic(), SubtreeMatchers.NewSubtree())
  }

  /** The table a pattern is filed under. */
  datatype Kind = ToExact | ToDynamic(prefix: string) | ToSubtree

  predicate StartsWithSlash(pattern: string)
  {
    |pattern| > 0 && pattern[0] == '/'
  }

  /** The branches of `add_route`: the root is exact; a trailing slash means
      a prefix; otherwise the text after the last slash decides, a leading
      colon filing the pattern under the text before that slash. */
  function Classify(pattern: string): (k: Kind)
    requires StartsWithSlash(pattern)
    ensures k.ToSubtree? <==> pattern != "/" && Text.EndsWith(pattern, "/")
    ensures k.ToDynamic? ==> |k.prefix| + 1 < |pattern| && pattern[..|k.prefix| + 1] == k.prefix + "/"
                              && pattern[|k.prefix| + 1] == ':' && '/' !in pattern[|k.prefix| + 1..]
    ensures k.ToExact? ==> pattern == "/" || !Text.EndsWith(pattern, "/")
  {
    if pattern == "/" then ToExact
    else if Text.EndsWith(pattern, "/") then ToSubtree
    else
      var (key, param) := Text.RSplitOnce(pattern, '/').value;
      if |param| > 0 && param[0] == ':' then
        assert pattern == key + "/" + param;
        ToDynamic(key)
      else ToExact
  }

  /** `prefix/:name` with a slash-free name is a one-parameter pattern
      filed under `prefix`. */
  lemma ClassifyDynamic(prefix: string, name: string)
    requires '/' !in name && (prefix == "" || prefix[0] == '/')
    ensures StartsWithSlash(prefix + "/:" + name)
    ensures Classify(prefix + "/:" + name) == ToDynamic(prefix)
  {
    var pattern := prefix + "/:" + name;
    assert pattern == prefix + ['/'] + (":" + name);
    assert '/' !in ":" + name;
    Text.RSplitOnceUnique(prefix, '/', ":" + name);
    assert pattern[|pattern| - 1] != '/';
  }

  /** A last segment that is neither empty nor colon-led makes the pattern
      exact. */
  lemma ClassifyExact(prefix: string, segment: string)
    requires '/' !in segment && |segment| > 0 && segment[0] != ':'
    requires prefix == "" || prefix[0] == '/'
    ensures StartsWithSlash(prefix + "/" + segment)
    ensures Classify(prefix + "/" + segment) == ToExact
  {
    var pattern := prefix + "/" + segment;
    Text.RSplitOnceUnique(prefix, '/', segment);
    assert pattern[|pattern| - 1] == segment[|segment| - 1];
  }

  /** The `assert!`s `add_route` runs into: the pattern starts with a slash,
      and a one-parameter pattern's prefix must not end with one (the
      one-parameter table refuses it). */
  predicate CanAdd(pattern: string)
  {
    StartsWithSlash(pattern)
    && (Classify(pattern).ToDynamic? ==> DynamicMatchers.ValidPrefix(Classify(pattern).prefix))
  }

  /** `add_route`: the pattern goes into the one table its shape selects;
      the other two are untouched. */
  function AddRoute(c: Chain, pattern: string, handler: HandlerId): (c': Chain)
    requires Valid(c) && CanAdd(pattern)
    ensures Valid(c')
    ensures Classify(pattern).ToExact? ==>
              c' == c.(exact := ExactMatchers.AddRoute(c.exact, pattern, handler))
    ensures Classify(pattern).ToDynamic? ==>
              c' == c.(dynamic := DynamicMatchers.AddRoute(c.dynamic, Classify(pattern).prefix, pattern, handler))
    ensures Classify(pattern).ToSubtree? ==>
              c'.exact == c.exact && c'.dynamic == c.dynamic
              && multiset(c'.subtree.routes) == multiset(c.subtree.routes) + multiset{Match(pattern, handler)}
              && c'.subtree == SubtreeMatchers.AddRoute(c.subtree, pattern, handler)
  {
    match Classify(pattern)
    case ToExact => c.(exact := ExactMatchers.AddRoute(c.exact, pattern, handler))
    case ToDynamic(prefix) => c.(dynamic := DynamicMatchers.AddRoute(c.dynamic, prefix, pattern, handler))
    case ToSubtree => c.(subtree := SubtreeMatchers.AddRoute(c.subtree, pattern, handler))
  }

  /** `pattern_match`: the first table that knows the target answers. An
      exact hit has no parameter and its pattern is the target; otherwise
      the parameter is the tail of the target the pattern left over. */
  function PatternMatch(c: Chain, target: string): (r: Option<(Match, Option<string>)>)
    ensures r.None? <==> target !in c.exact.routes
                         && DynamicMatchers.PatternMatch(c.dynamic, target).None?
                         && SubtreeMatchers.PatternMatch(c.subtree, target).None?
    ensures r.Some? && r.value.1.None? ==> target in c.exact.routes && r.value.0 == Match(target, c.exact.routes[target])
    ensures r.Some? && r.value.1.Some? ==>
              target !in c.exact.routes
              && |r.value.1.value| <= |target| && target[|target| - |r.value.1.value|..] == r.value.1.value
    ensures target !in c.exact.routes && DynamicMatchers.PatternMatch(c.dynamic, target).Some? ==>
              var hit := DynamicMatchers.PatternMatch(c.dynamic, target).value;
              r == Some((hit.0, Some(hit.1)))
    ensures target !in c.exact.routes && DynamicMatchers.PatternMatch(c.dynamic, target).None?
            && SubtreeMatchers.PatternMatch(c.subtree, target).Some? ==>
              var hit := SubtreeMatchers.PatternMatch(c.subtree, target).value;
              r == Some((hit.0, Some(hit.1)))
  {
    match ExactMatchers.PatternMatch(c.exact, target)
    case Some(m) => Some((m, None))
    case None =>
      match DynamicMatchers.PatternMatch(c.dynamic, target)
      case Some((m, param)) => Some((m, Some(param)))
      case None =>
        match SubtreeMatchers.PatternMatch(c.subtree, target)
        case Some((m, param)) => Some((m, Some(param)))
        case None => None
  }

  /** Adding a subtree pattern that is already registered changes no match
      of the chain: the older handler keeps winning. */
  lemma ReAddSubtreeKeepsMatch(c: Chain, pattern: string, handler: HandlerId, j: nat, target: string)
    requires Valid(c) && CanAdd(pattern) && Classify(pattern).ToSubtree?
    requires j < |c.subtree.routes| && c.subtree.routes[j].pattern == pattern
    ensures PatternMatch(AddRoute(c, pattern, handler), target) == PatternMatch(c, target)
  {
    SubtreeMatchers.ReAddKeepsMatch(c.subtree, pattern, handler, j, target);
  }

  /** An exact pattern, once added, is found for itself with no parameter,
      whatever else the chain holds. */
  lemma AddExactThenMatch(c: Chain, pattern: string, handler: HandlerId)
    requires Valid(c) && CanAdd(pattern) && Classify(pattern).ToExact?
    ensures PatternMatch(AddRoute(c, pattern, handler), pattern) == Some((Match(pattern, handler), None))
  {
  }

  /** A one-parameter pattern `prefix/:name`, once added, serves every
      `prefix/value` with a non-empty slash-free value that no exact
      pattern claims, and hands over the value. */
  lemma AddDynamicThenMatch(c: Chain, prefix: string, name: string, handler: HandlerId, value: string)
    requires Valid(c) && '/' !in name && (prefix == "" || prefix[0] == '/')
    requires DynamicMatchers.ValidPrefix(prefix)
    requires value != "" && '/' !in value && prefix + "/" + value !in c.exact.routes
    ensures CanAdd(prefix + "/:" + name)
    ensures PatternMatch(AddRoute(c, prefix + "/:" + name, handler), prefix + "/" + value)
            == Some((Match(prefix + "/:" + name, handler), Some(value)))
  {
    ClassifyDynamic(prefix, name);
    var c' := AddRoute(c, prefix + "/:" + name, handler);
    DynamicMatchers.MatchOfSplit(c'.dynamic, prefix, value);
  }

  /** A prefix pattern, once added, serves every target that starts with
      it and that neither an exact nor a one-parameter pattern claims; the
      pattern reported is at least as long as the one added. */
  lemma AddSubtreeThenMatch(c: Chain, pattern: string, handler: HandlerId, target: string)
    requires Valid(c) && StartsWithSlash(pattern) && pattern != "/" && Text.EndsWith(pattern, "/")
    requires pattern <= target
    requires target !in c.exact.routes && DynamicMatchers.PatternMatch(c.dynamic, target).None?
    ensures CanAdd(pattern)
    ensures PatternMatch(AddRoute(c, pattern, handler), target).Some?
    ensures var (m, param) := PatternMatch(AddRoute(c, pattern, handler), target).value;
            param.Some? && |pattern| <= |m.pattern| && target == m.pattern + param.value
  {
    var c' := AddRoute(c, pattern, handler);
    assert Match(pattern, handler) in multiset(c'.subtree.routes);
    var j :| 0 <= j < |c'.subtree.routes| && c'.subtree.routes[j] == Match(pattern, handler);
    SubtreeMatchers.LongestPrefixWins(c'.subtree, target, j);
  }

  /** The segment names of the chain's own example, which registers `/`,
      `/<fst>`, `/<fst>/:<name>`, `/<fst>/` and `/<fst>/<snd>/` in that
      order: plain segments, the first not colon-led. */
  predicate ExampleNames(fst: string, name: string, snd: string)
  {
    fst != "" && '/' !in fst && fst[0] != ':' && '/' !in name && snd != "" && '/' !in snd
  }

  /** The example chain, handlers numbered in the order of registration. */
  function Example(fst: string, name: string, snd: string): (c: Chain)
    requires ExampleNames(fst, name, snd)
    ensures Valid(c)
  {
    var p := "/" + fst;
    assert p == "" + "/" + fst;
    ClassifyExact("", fst);
    ClassifyDynamic(p, name);
    var c0 := AddRoute(NewChain(), "/", 0);
    var c1 := AddRoute(c0, p, 1);
    var c2 := AddRoute(c1, p + "/:" + name, 2);
    var c3 := AddRoute(c2, p + "/", 3);
    AddRoute(c3, p + "/" + snd + "/", 4)
  }

  /** Where each of the example's patterns lands: two exact patterns, one
      one-parameter pattern under `/<fst>`, and the two prefixes with the
      longer one first. */
  lemma ExampleShape(fst: string, name: string, snd: string)
    requires ExampleNames(fst, name, snd)
    ensures Example(fst, name, snd) == ExampleTables(fst, name, snd)
  {
    var p := "/" + fst;
    var c1 := ExampleExactSteps(fst);
    var c2 := ExampleDynamicStep(c1, p, name);
    var c3 := ExampleSubtreeStep(c2, p + "/", 3);
    var c4 := ExampleSubtreeStep2(c3, p + "/", 3, p + "/" + snd + "/", 4);
  }

  lemma ExampleExactSteps(fst: string) returns (c: Chain)
    requires fst != "" && '/' !in fst && fst[0] != ':'
    ensures CanAdd("/") && CanAdd("/" + fst)
    ensures c == AddRoute(AddRoute(NewChain(), "/", 0), "/" + fst, 1)
    ensures c == Chain(ExactMatchers.Exact(map["/" := 0, "/" + fst := 1]),
                       DynamicMatchers.NewDynamic(), SubtreeMatchers.NewSubtree())
  {
    assert "/" + fst == "" + "/" + fst;
    ClassifyExact("", fst);
    c := AddRoute(AddRoute(NewChain(), "/", 0), "/" + fst, 1);
  }

  lemma ExampleDynamicStep(c: Chain, p: string, name: string) returns (c': Chain)
    requires Valid(c) && p != "" && p[0] == '/' && DynamicMatchers.ValidPrefix(p) && '/' !in name
    ensures CanAdd(p + "/:" + name)
    ensures c' == AddRoute(c, p + "/:" + name, 2)
    ensures c' == c.(dynamic := DynamicMatchers.AddRoute(c.dynamic, p, p + "/:" + name, 2))
  {
    ClassifyDynamic(p, name);
    c' := AddRoute(c, p + "/:" + name, 2);
  }

  lemma ExampleSubtreeStep(c: Chain, pattern: string, handler: HandlerId) returns (c': Chain)
    requires c.subtree.routes == [] && SubtreeMatchers.ValidPattern(pattern) && pattern[0] == '/'
    ensures CanAdd(pattern)
    ensures c' == AddRoute(c, pattern, handler)
    ensures c' == c.(subtree := SubtreeMatchers.Subtree([Match(pattern, handler)]))
  {
    c' := AddRoute(c, pattern, handler);
  }

  lemma ExampleSubtreeStep2(c: Chain, shorter: string, h: HandlerId, longer: string, h': HandlerId) returns (c': Chain)
    requires c.subtree.routes == [Match(shorter, h)]
    requires SubtreeMatchers.ValidPattern(longer) && longer[0] == '/' && shorter < longer
    ensures Valid(c) && CanAdd(longer)
    ensures c' == AddRoute(c, longer, h')
    ensures c' == c.(subtree := SubtreeMatchers.Subtree([Match(longer, h'), Match(shorter, h)]))
  {
    Text.ProperPrefixLexLess(shorter, longer);
    c' := AddRoute(c, longer, h');
  }

  /** The tables of the example chain, written out. */
  function ExampleTables(fst: string, name: string, snd: string): Chain
  {
    var p := "/" + fst;
    Chain(
      ExactMatchers.Exact(map["/" := 0, p := 1]),
      DynamicMatchers.Dynamic(map[p := Match(p + "/:" + name, 2)]),
      SubtreeMatchers.Subtree([Match(p + "/" + snd + "/", 4), Match(p + "/", 3)]))
  }

  /** `/` and `/<fst>` are exact: found for themselves, no parameter. */
  lemma ExampleExact(fst: string, name: string, snd: string)
    requires ExampleNames(fst, name, snd)
    ensures PatternMatch(Example(fst, name, snd), "/") == Some((Match("/", 0), None))
    ensures PatternMatch(Example(fst, name, snd), "/" + fst) == Some((Match("/" + fst, 1), None))
  {
    ExampleShape(fst, name, snd);
  }

  /** `/<fst>/<value>` goes to `/<fst>/:<name>` with the value as parameter,
      even when the value is `<snd>`, whose prefix `/<fst>/<snd>/` the
      target lacks the final slash of. */
  lemma ExampleParameter(fst: string, name: string, snd: string, value: string)
    requires ExampleNames(fst, name, snd) && value != "" && '/' !in value
    ensures PatternMatch(Example(fst, name, snd), "/" + fst + "/" + value)
            == Some((Match("/" + fst + "/:" + name, 2), Some(value)))
  {
    ExampleShape(fst, name, snd);
    TablesParameter(fst, name, snd, value);
  }

  lemma TablesParameter(fst: string, name: string, snd: string, value: string)
    requires ExampleNames(fst, name, snd) && value != "" && '/' !in value
    ensures PatternMatch(ExampleTables(fst, name, snd), "/" + fst + "/" + value)
            == Some((Match("/" + fst + "/:" + name, 2), Some(value)))
  {
    var c := ExampleTables(fst, name, snd);
    var p := "/" + fst;
    var t := p + "/" + value;
    assert |t| > |p| && |t| > 1;
    assert t !in c.exact.routes;
    DynamicMatchers.MatchOfSplit(c.dynamic, p, value);
  }

  /** `/<fst>/` itself, and any deeper target under it that is not under
      `/<snd>/`, goes to the prefix `/<fst>/` with the rest as parameter. */
  lemma ExampleShortPrefix(fst: string, name: string, snd: string, rest: string)
    requires ExampleNames(fst, name, snd) && (rest == "" || '/' in rest) && !(snd + "/" <= rest)
    ensures PatternMatch(Example(fst, name, snd), "/" + fst + "/" + rest)
            == Some((Match("/" + fst + "/", 3), Some(rest)))
  {
    ExampleShape(fst, name, snd);
    TablesShortPrefix(fst, name, snd, rest);
  }

  lemma TablesShortPrefix(fst: string, name: string, snd: string, rest: string)
    requires ExampleNames(fst, name, snd) && (rest == "" || '/' in rest) && !(snd + "/" <= rest)
    ensures PatternMatch(ExampleTables(fst, name, snd), "/" + fst + "/" + rest)
            == Some((Match("/" + fst + "/", 3), Some(rest)))
  {
    var c := ExampleTables(fst, name, snd);
    var p := "/" + fst;
    var q := p + "/" + snd + "/";
    var t := p + "/" + rest;
    DynamicSingleKeyMisses(c.dynamic, p, rest);
    assert q == (p + "/") + (snd + "/") && t == (p + "/") + rest;
    PrefixCancel(p + "/", snd + "/", rest);
    assert p + "/" <= t && t[|p + "/"|..] == rest;
    SubtreeOfTwo(q, 4, p + "/", 3, t);
  }

  /** Any target under `/<fst>/<snd>/` goes to that longer prefix, never to
      `/<fst>/`, with the rest as parameter. */
  lemma ExampleLongPrefix(fst: string, name: string, snd: string, rest: string)
    requires ExampleNames(fst, name, snd)
    ensures PatternMatch(Example(fst, name, snd), "/" + fst + "/" + snd + "/" + rest)
            == Some((Match("/" + fst + "/" + snd + "/", 4), Some(rest)))
  {
    ExampleShape(fst, name, snd);
    TablesLongPrefix(fst, name, snd, rest);
  }

  lemma TablesLongPrefix(fst: string, name: string, snd: string, rest: string)
    requires ExampleNames(fst, name, snd)
    ensures PatternMatch(ExampleTables(fst, name, snd), "/" + fst + "/" + snd + "/" + rest)
            == Some((Match("/" + fst + "/" + snd + "/", 4), Some(rest)))
  {
    var c := ExampleTables(fst, name, snd);
    var p := "/" + fst;
    var q := p + "/" + snd + "/";
    var t := q + rest;
    assert t !in c.exact.routes by {
      assert |t| > |p| > 1;
    }
    assert DynamicMatchers.PatternMatch(c.dynamic, t).None? by {
      assert t == p + "/" + (snd + "/" + rest);
      assert (snd + "/" + rest)[|snd|] == '/';
      DynamicSingleKeyMisses(c.dynamic, p, snd + "/" + rest);
    }
    assert SubtreeMatchers.PatternMatch(c.subtree, t) == Some((Match(q, 4), rest)) by {
      assert q <= t && t[|q|..] == rest;
      SubtreeOfTwo(q, 4, p + "/", 3, t);
    }
  }

  /** A common head does not change whether one string starts with another. */
  lemma PrefixCancel(head: string, x: string, y: string)
    ensures head + x <= head + y <==> x <= y
  {
    if head + x <= head + y {
      assert x == (head + x)[|head|..] == (head + y)[|head|..|head| + |x|];
    }
  }

  /** A one-parameter table holding only `p` has no match for `p/`, nor for
      a target with a further slash under `p/`. */
  lemma DynamicSingleKeyMisses(d: DynamicMatchers.Dynamic, p: string, x: string)
    requires d.routes.Keys == {p} && (x == "" || '/' in x)
    ensures DynamicMatchers.PatternMatch(d, p + "/" + x).None?
  {
    if x == "" {
      assert p + "/" + x == p + "/";
      DynamicMatchers.NoParameterNoMatch(d, p);
    } else {
      var (a, b) := Text.RSplitOnce(x, '/').value;
      assert p + "/" + x == (p + "/" + a) + ['/'] + b;
      Text.RSplitOnceUnique(p + "/" + a, '/', b);
    }
  }

  /** A prefix table of two entries tries the first, then the second. */
  lemma SubtreeOfTwo(first: string, h: HandlerId, second: string, h': HandlerId, t: string)
    ensures SubtreeMatchers.PatternMatch(SubtreeMatchers.Subtree([Match(first, h), Match(second, h')]), t)
            == if first <= t then Some((Match(first, h), t[|first|..]))
               else if second <= t then Some((Match(second, h'), t[|second|..]))
               else None
  {
    var routes := [Match(first, h), Match(second, h')];
    assert routes[1..] == [Match(second, h')];
    assert routes[1..][1..] == [];
    if !(first <= t) {
      if second <= t {
        assert SubtreeMatchers.FirstPrefix(routes[1..], t) == Some(0);
        assert SubtreeMatchers.FirstPrefix(routes, t) == Some(1);
      } else {
        assert SubtreeMatchers.FirstPrefix(routes[1..][1..], t) == None;
        assert SubtreeMatchers.FirstPrefix(routes[1..], t) == None;
      }
    }
  }

  /** A chain holding only `/` matches nothing else. */
  lemma RootOnly(target: string)
    requires target != "/"
    ensures PatternMatch(AddRoute(NewChain(), "/", 0), target).None?
  {
  }
}

=== FILE: decimal.dfy ===
/** Decimal text for unsigned integers: Rust's `Display` of an integer (used
    for the status code and `Content-Length` of a response) and
    `str::parse::<usize>` (used to read `Content-Length` from a request). */
module Decimal {
  import opened Wrappers

  /** `usize::MAX` on the 64-bit targets the server is built for. */
  const USIZE_MAX: nat := 0xFFFF_FFFF_FFFF_FFFF

  predicate IsDigit(c: char)
  {
    '0' <= c <= '9'
  }

  predicate AllDigits(s: string)
  {
    forall i :: 0 <= i < |s| ==> IsDigit(s[i])
  }

  function DigitChar(d: nat): (c: char)
    requires d < 10
    ensures IsDigit(c)
  {
    ('0' as int + d) as char
  }

  /** The number a string of decimal digits denotes, most significant first. */
  function DigitsValue(s: string): nat
    requires AllDigits(s)
  {
    if |s| == 0 then 0
    else DigitsValue(s[..|s| - 1]) * 10 + (s[|s| - 1] as int - '0' as int)
  }

  /** `n.to_string()`: the shortest decimal numeral of `n`. */
  function Show(n: nat): (r: string)
    ensures |r| > 0 && AllDigits(r)
    ensures |r| > 1 ==> r[0] != '0'
  {
    if n < 10 then [DigitChar(n)] else Show(n / 10) + [DigitChar(n % 10)]
  }

  /** The numeral `Show` writes denotes the number it was given. */
  lemma {:induction false} ShowValue(n: nat)
    ensures DigitsValue(Show(n)) == n
  {
    if n >= 10 {
      ShowValue(n / 10);
      var s := Show(n);
      assert s[..|s| - 1] == Show(n / 10);
    }
  }

  /** `str::parse::<usize>`: an optional `+`, then one or more ASCII digits,
      with a value that fits in `usize`. Anything else (an empty string, a
      sign alone, `-`, whitespace, an overflow) is an error, here None. */
  function ParseUsize(s: string): (r: Option<nat>)
    ensures r.Some? ==> r.value <= USIZE_MAX
    ensures r.Some? ==> |s| > 0 && (IsDigit(s[0]) || s[0] == '+') && AllDigits(s[1..])
  {
    var digits := if |s| > 0 && s[0] == '+' then s[1..] else s;
    if |digits| == 0 || !AllDigits(digits) then None
    else if DigitsValue(digits) > USIZE_MAX then None
    else Some(DigitsValue(digits))
  }

  /** Writing a `usize` and parsing it back gives the same number: the
      `Content-Length` a response writes is one a request reader accepts. */
  lemma ParseShow(n: nat)
    requires n <= USIZE_MAX
    ensures ParseUsize(Show(n)) == Some(n)
  {
    ShowValue(n);
  }

  /** Numbers beyond `usize::MAX` are rejected even when well formed. */
  lemma ParseOverflow(n: nat)
    requires n > USIZE_MAX
    ensures ParseUsize(Show(n)) == None
  {
    ShowValue(n);
  }
}

=== FILE: dynamic.dfy ===
/** The one-parameter table of a route chain (src/router/matcher/dynamic.rs):
    a pattern `<prefix>/:name` is stored under its prefix, and a target
    matches when the text before its last slash is a stored prefix and the
    text after it, the parameter, is not empty. Entries keep the full pattern
    as well, which is what a chain reports as the match. */
module DynamicMatchers {
  import opened Wrappers
  import opened Matches
  import Text

  datatype Dynamic = Dynamic(routes: map<string, Match>)

  function NewDynamic(): (d: Dynamic)
    ensures forall t :: PatternMatch(d, t).None?
  {
    Dynamic(map[])
  }

  /** The `assert!` of `add_route`: the prefix does not end with a slash. */
  predicate ValidPrefix(prefix: string)
  {
    !Text.EndsWith(prefix, "/")
  }

  /** `add_route`: the prefix is bound to the pattern and handler, replacing
      any earlier binding; every other prefix keeps its entry. */
  function AddRoute(d: Dynamic, prefix: string, pattern: string, handler: HandlerId): (d': Dynamic)
    requires ValidPrefix(prefix)
    ensures d'.routes.Keys == d.routes.Keys + {prefix}
    ensures d'.routes[prefix] == Match(pattern, handler)
    ensures forall p :: p in d.routes && p != prefix ==> d'.routes[p] == d.routes[p]
  {
    Dynamic(d.routes[prefix := Match(pattern, handler)])
  }

  /** `pattern_match`: split the target at its last slash; a missing slash,
      an empty parameter or an unknown prefix is no match. The parameter
      holds no slash, is not empty, and completes the prefix to the target. */
  function PatternMatch(d: Dynamic, target: string): (r: Option<(Match, string)>)
    ensures r.Some? ==> exists prefix :: prefix in d.routes && r.value.0 == d.routes[prefix]
                          && target == prefix + "/" + r.value.1
    ensures r.Some? ==> r.value.1 != "" && '/' !in r.value.1
    ensures '/' !in target ==> r.None?
    ensures Text.EndsWith(target, "/") ==> r.None?
  {
    match Text.RSplitOnce(target, '/')
    case None => None
    case Some((prefix, param)) =>
      if param == "" then None
      else if prefix !in d.routes then None
      else Some((d.routes[prefix], param))
  }

  /** The match is determined by the split at the last slash: for a
      non-empty, slash-free parameter, `prefix/param` matches exactly when
      `prefix` is registered, and then yields that entry and `param`. */
  lemma MatchOfSplit(d: Dynamic, prefix: string, param: string)
    requires param != "" && '/' !in param
    ensures PatternMatch(d, prefix + "/" + param)
            == if prefix in d.routes then Some((d.routes[prefix], param)) else None
  {
    Text.RSplitOnceUnique(prefix, '/', param);
  }

  /** A target that ends in a slash, or holds none, never matches. */
  lemma NoParameterNoMatch(d: Dynamic, prefix: string)
    ensures PatternMatch(d, prefix + "/").None?
  {
    assert Text.EndsWith(prefix + "/", "/");
  }
}

=== FILE: exact.dfy ===
/** The exact-match table of a route chain (src/router/matcher/exact.rs):
    a request target matches a pattern only when the two are the same
    string, with no normalisation at all. */
module ExactMatchers {
  import opened Wrappers
  import opened Matches
  import Text

  datatype Exact = Exact(routes: map<string, HandlerId>)

  function NewExact(): (e: Exact)
    ensures forall t :: PatternMatch(e, t).None?
  {
    Exact(map[])
  }

  /** The `assert!` of `add_route`: the root, or a pattern without a
      trailing slash (those belong to the subtree table). */
  predicate ValidPattern(pattern: string)
  {
    pattern == "/" || !Text.EndsWith(pattern, "/")
  }

  /** `add_route`: the pattern is bound to the handler, replacing any
      earlier binding; every other pattern keeps its handler. */
  function AddRoute(e: Exact, pattern: string, handler: HandlerId): (e': Exact)
    requires ValidPattern(pattern)
    ensures e'.routes.Keys == e.routes.Keys + {pattern}
    ensures e'.routes[pattern] == handler
    ensures forall p :: p in e.routes && p != pattern ==> e'.routes[p] == e.routes[p]
  {
    Exact(e.routes[pattern := handler])
  }

  /** `pattern_match`: the handler registered for exactly this target, and
      never a parameter. `exact.rs` returns the handler alone; `chain.rs`
      uses the result as a `Match` and its test reads the pattern from it, so
      the model pairs the handler with the pattern, which here is the target
      itself. */
  function PatternMatch(e: Exact, target: string): (m: Option<Match>)
    ensures m.Some? <==> target in e.routes
    ensures m.Some? ==> m.value == Match(target, e.routes[target])
  {
    if target in e.routes then Some(Match(target, e.routes[target])) else None
  }

  /** After `add_route(p, h)`, the target `p` finds `h` and every other
      target finds what it found before. */
  lemma AddThenMatch(e: Exact, pattern: string, handler: HandlerId, target: string)
    requires ValidPattern(pattern)
    ensures PatternMatch(AddRoute(e, pattern, handler), target)
            == if target == pattern then Some(Match(pattern, handler)) else PatternMatch(e, target)
  {
  }
}

=== FILE: headers.dfy ===
/** The header table of a request (src/headers.rs): header lines are parsed
    into a multi-valued map from the lower-cased field name to the
    comma-separated, trimmed field values, approximating field-line
    combination and case-insensitive names of sections 5.1 and 5.3 of RFC 9110. */
module Headers {
  import opened Wrappers
  import opened MultiMaps
  import SliceExt
  import Text
  import Decimal

  type HeaderMap = MultiMap<string, string>

  datatype HeaderError =
    | MissingColon   // a header line without `:`
    | ScalarExpected // `get_scalar` on a key holding a vector
    | InvalidNumber  // a `Content-Length` that `usize` parsing rejects

  /** `parse_values_line`: the line split at every comma, each piece trimmed,
      always stored as a vector, even for a single piece. */
  function ParseValuesLine(line: string): (v: Value<string>)
    ensures v.Vector? && |Items(v)| >= 1
    ensures forall i :: 0 <= i < |Items(v)| ==> ',' !in Items(v)[i]
    ensures forall i :: 0 <= i < |Items(v)| && |Items(v)[i]| > 0 ==>
              !Text.IsWhitespace(Items(v)[i][0]) && !Text.IsWhitespace(Items(v)[i][|Items(v)[i]| - 1])
  {
    var pieces := SliceExt.Split(line, ",");
    SliceExt.SplitJoin(line, ",");
    var values := seq(|pieces|, i requires 0 <= i < |pieces| => Text.Trim(pieces[i]));
    forall i | 0 <= i < |values|
      ensures ',' !in values[i]
    {
      TrimKeepsAbsent(pieces[i], ',');
    }
    Vector(values)
  }

  /** A character absent from `s` is absent from its trimmed form. */
  lemma TrimKeepsAbsent(s: string, c: char)
    requires SliceExt.Absent(s, [c])
    ensures c !in Text.Trim(s)
  {
    SliceExt.AbsentElement(s, c);
    var t := Text.Trim(s);
    var lo := Text.LeadingWhitespace(s);
    forall k | 0 <= k < |t|
      ensures t[k] != c
    {
      assert t[k] == s[lo + k];
    }
  }

  /** The values of a line are the trimmed text before its first comma
      followed by the values of the rest: together with
      `ParseValuesLineSingle` this pins down every value list. */
  lemma ParseValuesLineCons(first: string, rest: string)
    requires ',' !in first
    ensures Items(ParseValuesLine(first + "," + rest)) == [Text.Trim(first)] + Items(ParseValuesLine(rest))
  {
    var line := first + "," + rest;
    SliceExt.SplitCons(first, ',', rest);
    assert line == first + [','] + rest;
    var pieces := SliceExt.Split(line, ",");
    assert pieces == [first] + SliceExt.Split(rest, ",");
    ValuesArePieces(line);
    ValuesArePieces(rest);
    var l := Items(ParseValuesLine(line));
    var r := [Text.Trim(first)] + Items(ParseValuesLine(rest));
    assert |l| == |r|;
    forall i | 0 <= i < |l|
      ensures l[i] == r[i]
    {
      if i > 0 {
        assert pieces[i] == SliceExt.Split(rest, ",")[i - 1];
      }
    }
  }

  /** The values of a line are its comma-separated pieces, each trimmed. */
  lemma ValuesArePieces(line: string)
    ensures |Items(ParseValuesLine(line))| == |SliceExt.Split(line, ",")|
    ensures forall i :: 0 <= i < |SliceExt.Split(line, ",")| ==>
              Items(ParseValuesLine(line))[i] == Text.Trim(SliceExt.Split(line, ",")[i])
  {
  }

  /** A line without a comma holds one value: the trimmed line. */
  lemma ParseValuesLineSingle(line: string)
    requires ',' !in line
    ensures Items(ParseValuesLine(line)) == [Text.Trim(line)]
  {
    SliceExt.SplitSingle(line, ',');
  }

  /** One header line: the name is the text before the first colon,
      lower-cased but not trimmed; the values come from the text after it. */
  function ParseLine(line: string): (r: Result<(string, Value<string>), HeaderError>)
    ensures r.Err? <==> ':' !in line
    ensures r.Err? ==> r.error == MissingColon
    ensures r.Ok? ==> ':' !in r.value.0 && r.value.1.Vector?
    ensures r.Ok? ==> forall i :: 0 <= i < |r.value.0| ==> !('A' <= r.value.0[i] <= 'Z')
  {
    match SliceExt.SplitOnce(line, ":")
    case None =>
      SliceExt.AbsentElement(line, ':');
      Err(MissingColon)
    case Some((name, values)) =>
      SliceExt.SplitOnceLeftClean(line, ":");
      SliceExt.AbsentElement(name, ':');
      Text.LowerIdempotent(name);
      Ok((Text.Lower(name), ParseValuesLine(values)))
  }

  /** Reading a line back: `name:rest` with a colon-free name parses to the
      lower-cased name and the values of `rest`. */
  lemma ParseLineSplit(name: string, rest: string)
    requires ':' !in name
    ensures ParseLine(name + ":" + rest) == Ok((Text.Lower(name), ParseValuesLine(rest)))
  {
    var line := name + ":" + rest;
    assert SliceExt.OccursAt(line, ":", |name|);
    forall j | 0 <= j < |name|
      ensures !SliceExt.OccursAt(line, ":", j)
    {
      assert line[j] == name[j];
      assert line[j..j + 1] == [line[j]];
    }
    assert line[..|name|] == name;
    assert line[|name| + 1..] == rest;
  }

  /** `take_while(|line| !line.is_empty())`: the lines before the first empty one. */
  function HeaderLines(lines: seq<string>): (r: seq<string>)
    ensures r <= lines
    ensures forall i :: 0 <= i < |r| ==> r[i] != ""
    ensures |r| < |lines| ==> lines[|r|] == ""
  {
    if |lines| == 0 || lines[0] == "" then [] else [lines[0]] + HeaderLines(lines[1..])
  }

  /** `map(...).collect::<Result<_, _>>()` up to the map construction: the
      first error, or the parsed pairs of every line in order. */
  function ParseLines(lines: seq<string>): (r: Result<seq<(string, Value<string>)>, HeaderError>)
    ensures r.Err? ==> r.error == MissingColon
    ensures r.Ok? ==> |r.value| == |lines|
  {
    CollectFirstError(ParseLine, lines);
    Collect(ParseLine, lines)
  }

  /** Parsing the lines fails exactly when one of them has no colon. */
  lemma ParseLinesFails(lines: seq<string>)
    ensures ParseLines(lines).Err? <==> exists i :: 0 <= i < |lines| && ':' !in lines[i]
  {
    CollectFirstError(ParseLine, lines);
  }

  /** A successful parse yields each line's pair at that line's position. */
  lemma ParseLinesPairs(lines: seq<string>)
    ensures ParseLines(lines).Ok? ==>
              forall i :: 0 <= i < |lines| ==> ParseLine(lines[i]) == Ok(ParseLines(lines).value[i])
  {
    if ParseLines(lines).Ok? {
      CollectValues(ParseLine, lines);
    }
  }

  /** `Headers::parse` from the lines on: parsing stops at the first empty
      line, and a line without a colon fails the whole parse. */
  function ParseFromLines(lines: seq<string>): Result<HeaderMap, HeaderError>
  {
    match ParseLines(HeaderLines(lines))
    case Err(e) => Err(e)
    case Ok(pairs) => Ok(FromIter(pairs))
  }

  /** `Headers::parse`. */
  function Parse(raw: string): Result<HeaderMap, HeaderError>
  {
    ParseFromLines(Text.Lines(raw))
  }

  /** Lines after the first empty line are never looked at. */
  lemma ParseStopsAtBlank(lines: seq<string>, more: seq<string>)
    ensures ParseFromLines(lines + [""] + more) == ParseFromLines(HeaderLines(lines))
  {
    HeaderLinesBlank(lines, more);
    HeaderLinesIdempotent(lines);
    SameHeaderLinesSameParse(lines + [""] + more, HeaderLines(lines));
  }

  /** The parse depends on the header lines alone. */
  lemma SameHeaderLinesSameParse(a: seq<string>, b: seq<string>)
    requires HeaderLines(a) == HeaderLines(b)
    ensures ParseFromLines(a) == ParseFromLines(b)
  {
  }

  lemma {:induction false} HeaderLinesBlank(lines: seq<string>, more: seq<string>)
    ensures HeaderLines(lines + [""] + more) == HeaderLines(lines)
  {
    if |lines| > 0 && lines[0] != "" {
      assert (lines + [""] + more)[1..] == lines[1..] + [""] + more;
      HeaderLinesBlank(lines[1..], more);
    }
  }

  lemma {:induction false} HeaderLinesIdempotent(lines: seq<string>)
    ensures HeaderLines(HeaderLines(lines)) == HeaderLines(lines)
  {
    if |lines| > 0 && lines[0] != "" {
      HeaderLinesIdempotent(lines[1..]);
      assert ([lines[0]] + HeaderLines(lines[1..]))[1..] == HeaderLines(lines[1..]);
    }
  }

  /** The parse fails exactly when a line before the first empty line has no
      colon. */
  lemma ParseFailsIffColonMissing(raw: string)
    ensures Parse(raw).Err? <==>
              exists i :: 0 <= i < |HeaderLines(Text.Lines(raw))| && ':' !in HeaderLines(Text.Lines(raw))[i]
  {
    var lines := HeaderLines(Text.Lines(raw));
    ParseLinesFails(lines);
    if ParseLines(lines).Err? {
      assert Parse(raw).Err?;
      var i :| 0 <= i < |lines| && ':' !in lines[i];
      assert ':' !in HeaderLines(Text.Lines(raw))[i];
    } else {
      assert Parse(raw).Ok?;
    }
  }

  /** Every value the parser stores is a vector. */
  lemma {:induction false} FromIterKeepsVectors(pairs: seq<(string, Value<string>)>)
    requires forall i :: 0 <= i < |pairs| ==> pairs[i].1.Vector?
    ensures forall k :: k in FromIter(pairs).entries ==> FromIter(pairs).entries[k].Vector?
  {
    if |pairs| > 0 {
      FromIterKeepsVectors(pairs[..|pairs| - 1]);
    }
  }

  lemma ParsedValuesAreVectors(raw: string)
    ensures Parse(raw).Ok? ==>
              forall k :: k in Parse(raw).value.entries ==> Parse(raw).value.entries[k].Vector?
  {
    if Parse(raw).Err? {
      return;
    }
    var lines := HeaderLines(Text.Lines(raw));
    var pairs := ParseLines(lines).value;
    ParseLinesPairs(lines);
    assert forall i :: 0 <= i < |pairs| ==> ParseLine(lines[i]) == Ok(pairs[i]);
    FromIterKeepsVectors(pairs);
  }

  /** Repeated header lines with the same lower-cased name concatenate their
      values in line order: the stored value of `key` iterates over the
      values of every header line whose lower-cased name is `key`. */
  lemma ParsedValuesInLineOrder(raw: string, key: string)
    requires Parse(raw).Ok? && key in Parse(raw).value.entries
    ensures Items(Parse(raw).value.entries[key])
            == ItemsFor(ParseLines(HeaderLines(Text.Lines(raw))).value, key)
  {
    FromIterCollects(ParseLines(HeaderLines(Text.Lines(raw))).value);
  }

  /** `Headers::get_scalar`: the lookup lower-cases the key. */
  function GetScalar(h: HeaderMap, key: string): (r: Result<Option<string>, HeaderError>)
    ensures r == Ok(None) <==> Text.Lower(key) !in h.entries
    ensures r.Err? <==> Text.Lower(key) in h.entries && h.entries[Text.Lower(key)].Vector?
    ensures r.Err? ==> r.error == ScalarExpected
    ensures r.Ok? && r.value.Some? ==> h.entries[Text.Lower(key)] == Scalar(r.value.value)
  {
    match MultiMaps.GetScalar(h, Text.Lower(key))
    case Ok(v) => Ok(v)
    case Err(_) => Err(ScalarExpected)
  }

  /** `Headers::get_iter`: the lookup lower-cases the key. */
  function GetIter(h: HeaderMap, key: string): (r: Option<ValueIter<string>>)
    ensures r.Some? <==> Text.Lower(key) in h.entries
    ensures r.Some? ==> Drain(r.value) == Items(h.entries[Text.Lower(key)])
  {
    GetValueIter(h, Text.Lower(key))
  }

  /** Keys that differ only in ASCII case find the same entry. */
  lemma LookupIgnoresCase(h: HeaderMap, a: string, b: string)
    requires Text.Lower(a) == Text.Lower(b)
    ensures GetIter(h, a) == GetIter(h, b) && GetScalar(h, a) == GetScalar(h, b)
  {
  }

  /** `get_content_length` as written: absent is Ok(None); a scalar that
      parses as a `usize` is that number; a scalar that does not parse is an
      error; and, through `get_scalar`, a vector is an error too. */
  function GetContentLength(h: HeaderMap): (r: Result<Option<nat>, HeaderError>)
    ensures r == Ok(None) <==> "content-length" !in h.entries
    ensures r.Ok? && r.value.Some? <==>
              "content-length" in h.entries && h.entries["content-length"].Scalar?
              && Decimal.ParseUsize(h.entries["content-length"].scalar).Some?
    ensures r.Ok? && r.value.Some? ==>
              r.value.value == Decimal.ParseUsize(h.entries["content-length"].scalar).value
    ensures "content-length" in h.entries && h.entries["content-length"].Vector? ==> r == Err(ScalarExpected)
  {
    assert Text.Lower("content-length") == "content-length";
    match GetScalar(h, "content-length")
    case Err(e) => Err(e)
    case Ok(None) => Ok(None)
    case Ok(Some(s)) =>
      match Decimal.ParseUsize(s)
      case None => Err(InvalidNumber)
      case Some(n) => Ok(Some(n))
  }

  /** The `Content-Length` a request announces, reading a single-valued
      vector as the value: what `get_content_length` is evidently meant to
      return for headers produced by `parse`. */
  function ContentLength(h: HeaderMap): (r: Result<Option<nat>, HeaderError>)
    ensures r == Ok(None) <==> "content-length" !in h.entries
    ensures r.Ok? && r.value.Some? <==>
              "content-length" in h.entries && |Items(h.entries["content-length"])| == 1
              && Decimal.ParseUsize(Items(h.entries["content-length"])[0]).Some?
    ensures r.Ok? && r.value.Some? ==>
              r.value.value == Decimal.ParseUsize(Items(h.entries["content-length"])[0]).value
  {
    if "content-length" !in h.entries then Ok(None)
    else
      var values := Items(h.entries["content-length"]);
      if |values| != 1 then Err(ScalarExpected)
      else match Decimal.ParseUsize(values[0])
        case None => Err(InvalidNumber)
        case Some(n) => Ok(Some(n))
  }

  /** `get_user_agent` as written: the `User-Agent` through `get_scalar`,
      so a vector is an error. */
  function GetUserAgent(h: HeaderMap): (r: Result<Option<string>, HeaderError>)
    ensures r == Ok(None) <==> "user-agent" !in h.entries
    ensures r.Err? <==> "user-agent" in h.entries && h.entries["user-agent"].Vector?
    ensures r.Ok? && r.value.Some? ==> h.entries["user-agent"] == Scalar(r.value.value)
  {
    assert Text.Lower("user-agent") == "user-agent";
    GetScalar(h, "user-agent")
  }

  /** The `User-Agent` a request announces, reading a single-valued vector
      as the value: what `get_user_agent` is evidently meant to return for
      headers produced by `parse`. */
  function UserAgent(h: HeaderMap): (r: Result<Option<string>, HeaderError>)
    ensures r == Ok(None) <==> "user-agent" !in h.entries
    ensures r.Ok? && r.value.Some? <==> "user-agent" in h.entries && |Items(h.entries["user-agent"])| == 1
    ensures r.Ok? && r.value.Some? ==> r.value.value == Items(h.entries["user-agent"])[0]
  {
    if "user-agent" !in h.entries then Ok(None)
    else
      var values := Items(h.entries["user-agent"]);
      if |values| == 1 then Ok(Some(values[0])) else Err(ScalarExpected)
  }

  /** `get_accept_encoding`: every value of the `Accept-Encoding` lines. */
  function GetAcceptEncoding(h: HeaderMap): (r: Option<ValueIter<string>>)
    ensures r.Some? <==> "accept-encoding" in h.entries
    ensures r.Some? ==> Drain(r.value) == Items(h.entries["accept-encoding"])
  {
    assert Text.Lower("accept-encoding") == "accept-encoding";
    GetIter(h, "accept-encoding")
  }

  /** `get_connection`: every value of the `Connection` lines. */
  function GetConnection(h: HeaderMap): (r: Option<ValueIter<string>>)
    ensures r.Some? <==> "connection" in h.entries
    ensures r.Some? ==> Drain(r.value) == Items(h.entries["connection"])
  {
    assert Text.Lower("connection") == "connection";
    GetIter(h, "connection")
  }

  /** `get_user_agent` as written rejects every `User-Agent` line that
      `parse` produces, since the parsed value is a vector. */
  lemma UserAgentRejectedAsWritten(value: string)
    requires PlainValue(value)
    ensures Parse("User-Agent: " + value + "\r\n\r\n").Ok?
    ensures GetUserAgent(Parse("User-Agent: " + value + "\r\n\r\n").value) == Err(ScalarExpected)
  {
    UserAgentHead(value);
  }

  /** Reading the one-element vector as the value gives back the agent. */
  lemma UserAgentReadBack(value: string)
    requires PlainValue(value)
    ensures Parse("User-Agent: " + value + "\r\n\r\n").Ok?
    ensures UserAgent(Parse("User-Agent: " + value + "\r\n\r\n").value) == Ok(Some(value))
  {
    UserAgentHead(value);
  }

  lemma UserAgentHead(value: string)
    requires PlainValue(value)
    ensures Parse("User-Agent: " + value + "\r\n\r\n").Ok?
    ensures Parse("User-Agent: " + value + "\r\n\r\n").value.entries == map["user-agent" := Vector([value])]
  {
    assert ':' !in "User-Agent" && '\n' !in "User-Agent";
    assert Text.Lower("User-Agent") == "user-agent";
    assert "User-Agent: " == "User-Agent" + ": ";
    ParseSingleHeader("User-Agent", value);
  }

  /** A value with no comma, no line break and no surrounding whitespace. */
  predicate PlainValue(value: string)
  {
    |value| > 0 && ',' !in value && '\n' !in value
    && !Text.IsWhitespace(value[0]) && !Text.IsWhitespace(value[|value| - 1])
  }

  /** The line `Name: value` parses to the lower-cased name and the value alone. */
  lemma ParseHeaderLine(name: string, value: string)
    requires ':' !in name && PlainValue(value)
    ensures ParseLine(name + ": " + value) == Ok((Text.Lower(name), Vector([value])))
  {
    assert name + ": " + value == name + ":" + (" " + value);
    ParseLineSplit(name, " " + value);
    ParseValuesLineSingle(" " + value);
    Text.TrimLeadingSpace(value);
  }

  /** `Name: value` followed by CRLF is one line of `Lines`. */
  lemma HeaderLineIsOneLine(name: string, value: string, rest: string)
    requires '\n' !in name && PlainValue(value)
    ensures Text.Lines(name + ": " + value + "\r\n" + rest) == [name + ": " + value] + Text.Lines(rest)
  {
    var line := name + ": " + value;
    assert line[|line| - 1] == value[|value| - 1];
    Text.LinesCons(line, rest);
  }

  /** A head of header lines ending in an empty line parses to the map built
      from the lines' pairs, when every line parses; whatever follows the
      empty line plays no part. */
  lemma ParseHead(raw: string, lines: seq<string>, more: seq<string>, pairs: seq<(string, Value<string>)>)
    requires Text.Lines(raw) == lines + [""] + more
    requires |pairs| == |lines|
    requires forall i :: 0 <= i < |lines| ==> lines[i] != "" && ParseLine(lines[i]) == Ok(pairs[i])
    ensures Parse(raw) == Ok(FromIter(pairs))
  {
    HeaderLinesBlank(lines, more);
    HeaderLinesAll(lines);
    ParseLinesAll(lines, pairs);
  }

  /** Two header lines `Name: value`, the empty line and anything after it
      parse to the map built from the two lines' pairs, in order. */
  lemma ParseTwoHeaderLines(raw: string, n1: string, v1: string, n2: string, v2: string, more: seq<string>)
    requires ':' !in n1 && PlainValue(v1) && ':' !in n2 && PlainValue(v2)
    requires Text.Lines(raw) == [n1 + ": " + v1, n2 + ": " + v2] + [""] + more
    ensures Parse(raw) == Ok(FromIter([(Text.Lower(n1), Vector([v1])), (Text.Lower(n2), Vector([v2]))]))
  {
    ParseHeaderLine(n1, v1);
    ParseHeaderLine(n2, v2);
    ParseHeadTwo(raw, n1 + ": " + v1, n2 + ": " + v2, more, (Text.Lower(n1), Vector([v1])), (Text.Lower(n2), Vector([v2])));
  }

  lemma ParseHeadTwo(raw: string, l1: string, l2: string, more: seq<string>, p1: (string, Value<string>), p2: (string, Value<string>))
    requires Text.Lines(raw) == [l1, l2] + [""] + more
    requires l1 != "" && l2 != "" && ParseLine(l1) == Ok(p1) && ParseLine(l2) == Ok(p2)
    ensures Parse(raw) == Ok(FromIter([p1, p2]))
  {
    var lines, pairs := [l1, l2], [p1, p2];
    forall i | 0 <= i < |lines|
      ensures lines[i] != "" && ParseLine(lines[i]) == Ok(pairs[i])
    {
      if i == 1 {
        assert lines[i] == l2 && pairs[i] == p2;
      }
    }
    ParseHead(raw, lines, more, pairs);
  }

  lemma {:induction false} HeaderLinesAll(lines: seq<string>)
    requires forall i :: 0 <= i < |lines| ==> lines[i] != ""
    ensures HeaderLines(lines) == lines
  {
    if |lines| > 0 {
      HeaderLinesAll(lines[1..]);
    }
  }

  /** Lines that each parse give exactly their pairs. */
  lemma ParseLinesAll(lines: seq<string>, pairs: seq<(string, Value<string>)>)
    requires |pairs| == |lines|
    requires forall i :: 0 <= i < |lines| ==> ParseLine(lines[i]) == Ok(pairs[i])
    ensures ParseLines(lines) == Ok(pairs)
  {
    CollectAll(ParseLine, lines, pairs);
  }

  /** The text a head ends with, `\r\n` alone, is one empty line. */
  lemma EmptyLine()
    ensures Text.Lines("\r\n") == [""]
  {
    Text.LinesCons("", "");
    assert "" + "\r\n" + "" == "\r\n";
  }

  /** A head holding a single header line parses to a map with one key,
      the lower-cased name, holding the value as a one-element vector. */
  lemma ParseSingleHeader(name: string, value: string)
    requires ':' !in name && '\n' !in name && PlainValue(value)
    ensures Parse(name + ": " + value + "\r\n\r\n").Ok?
    ensures Parse(name + ": " + value + "\r\n\r\n").value.entries == map[Text.Lower(name) := Vector([value])]
  {
    var line := name + ": " + value;
    var raw := name + ": " + value + "\r\n\r\n";
    var pair := (Text.Lower(name), Vector([value]));
    assert Text.Lines(raw) == [line] + [""] + [] by {
      assert raw == line + "\r\n" + "\r\n";
      HeaderLineIsOneLine(name, value, "\r\n");
      EmptyLine();
    }
    assert ParseLine(line) == Ok(pair) by { ParseHeaderLine(name, value); }
    assert Parse(raw) == Ok(FromIter([pair])) by {
      ParseHead(raw, [line], [], [pair]);
    }
    FromIterSingle(pair.0, pair.1);
  }

  /** Two header lines with the same name (two `Set-Cookie` lines, say)
      keep both values, in line order, under the lower-cased name, and a
      lookup by the name as written finds them. */
  lemma RepeatedHeaderKeepsBoth(name: string, v1: string, v2: string)
    requires ':' !in name && '\n' !in name && PlainValue(v1) && PlainValue(v2)
    ensures Parse(name + ": " + v1 + "\r\n" + name + ": " + v2 + "\r\n\r\n").Ok?
    ensures GetIter(Parse(name + ": " + v1 + "\r\n" + name + ": " + v2 + "\r\n\r\n").value, name).Some?
    ensures Drain(GetIter(Parse(name + ": " + v1 + "\r\n" + name + ": " + v2 + "\r\n\r\n").value, name).value)
            == [v1, v2]
  {
    var key := Text.Lower(name);
    var p1, p2 := (key, Vector([v1])), (key, Vector([v2]));
    var pairs := [p1, p2];
    RepeatedHeaderHead(name, v1, v2);
    FromIterCollects(pairs);
    assert pairs[..1] == [p1];
    assert [p1][..0] == pairs[..0];
    assert ItemsFor([p1], key) == [v1];
    assert ItemsFor(pairs, key) == ItemsFor([p1], key) + [v2];
  }

  lemma RepeatedHeaderHead(name: string, v1: string, v2: string)
    requires ':' !in name && '\n' !in name && PlainValue(v1) && PlainValue(v2)
    ensures Parse(name + ": " + v1 + "\r\n" + name + ": " + v2 + "\r\n\r\n")
            == Ok(FromIter([(Text.Lower(name), Vector([v1])), (Text.Lower(name), Vector([v2]))]))
  {
    RepeatedHeaderLines(name, v1, v2);
    ParseTwoHeaderLines(name + ": " + v1 + "\r\n" + name + ": " + v2 + "\r\n\r\n", name, v1, name, v2, []);
  }

  lemma RepeatedHeaderLines(name: string, v1: string, v2: string)
    requires '\n' !in name && PlainValue(v1) && PlainValue(v2)
    ensures Text.Lines(name + ": " + v1 + "\r\n" + name + ": " + v2 + "\r\n\r\n")
            == [name + ": " + v1, name + ": " + v2] + [""] + []
  {
    var raw := name + ": " + v1 + "\r\n" + name + ": " + v2 + "\r\n\r\n";
    assert raw == name + ": " + v1 + "\r\n" + name + ": " + v2 + "\r\n" + "\r\n" + "";
    TwoLinesThenBody(name, v1, name, v2, "");
  }

  /** `get_content_length` as written rejects every `Content-Length` that
      `parse` produces: the parsed value is a one-element vector, not a scalar. */
  lemma ContentLengthRejectedAsWritten(n: nat)
    ensures Parse("Content-Length: " + Decimal.Show(n) + "\r\n\r\n").Ok?
    ensures GetContentLength(Parse("Content-Length: " + Decimal.Show(n) + "\r\n\r\n").value) == Err(ScalarExpected)
  {
    ContentLengthHead(n);
  }

  /** Reading the one-element vector as the value gives back the announced length. */
  lemma ContentLengthReadBack(n: nat)
    requires n <= Decimal.USIZE_MAX
    ensures Parse("Content-Length: " + Decimal.Show(n) + "\r\n\r\n").Ok?
    ensures ContentLength(Parse("Content-Length: " + Decimal.Show(n) + "\r\n\r\n").value) == Ok(Some(n))
  {
    ContentLengthHead(n);
    Decimal.ParseShow(n);
  }

  lemma ContentLengthHead(n: nat)
    ensures Parse("Content-Length: " + Decimal.Show(n) + "\r\n\r\n").Ok?
    ensures Parse("Content-Length: " + Decimal.Show(n) + "\r\n\r\n").value.entries
            == map["content-length" := Vector([Decimal.Show(n)])]
  {
    var digits := Decimal.Show(n);
    DigitsArePlain(digits);
    ContentLengthName();
    assert "Content-Length: " == "Content-Length" + ": ";
    ParseSingleHeader("Content-Length", digits);
  }

  lemma ContentLengthName()
    ensures ':' !in "Content-Length" && '\n' !in "Content-Length"
    ensures Text.Lower("Content-Length") == "content-length"
  {
  }

  lemma DigitsArePlain(digits: string)
    requires |digits| > 0 && Decimal.AllDigits(digits)
    ensures PlainValue(digits)
  {
    assert Decimal.IsDigit(digits[0]) && Decimal.IsDigit(digits[|digits| - 1]);
  }

  /** Two header lines with different names, the empty line, then anything:
      each lower-cased name holds its own value, and nothing after the empty
      line is read. */
  lemma ParseTwoHeadersThenBody(n1: string, v1: string, n2: string, v2: string, body: string)
    requires ':' !in n1 && '\n' !in n1 && PlainValue(v1)
    requires ':' !in n2 && '\n' !in n2 && PlainValue(v2)
    requires Text.Lower(n1) != Text.Lower(n2)
    ensures Parse(n1 + ": " + v1 + "\r\n" + n2 + ": " + v2 + "\r\n" + "\r\n" + body).Ok?
    ensures Parse(n1 + ": " + v1 + "\r\n" + n2 + ": " + v2 + "\r\n" + "\r\n" + body).value.entries
            == map[Text.Lower(n1) := Vector([v1]), Text.Lower(n2) := Vector([v2])]
  {
    var raw := n1 + ": " + v1 + "\r\n" + n2 + ": " + v2 + "\r\n" + "\r\n" + body;
    TwoLinesThenBody(n1, v1, n2, v2, body);
    ParseTwoHeaderLines(raw, n1, v1, n2, v2, Text.Lines(body));
    FromIterTwo((Text.Lower(n1), Vector([v1])), (Text.Lower(n2), Vector([v2])));
  }

  lemma TwoLinesThenBody(n1: string, v1: string, n2: string, v2: string, body: string)
    requires '\n' !in n1 && PlainValue(v1) && '\n' !in n2 && PlainValue(v2)
    ensures Text.Lines(n1 + ": " + v1 + "\r\n" + n2 + ": " + v2 + "\r\n" + "\r\n" + body)
            == [n1 + ": " + v1, n2 + ": " + v2] + [""] + Text.Lines(body)
  {
    var raw := n1 + ": " + v1 + "\r\n" + n2 + ": " + v2 + "\r\n" + "\r\n" + body;
    var first := n1 + ": " + v1;
    var second := n2 + ": " + v2;
    var tail := "" + "\r\n" + body;
    assert raw == first + "\r\n" + (second + "\r\n" + tail);
    assert Text.Lines(tail) == [""] + Text.Lines(body) by {
      Text.LinesCons("", body);
    }
    assert Text.Lines(second + "\r\n" + tail) == [second] + Text.Lines(tail) by {
      HeaderLineIsOneLine(n2, v2, tail);
    }
    assert Text.Lines(raw) == [first] + Text.Lines(second + "\r\n" + tail) by {
      HeaderLineIsOneLine(n1, v1, second + "\r\n" + tail);
    }
  }

  lemma FromIterTwo(p1: (string, Value<string>), p2: (string, Value<string>))
    requires p1.0 != p2.0
    ensures FromIter([p1, p2]).entries == map[p1.0 := p1.1, p2.0 := p2.1]
  {
    FromIterSingle(p1.0, p1.1);
    assert [p1, p2][..1] == [p1];
  }
}

=== FILE: legacy_router.dfy ===
/** The earlier, method-blind router (src/router.rs): an exact table and a
    one-parameter table, both keyed by strings. Patterns and targets both
    lose one trailing slash before use (except the root), and the
    one-parameter table is asked first, by the text before the target's
    last slash. */
module LegacyRouters {
  import opened Wrappers
  import opened Matches
  import Text
  import Requests
  import ResponseWriters
  import StatusCodes

  datatype LegacyRouter = LegacyRouter(exact: map<string, HandlerId>, dynamic: map<string, HandlerId>)

  function NewRouter(): (r: LegacyRouter)
    ensures r.exact == map[] && r.dynamic == map[]
  {
    LegacyRouter(map[], map[])
  }

  predicate StartsWithSlash(s: string)
  {
    |s| > 0 && s[0] == '/'
  }

  /** One trailing slash removed, the root excepted. `add_route` does this
      to every pattern other than `/`, `handle` to every target. */
  function Normalise(s: string): (n: string)
    ensures n == s || (s != "/" && n + "/" == s)
    ensures s != "/" && !Text.EndsWith(s, "/") ==> n == s
    ensures StartsWithSlash(s) ==> '/' in n
  {
    if s != "/" && Text.EndsWith(s, "/") then
      assert s == s[..|s| - 1] + "/";
      s[..|s| - 1]
    else s
  }

  /** Where `add_route` files a pattern. */
  datatype Slot = ExactSlot(key: string) | DynamicSlot(prefix: string)

  /** The root is exact; any other pattern loses one trailing slash and is
      then split at its last slash: a colon-led last segment files it as a
      one-parameter pattern under the text before, anything else as an
      exact pattern under the whole shortened pattern. */
  function Classify(pattern: string): (s: Slot)
    requires StartsWithSlash(pattern)
    ensures s.ExactSlot? ==> s.key == Normalise(pattern)
    ensures s.DynamicSlot? ==>
              var n := Normalise(pattern);
              |s.prefix| + 1 < |n| && n[..|s.prefix| + 1] == s.prefix + "/"
              && n[|s.prefix| + 1] == ':' && '/' !in n[|s.prefix| + 1..]
  {
    if pattern == "/" then ExactSlot(pattern)
    else
      var p := Normalise(pattern);
      var (prefix, suffix) := Text.RSplitOnce(p, '/').value;
      if |suffix| > 0 && suffix[0] == ':' then
        assert p == prefix + "/" + suffix;
        DynamicSlot(prefix)
      else ExactSlot(p)
  }

  /** `prefix/:name`, with or without a trailing slash, is filed under `prefix`. */
  lemma ClassifyDynamic(prefix: string, name: string, trailing: bool)
    requires '/' !in name && (prefix == "" || prefix[0] == '/')
    ensures StartsWithSlash(prefix + "/:" + name + (if trailing then "/" else ""))
    ensures Classify(prefix + "/:" + name + (if trailing then "/" else "")) == DynamicSlot(prefix)
  {
    var p := prefix + "/:" + name;
    assert p[|p| - 1] != '/';
    NormaliseOptionalSlash(p, trailing);
    SplitParameterPattern(prefix, name);
  }

  lemma SplitParameterPattern(prefix: string, name: string)
    requires '/' !in name
    ensures Text.RSplitOnce(prefix + "/:" + name, '/') == Some((prefix, ":" + name))
  {
    assert prefix + "/:" + name == prefix + ['/'] + (":" + name);
    assert '/' !in ":" + name;
    Text.RSplitOnceUnique(prefix, '/', ":" + name);
  }

  /** A path not ending in a slash is what normalising gives back for it
      and for it with one slash added. */
  lemma NormaliseOptionalSlash(p: string, trailing: bool)
    requires p != "" && p[|p| - 1] != '/'
    ensures Normalise(p + (if trailing then "/" else "")) == p
  {
    var pattern := p + (if trailing then "/" else "");
    if trailing {
      assert pattern[..|pattern| - 1] == p;
    } else {
      assert pattern == p;
    }
  }

  /** `add_route`: the pattern must start with a slash (`assert!`); a
      later pattern in the same slot replaces the earlier one. */
  function AddRoute(r: LegacyRouter, pattern: string, handler: HandlerId): (r': LegacyRouter)
    requires StartsWithSlash(pattern)
    ensures Classify(pattern).ExactSlot? ==>
              r' == r.(exact := r.exact[Classify(pattern).key := handler])
    ensures Classify(pattern).DynamicSlot? ==>
              r' == r.(dynamic := r.dynamic[Classify(pattern).prefix := handler])
  {
    match Classify(pattern)
    case ExactSlot(key) => r.(exact := r.exact[key := handler])
    case DynamicSlot(prefix) => r.(dynamic := r.dynamic[prefix := handler])
  }

  datatype Outcome = Dispatch(handler: HandlerId, param: Option<string>) | NotFound

  /** The routing decision of `handle` for a target: after normalising,
      the text before the last slash is looked up in the one-parameter
      table, whose hit passes the last segment on as the parameter; then
      the normalised target in the exact table. `rsplit_once(...).unwrap()`
      demands a slash in the normalised target. */
  function Route(r: LegacyRouter, target: string): (o: Outcome)
    requires '/' in Normalise(target)
    ensures o.Dispatch? && o.param.Some? ==>
              '/' !in o.param.value && |o.param.value| < |Normalise(target)|
              && var prefix := Normalise(target)[..|Normalise(target)| - |o.param.value| - 1];
                 prefix in r.dynamic && o.handler == r.dynamic[prefix]
                 && Normalise(target) == prefix + "/" + o.param.value
    ensures o.Dispatch? && o.param.None? ==>
              Normalise(target) in r.exact && o.handler == r.exact[Normalise(target)]
    ensures Normalise(target) in r.exact ==> o.Dispatch?
    ensures forall prefix, param :: Normalise(target) == prefix + "/" + param && '/' !in param ==>
              o == if prefix in r.dynamic then Dispatch(r.dynamic[prefix], Some(param))
                   else if Normalise(target) in r.exact then Dispatch(r.exact[Normalise(target)], None)
                   else NotFound
  {
    var uri := Normalise(target);
    var (prefix, param) := Text.RSplitOnce(uri, '/').value;
    Text.RSplitOnceOnly(uri, '/', prefix, param);
    if prefix in r.dynamic then
      assert uri[..|uri| - |param| - 1] == prefix;
      Dispatch(r.dynamic[prefix], Some(param))
    else if uri in r.exact then Dispatch(r.exact[uri], None)
    else NotFound
  }

  /** The decision is made by the last slash of the normalised target: for
      a slash-free `param`, `prefix/param` goes to `prefix`'s one-parameter
      handler if there is one, else to the exact handler of the whole. */
  lemma RouteOfSplit(r: LegacyRouter, prefix: string, param: string)
    requires '/' !in param && (param != "" || prefix == "")
    ensures Normalise(prefix + "/" + param) == prefix + "/" + param
    ensures Route(r, prefix + "/" + param)
            == if prefix in r.dynamic then Dispatch(r.dynamic[prefix], Some(param))
               else if prefix + "/" + param in r.exact then Dispatch(r.exact[prefix + "/" + param], None)
               else NotFound
  {
    var t := prefix + "/" + param;
    if param != "" {
      assert t[|t| - 1] == param[|param| - 1];
    } else {
      assert t == "/";
    }
    Text.RSplitOnceUnique(prefix, '/', param);
  }

  /** One trailing slash on a non-root target changes nothing. */
  lemma TrailingSlashIgnored(r: LegacyRouter, target: string)
    requires target != "" && !Text.EndsWith(target, "/") && '/' in target
    ensures Normalise(target + "/") == target && Normalise(target) == target
    ensures Route(r, target + "/") == Route(r, target)
  {
    assert target + "/" != "/" && (target + "/")[..|target|] == target;
  }

  /** `handle`: the routing decision applied. A dispatched handler's own
      effect on the response is not part of routing, so the writer comes
      back as it was; a one-parameter hit sets the request's parameter; a
      miss sets the status to 404 and nothing else. */
  function Handle(r: LegacyRouter, w: ResponseWriters.ResponseWriter, req: Requests.Request)
    : (res: (Outcome, ResponseWriters.ResponseWriter, Requests.Request))
    requires |Requests.Fields(req.statusLine)| >= 2 && '/' in Normalise(Requests.RequestTarget(req))
    ensures res.0 == Route(r, Requests.RequestTarget(req))
    ensures res.0.Dispatch? ==> res.1 == w
    ensures res.0.NotFound? ==> res.1 == ResponseWriters.SetReasonPhrase(w, StatusCodes.NotFound)
                                && res.1.statusCode == Some(404)
    ensures res.0.Dispatch? && res.0.param.Some? ==> res.2 == Requests.SetParam(req, res.0.param.value)
    ensures !(res.0.Dispatch? && res.0.param.Some?) ==> res.2 == req
  {
    var o := Route(r, Requests.RequestTarget(req));
    assert StatusCodes.Code(StatusCodes.NotFound) == 404;
    match o
    case Dispatch(_, Some(param)) => (o, w, Requests.SetParam(req, param))
    case Dispatch(_, None) => (o, w, req)
    case NotFound => (o, ResponseWriters.SetReasonPhrase(w, StatusCodes.NotFound), req)
  }

  /** A fresh writer keeps no status exactly when the request was
      dispatched (to a handler that sets none). */
  lemma StatusUnsetIffDispatched(r: LegacyRouter, req: Requests.Request)
    requires |Requests.Fields(req.statusLine)| >= 2 && '/' in Normalise(Requests.RequestTarget(req))
    ensures Handle(r, ResponseWriters.NewEmpty(), req).1.statusCode.None?
            <==> Handle(r, ResponseWriters.NewEmpty(), req).0.Dispatch?
  {
  }

  /** The root pattern is kept in the exact table under `/`. */
  lemma RootIsExact(handler: HandlerId)
    ensures AddRoute(NewRouter(), "/", handler) == LegacyRouter(map["/" := handler], map[])
  {
  }

  /** An exact pattern of one plain segment goes into the exact table as it is. */
  lemma AddSegment(r: LegacyRouter, seg: string, handler: HandlerId)
    requires seg != "" && '/' !in seg && seg[0] != ':'
    ensures AddRoute(r, "/" + seg, handler) == r.(exact := r.exact["/" + seg := handler])
  {
    var p := "/" + seg;
    assert p == "" + "/" + seg;
    assert p[|p| - 1] != '/';
    Text.RSplitOnceUnique("", '/', seg);
  }

  /** A one-parameter pattern goes into the one-parameter table under its prefix. */
  lemma AddParameterPattern(r: LegacyRouter, prefix: string, name: string, handler: HandlerId)
    requires '/' !in name && (prefix == "" || prefix[0] == '/')
    ensures StartsWithSlash(prefix + "/:" + name)
    ensures AddRoute(r, prefix + "/:" + name, handler) == r.(dynamic := r.dynamic[prefix := handler])
  {
    ClassifyDynamic(prefix, name, false);
    assert prefix + "/:" + name + "" == prefix + "/:" + name;
  }

  /** The router of the examples: `/`, then `/<seg>/:<name>`, and, when
      `withExact`, `/<seg>` as well; handlers numbered in order. */
  function Example(seg: string, name: string, withExact: bool): LegacyRouter
    requires '/' !in seg && '/' !in name
  {
    var r := AddRoute(AddRoute(NewRouter(), "/", 0), "/" + seg + "/:" + name, 1);
    if withExact then AddRoute(r, "/" + seg, 2) else r
  }

  predicate SegmentNames(seg: string, name: string)
  {
    seg != "" && '/' !in seg && seg[0] != ':' && '/' !in name
  }

  /** The tables of the example router, written out. */
  function ExampleTables(seg: string, withExact: bool): LegacyRouter
  {
    LegacyRouter(if withExact then map["/" := 0, "/" + seg := 2] else map["/" := 0], map["/" + seg := 1])
  }

  lemma ExampleShape(seg: string, name: string, withExact: bool)
    requires SegmentNames(seg, name)
    ensures Example(seg, name, withExact) == ExampleTables(seg, withExact)
  {
    var r0 := AddRoute(NewRouter(), "/", 0);
    AddParameterPattern(r0, "/" + seg, name, 1);
    if withExact {
      AddSegment(AddRoute(r0, "/" + seg + "/:" + name, 1), seg, 2);
    }
  }

  /** Against the examples, `/` reaches the root handler, `/<seg>/<v>`
      and `/<seg>/<v>/` reach `/<seg>/:<name>` with `v` as parameter, and
      `/<seg>/<v>/<w>` is not found. */
  lemma ExampleParameter(seg: string, name: string, withExact: bool, v: string, w: string)
    requires SegmentNames(seg, name) && v != "" && '/' !in v && w != "" && '/' !in w
    ensures Route(Example(seg, name, withExact), "/") == Dispatch(0, None)
    ensures Route(Example(seg, name, withExact), "/" + seg + "/" + v) == Dispatch(1, Some(v))
    ensures Normalise("/" + seg + "/" + v + "/") == "/" + seg + "/" + v
    ensures Route(Example(seg, name, withExact), "/" + seg + "/" + v + "/") == Dispatch(1, Some(v))
    ensures Route(Example(seg, name, withExact), "/" + seg + "/" + v + "/" + w) == NotFound
  {
    ExampleShape(seg, name, withExact);
    TablesRoot(seg, withExact);
    TablesParameter(seg, withExact, v);
    TablesDeeper(seg, withExact, v, w);
  }

  lemma TablesRoot(seg: string, withExact: bool)
    requires seg != "" && '/' !in seg
    ensures Route(ExampleTables(seg, withExact), "/") == Dispatch(0, None)
  {
    RouteOfSplit(ExampleTables(seg, withExact), "", "");
  }

  lemma TablesParameter(seg: string, withExact: bool, v: string)
    requires seg != "" && '/' !in seg && v != "" && '/' !in v
    ensures Route(ExampleTables(seg, withExact), "/" + seg + "/" + v) == Dispatch(1, Some(v))
    ensures Normalise("/" + seg + "/" + v + "/") == "/" + seg + "/" + v
    ensures Route(ExampleTables(seg, withExact), "/" + seg + "/" + v + "/") == Dispatch(1, Some(v))
  {
    var r := ExampleTables(seg, withExact);
    RouteOfSplit(r, "/" + seg, v);
    TrailingSlashIgnored(r, "/" + seg + "/" + v);
  }

  lemma TablesDeeper(seg: string, withExact: bool, v: string, w: string)
    requires seg != "" && '/' !in seg && w != "" && '/' !in w
    ensures Route(ExampleTables(seg, withExact), "/" + seg + "/" + v + "/" + w) == NotFound
  {
    var r := ExampleTables(seg, withExact);
    var prefix := "/" + seg + "/" + v;
    RouteOfSplit(r, prefix, w);
    assert |prefix| > |"/" + seg|;
    assert |prefix + "/" + w| > |"/" + seg|;
  }

  /** `/<seg>` and `/<seg>/` are not found when only `/<seg>/:<name>` is
      registered, and reach `/<seg>` when it is. */
  lemma ExampleBareSegment(seg: string, name: string, withExact: bool)
    requires SegmentNames(seg, name)
    ensures Normalise("/" + seg + "/") == "/" + seg
    ensures Route(Example(seg, name, withExact), "/" + seg)
            == if withExact then Dispatch(2, None) else NotFound
    ensures Route(Example(seg, name, withExact), "/" + seg + "/")
            == Route(Example(seg, name, withExact), "/" + seg)
  {
    ExampleShape(seg, name, withExact);
    TablesBareSegment(seg, withExact);
  }

  lemma TablesBareSegment(seg: string, withExact: bool)
    requires seg != "" && '/' !in seg
    ensures Normalise("/" + seg + "/") == "/" + seg
    ensures Route(ExampleTables(seg, withExact), "/" + seg)
            == if withExact then Dispatch(2, None) else NotFound
    ensures Route(ExampleTables(seg, withExact), "/" + seg + "/")
            == Route(ExampleTables(seg, withExact), "/" + seg)
  {
    var r := ExampleTables(seg, withExact);
    assert "/" + seg == "" + "/" + seg;
    RouteOfSplit(r, "", seg);
    TrailingSlashIgnored(r, "/" + seg);
  }

  /** A target that doubles the slash after a one-parameter prefix keeps,
      after normalising, an empty last segment, and reaches the handler
      with an empty parameter. */
  lemma EmptyParameterReachesHandler(seg: string, name: string, withExact: bool)
    requires SegmentNames(seg, name)
    ensures Normalise("/" + seg + "//") == "/" + seg + "/"
    ensures Route(Example(seg, name, withExact), "/" + seg + "//") == Dispatch(1, Some(""))
  {
    ExampleShape(seg, name, withExact);
    TablesEmptyParameter(seg, withExact);
  }

  /** A target ending in two slashes keeps, after normalising, an empty
      last segment: it reaches the one-parameter handler of what comes
      before them with an empty parameter, if there is one, and otherwise
      the exact handler of the target less one slash. */
  lemma DoubleSlashEmptyParameter(r: LegacyRouter, prefix: string)
    ensures Normalise(prefix + "//") == prefix + "/"
    ensures Route(r, prefix + "//")
            == if prefix in r.dynamic then Dispatch(r.dynamic[prefix], Some(""))
               else if prefix + "/" in r.exact then Dispatch(r.exact[prefix + "/"], None)
               else NotFound
  {
    var t := prefix + "//";
    assert t[..|t| - 1] == prefix + "/";
    assert prefix + "/" == prefix + "/" + "";
  }

  lemma TablesEmptyParameter(seg: string, withExact: bool)
    requires seg != "" && '/' !in seg
    ensures Normalise("/" + seg + "//") == "/" + seg + "/"
    ensures Route(ExampleTables(seg, withExact), "/" + seg + "//") == Dispatch(1, Some(""))
  {
    var t := "/" + seg + "/";
    assert "/" + seg + "//" == t + "/";
    assert (t + "/")[..|t|] == t;
    assert t == ("/" + seg) + ['/'] + "";
    Text.RSplitOnceUnique("/" + seg, '/', "");
  }

  /** With `/` and `/<seg>` registered as exact patterns, an unregistered
      single segment is not found. */
  lemma ExampleNotFound(seg: string, other: string)
    requires seg != "" && '/' !in seg && seg[0] != ':' && other != "" && '/' !in other && other != seg
    ensures var r := AddRoute(AddRoute(NewRouter(), "/", 0), "/" + seg, 1);
            Route(r, "/") == Dispatch(0, None) && Route(r, "/" + seg) == Dispatch(1, None)
            && Route(r, "/" + other) == NotFound
  {
    ExampleNotFoundTable(seg);
    ExampleRootFound(seg);
    ExampleSegmentFound(seg);
    ExampleOtherNotFound(seg, other);
  }

  lemma ExampleRootFound(seg: string)
    requires seg != ""
    ensures Route(LegacyRouter(map["/" := 0, "/" + seg := 1], map[]), "/") == Dispatch(0, None)
  {
    assert "/" + "" == "/" && "/" != "/" + seg;
    ExactOnlyRoute(map["/" := 0, "/" + seg := 1], "");
  }

  lemma ExampleSegmentFound(seg: string)
    requires '/' !in seg
    ensures Route(LegacyRouter(map["/" := 0, "/" + seg := 1], map[]), "/" + seg) == Dispatch(1, None)
  {
    ExactOnlyRoute(map["/" := 0, "/" + seg := 1], seg);
  }

  lemma ExampleOtherNotFound(seg: string, other: string)
    requires seg != "" && other != "" && '/' !in other && other != seg
    ensures Route(LegacyRouter(map["/" := 0, "/" + seg := 1], map[]), "/" + other) == NotFound
  {
    ExactOnlyRoute(map["/" := 0, "/" + seg := 1], other);
    assert "/" + other != "/" + seg;
  }

  lemma ExampleNotFoundTable(seg: string)
    requires seg != "" && '/' !in seg && seg[0] != ':'
    ensures AddRoute(AddRoute(NewRouter(), "/", 0), "/" + seg, 1) == LegacyRouter(map["/" := 0, "/" + seg := 1], map[])
  {
    AddSegment(AddRoute(NewRouter(), "/", 0), seg, 1);
  }

  /** Without one-parameter patterns, a single segment is looked up as an
      exact path and is otherwise not found. */
  lemma ExactOnlyRoute(exact: map<string, HandlerId>, seg: string)
    requires '/' !in seg
    ensures Route(LegacyRouter(exact, map[]), "/" + seg)
            == if "/" + seg in exact then Dispatch(exact["/" + seg], None) else NotFound
  {
    assert "/" + seg == "" + "/" + seg;
    RouteOfSplit(LegacyRouter(exact, map[]), "", seg);
  }
}

=== FILE: matcher.dfy ===
/** What a route lookup hands back (src/router/matcher/mod.rs): the pattern
    that matched and its handler. Handlers are opaque here, known only by an
    identifier; what they do when run is outside the routing logic. */
module Matches {
  type HandlerId = nat

  datatype Match = Match(pattern: string, handler: HandlerId)
}

=== FILE: multi_map.dfy ===
/** The multi-valued map behind the header table (src/multi_map.rs): every
    key holds either one value (`Scalar`) or a list of values (`Vector`), and
    inserting under a key that is already present appends. */
module MultiMaps {
  import opened Wrappers

  datatype Value<T> = Scalar(scalar: T) | Vector(vector: seq<T>)

  /** What iterating over a value yields, in order: the scalar once, or the
      elements of the vector. */
  function Items<T>(v: Value<T>): seq<T>
  {
    match v
    case Scalar(x) => [x]
    case Vector(xs) => xs
  }

  /** `Value::push`: a scalar is promoted to a vector holding it, a vector is
      extended; either way the new value's items follow the old ones. */
  function Push<T>(current: Value<T>, added: Value<T>): (r: Value<T>)
    ensures r.Vector?
    ensures Items(r) == Items(current) + Items(added)
  {
    match (current, added)
    case (Vector(xs), Scalar(y)) => Vector(xs + [y])
    case (Vector(xs), Vector(ys)) => Vector(xs + ys)
    case (Scalar(x), Scalar(y)) => Vector([x, y])
    case (Scalar(x), Vector(ys)) => Vector([x] + ys)
  }

  /** The state of a `ValueIter`: the value and the index of the next item. */
  datatype ValueIter<T> = ValueIter(value: Value<T>, idx: nat)

  /** `ValueIter::next`: the item at the current index, if there is one; the
      index advances either way. */
  function Next<T>(it: ValueIter<T>): (r: (Option<T>, ValueIter<T>))
    ensures r.1 == ValueIter(it.value, it.idx + 1)
    ensures it.idx < |Items(it.value)| ==> r.0 == Some(Items(it.value)[it.idx])
    ensures it.idx >= |Items(it.value)| ==> r.0 == None
  {
    var res := match it.value
      case Scalar(x) => if it.idx == 0 then Some(x) else None
      case Vector(xs) => if it.idx < |xs| then Some(xs[it.idx]) else None;
    (res, ValueIter(it.value, it.idx + 1))
  }

  /** Everything `Next` yields until the first None. */
  function Drain<T>(it: ValueIter<T>): seq<T>
    decreases |Items(it.value)| - it.idx
  {
    match Next(it)
    case (None, _) => []
    case (Some(x), next) => [x] + Drain(next)
  }

  /** An iterator started at index 0 yields exactly the items of its value:
      one element for a scalar, the elements in order for a vector. */
  lemma {:induction false} DrainYieldsItems<T>(it: ValueIter<T>)
    requires it.idx <= |Items(it.value)|
    ensures Drain(it) == Items(it.value)[it.idx..]
    decreases |Items(it.value)| - it.idx
  {
    if it.idx < |Items(it.value)| {
      DrainYieldsItems(ValueIter(it.value, it.idx + 1));
    }
  }

  /** Iterating `push(a, b)` yields what iterating `a` yields, then what
      iterating `b` yields. */
  lemma PushIterates<T>(a: Value<T>, b: Value<T>)
    ensures Drain(ValueIter(Push(a, b), 0)) == Drain(ValueIter(a, 0)) + Drain(ValueIter(b, 0))
  {
    DrainYieldsItems(ValueIter(Push(a, b), 0));
    DrainYieldsItems(ValueIter(a, 0));
    DrainYieldsItems(ValueIter(b, 0));
  }

  /** `MultiMap`: the underlying hash map. */
  datatype MultiMap<K, T> = MultiMap(entries: map<K, Value<T>>)

  function NewEmpty<K(==), T>(): (r: MultiMap<K, T>)
    ensures Len(r) == 0
  {
    MultiMap(map[])
  }

  /** `len`: the number of distinct keys. */
  function Len<K(==), T>(mm: MultiMap<K, T>): nat
  {
    |mm.entries.Keys|
  }

  /** `insert`: an absent key gets the value unchanged, a present key has the
      value pushed onto what it holds, and every other key is untouched. */
  function Insert<K(==), T>(mm: MultiMap<K, T>, key: K, value: Value<T>): (r: MultiMap<K, T>)
    ensures r.entries.Keys == mm.entries.Keys + {key}
    ensures key !in mm.entries ==> r.entries[key] == value
    ensures key in mm.entries ==> r.entries[key].Vector?
    ensures key in mm.entries ==> Items(r.entries[key]) == Items(mm.entries[key]) + Items(value)
    ensures forall k :: k in mm.entries && k != key ==> r.entries[k] == mm.entries[k]
  {
    if key in mm.entries then MultiMap(mm.entries[key := Push(mm.entries[key], value)])
    else MultiMap(mm.entries[key := value])
  }

  /** `len` grows by one on a new key and stays put on an existing one. */
  lemma InsertLen<K, T>(mm: MultiMap<K, T>, key: K, value: Value<T>)
    ensures key in mm.entries ==> Len(Insert(mm, key, value)) == Len(mm)
    ensures key !in mm.entries ==> Len(Insert(mm, key, value)) == Len(mm) + 1
  {
    var r := Insert(mm, key, value);
    if key in mm.entries {
      assert r.entries.Keys == mm.entries.Keys;
    } else {
      assert r.entries.Keys == mm.entries.Keys + {key};
      assert |r.entries.Keys| == |mm.entries.Keys| + |{key}|;
    }
  }

  function InsertScalar<K(==), T>(mm: MultiMap<K, T>, key: K, scalar: T): (r: MultiMap<K, T>)
    ensures key in r.entries
    ensures Items(r.entries[key]) == (if key in mm.entries then Items(mm.entries[key]) else []) + [scalar]
  {
    Insert(mm, key, Scalar(scalar))
  }

  /** `insert_vector`: an empty vector is accepted, and then stored as an empty
      vector under a new key. */
  function InsertVector<K(==), T>(mm: MultiMap<K, T>, key: K, vector: seq<T>): (r: MultiMap<K, T>)
    ensures key in r.entries && r.entries[key].Vector?
    ensures Items(r.entries[key]) == (if key in mm.entries then Items(mm.entries[key]) else []) + vector
  {
    Insert(mm, key, Vector(vector))
  }

  /** The errors of the typed getters (`bail!("not scalar")`, `bail!("not vector")`). */
  datatype GetError = NotScalar | NotVector

  /** `get_scalar`: Ok(Some) exactly for a scalar, an error exactly for a
      vector, Ok(None) exactly for an absent key. */
  function GetScalar<K(==), T>(mm: MultiMap<K, T>, key: K): (r: Result<Option<T>, GetError>)
    ensures r == Ok(None) <==> key !in mm.entries
    ensures r.Err? <==> key in mm.entries && mm.entries[key].Vector?
    ensures r.Err? ==> r.error == NotScalar
    ensures r.Ok? && r.value.Some? <==> key in mm.entries && mm.entries[key].Scalar?
    ensures r.Ok? && r.value.Some? ==> Items(mm.entries[key]) == [r.value.value]
  {
    if key !in mm.entries then Ok(None)
    else match mm.entries[key]
      case Scalar(x) => Ok(Some(x))
      case Vector(_) => Err(NotScalar)
  }

  /** `get_vector`: the dual of `GetScalar`. */
  function GetVector<K(==), T>(mm: MultiMap<K, T>, key: K): (r: Result<Option<seq<T>>, GetError>)
    ensures r == Ok(None) <==> key !in mm.entries
    ensures r.Err? <==> key in mm.entries && mm.entries[key].Scalar?
    ensures r.Err? ==> r.error == NotVector
    ensures r.Ok? && r.value.Some? <==> key in mm.entries && mm.entries[key].Vector?
    ensures r.Ok? && r.value.Some? ==> r.value.value == Items(mm.entries[key])
  {
    if key !in mm.entries then Ok(None)
    else match mm.entries[key]
      case Scalar(_) => Err(NotVector)
      case Vector(xs) => Ok(Some(xs))
  }

  /** `get_value_iter`: an iterator over the key's value, None for an absent
      key; it yields the value's items. */
  function GetValueIter<K(==), T>(mm: MultiMap<K, T>, key: K): (r: Option<ValueIter<T>>)
    ensures r.Some? <==> key in mm.entries
    ensures r.Some? ==> Drain(r.value) == Items(mm.entries[key])
  {
    if key in mm.entries then
      DrainYieldsItems(ValueIter(mm.entries[key], 0));
      Some(ValueIter(mm.entries[key], 0))
    else None
  }

  /** `from_iter`: `insert` applied to each pair from left to right, starting
      from the empty map. */
  function FromIter<K(==), T>(pairs: seq<(K, Value<T>)>): MultiMap<K, T>
  {
    if |pairs| == 0 then NewEmpty()
    else
      var last := pairs[|pairs| - 1];
      Insert(FromIter(pairs[..|pairs| - 1]), last.0, last.1)
  }

  /** The items of every pair inserted under `key`, in insertion order: the
      reference for what `FromIter` stores. */
  function ItemsFor<K(==), T>(pairs: seq<(K, Value<T>)>, key: K): seq<T>
  {
    if |pairs| == 0 then []
    else
      var last := pairs[|pairs| - 1];
      ItemsFor(pairs[..|pairs| - 1], key) + (if last.0 == key then Items(last.1) else [])
  }

  /** The keys carried by the pairs. */
  function KeysOf<K, T>(pairs: seq<(K, Value<T>)>): (ks: set<K>)
    ensures forall i :: 0 <= i < |pairs| ==> pairs[i].0 in ks
    ensures forall k :: k in ks ==> exists i :: 0 <= i < |pairs| && pairs[i].0 == k
  {
    if |pairs| == 0 then {}
    else
      var init := pairs[..|pairs| - 1];
      var ks := KeysOf(init) + {pairs[|pairs| - 1].0};
      assert forall i :: 0 <= i < |init| ==> init[i] == pairs[i];
      ks
  }

  /** No pair carries the key, so nothing is collected for it. */
  lemma {:induction false} ItemsForAbsent<K, T>(pairs: seq<(K, Value<T>)>, key: K)
    requires key !in KeysOf(pairs)
    ensures ItemsFor(pairs, key) == []
  {
    if |pairs| > 0 {
      ItemsForAbsent(pairs[..|pairs| - 1], key);
    }
  }

  /** `from_iter` keeps insertion order: the keys present are the keys the
      pairs carry, and each key's value iterates over the items of all pairs
      carrying it, in the order the pairs came. */
  lemma {:induction false} FromIterCollects<K, T>(pairs: seq<(K, Value<T>)>)
    ensures FromIter(pairs).entries.Keys == KeysOf(pairs)
    ensures forall key :: key in FromIter(pairs).entries ==>
              Items(FromIter(pairs).entries[key]) == ItemsFor(pairs, key)
  {
    if |pairs| > 0 {
      var init := pairs[..|pairs| - 1];
      var last := pairs[|pairs| - 1];
      FromIterCollects(init);
      var prev := FromIter(init);
      var r := Insert(prev, last.0, last.1);
      assert FromIter(pairs) == r;
      forall key | key in r.entries
        ensures Items(r.entries[key]) == ItemsFor(pairs, key)
      {
        if key == last.0 && key !in prev.entries {
          ItemsForAbsent(init, key);
        }
      }
    }
  }

  /** A key that no earlier pair carries holds the first pair's value as it
      was given, so an empty vector stays an empty vector. */
  lemma FromIterSingle<K, T>(key: K, value: Value<T>)
    ensures FromIter([(key, value)]).entries == map[key := value]
  {
    assert [(key, value)][..0] == [];
  }
}

=== FILE: request.dfy ===
/** A request as the server's request reader builds it (src/request.rs): the
    request line (section 3 of RFC 9112) with its three space-separated
    fields, and the path parameter a router may attach. */
module Requests {
  import opened Wrappers
  import SliceExt
  import StreamReaders

  datatype Request = Request(statusLine: string, param: Option<string>)

  /** The pieces of the request line between single spaces (`split(" ")`). */
  function Fields(line: string): (fs: seq<string>)
    ensures |fs| >= 1
    ensures SliceExt.Join(fs, " ") == line
    ensures forall i :: 0 <= i < |fs| ==> ' ' !in fs[i]
  {
    SliceExt.SplitJoin(line, " ");
    var fs := SliceExt.Split(line, " ");
    forall i | 0 <= i < |fs|
      ensures ' ' !in fs[i]
    {
      NoSpaceInPiece(fs[i]);
    }
    fs
  }

  lemma NoSpaceInPiece(s: string)
    requires SliceExt.Absent(s, " ")
    ensures ' ' !in s
  {
    forall k | 0 <= k < |s|
      ensures s[k] != ' '
    {
      assert s[k..k + 1] == [s[k]];
      assert !SliceExt.OccursAt(s, " ", k);
    }
  }

  /** `get_http_method`: the first field; there always is one. */
  function HttpMethod(r: Request): (m: string)
    ensures ' ' !in m && m <= r.statusLine
  {
    var fs := Fields(r.statusLine);
    assert r.statusLine == fs[0] + (if |fs| == 1 then [] else " " + SliceExt.Join(fs[1..], " "));
    fs[0]
  }

  /** `get_request_target`: the second field; `unwrap` panics on a line with
      no space, so the line must have one. */
  function RequestTarget(r: Request): (t: string)
    requires |Fields(r.statusLine)| >= 2
    ensures ' ' !in t
  {
    Fields(r.statusLine)[1]
  }

  /** `get_http_version`: the third field; the line must have two spaces. */
  function HttpVersion(r: Request): (v: string)
    requires |Fields(r.statusLine)| >= 3
    ensures ' ' !in v
  {
    Fields(r.statusLine)[2]
  }

  /** A request line built from three space-free fields reads back as those
      fields: this pins down all three accessors. */
  lemma FieldsOfRequestLine(verb: string, target: string, version: string)
    requires ' ' !in verb && ' ' !in target && ' ' !in version
    ensures Fields(verb + " " + target + " " + version) == [verb, target, version]
  {
    assert verb + " " + target + " " + version == verb + " " + (target + " " + version);
    FieldsCons(verb, target + " " + version);
    FieldsCons(target, version);
    FieldsSingle(version);
  }

  /** Two space-free fields, then whatever follows the second space. */
  lemma FieldsOfTwoThenRest(first: string, second: string, rest: string)
    requires ' ' !in first && ' ' !in second
    ensures Fields(first + " " + second + " " + rest) == [first, second] + Fields(rest)
  {
    assert first + " " + second + " " + rest == first + " " + (second + " " + rest);
    FieldsCons(first, second + " " + rest);
    FieldsCons(second, rest);
  }

  /** A space-free field followed by a space starts the field list. */
  lemma FieldsCons(first: string, rest: string)
    requires ' ' !in first
    ensures Fields(first + " " + rest) == [first] + Fields(rest)
  {
    assert first + " " + rest == first + [' '] + rest;
    SliceExt.SplitCons(first, ' ', rest);
  }

  /** A line without a space is one field. */
  lemma FieldsSingle(line: string)
    requires ' ' !in line
    ensures Fields(line) == [line]
  {
    SliceExt.SplitSingle(line, ' ');
  }

  lemma AccessorsOfRequestLine(verb: string, target: string, version: string)
    requires ' ' !in verb && ' ' !in target && ' ' !in version
    ensures |Fields(verb + " " + target + " " + version)| == 3
    ensures HttpMethod(Request(verb + " " + target + " " + version, None)) == verb
    ensures RequestTarget(Request(verb + " " + target + " " + version, None)) == target
    ensures HttpVersion(Request(verb + " " + target + " " + version, None)) == version
  {
    FieldsOfRequestLine(verb, target, version);
  }

  /** `get_param`. */
  function GetParam(r: Request): (p: Option<string>)
    ensures p == r.param
  {
    r.param
  }

  /** `set_param`: the parameter is replaced and the request line kept. */
  function SetParam(r: Request, param: string): (r': Request)
    ensures r'.statusLine == r.statusLine && GetParam(r') == Some(param)
  {
    r.(param := Some(param))
  }

  /** Setting the parameter leaves every field of the request line as it was. */
  lemma SetParamKeepsFields(r: Request, param: string)
    ensures HttpMethod(SetParam(r, param)) == HttpMethod(r)
    ensures Fields(SetParam(r, param).statusLine) == Fields(r.statusLine)
    ensures GetParam(SetParam(SetParam(r, "x"), param)) == Some(param)
  {
  }

  /** `RequestReader::read`: one line from the connection with its last two
      bytes (the CRLF) cut off, and no parameter yet. The cut is
      `truncate(len - 2)` in a release build: for a line shorter than two
      bytes (an empty read at end of input, or a lone LF) the subtraction
      wraps, `truncate` to a larger length does nothing, and the line is
      kept whole. */
  function Read(input: string): (res: (Request, string))
    ensures res.0.param == None
    ensures input == FirstLine(input) + res.1
    ensures |FirstLine(input)| >= 2 ==>
              FirstLine(input) == res.0.statusLine + FirstLine(input)[|FirstLine(input)| - 2..]
              && '\n' !in res.0.statusLine
    ensures |FirstLine(input)| < 2 ==> res.0.statusLine == FirstLine(input)
  {
    var line := FirstLine(input);
    assert input == line + input[|line|..];
    if |line| >= 2 then
      assert line == line[..|line| - 2] + line[|line| - 2..];
      (Request(line[..|line| - 2], None), input[|line|..])
    else
      (Request(line, None), input[|line|..])
  }

  /** At end of input the request line is empty, and nothing is left. */
  lemma ReadAtEndOfInput()
    ensures Read("") == (Request("", None), "")
  {
  }

  /** The line `read_line` returns from the connection (the request reader
      puts no budget on it): up to and including the first LF, or all of
      the input when it holds none. */
  function FirstLine(input: string): (line: string)
    ensures line <= input
    ensures |input| > 0 ==> |line| > 0
    ensures forall i :: 0 <= i < |line| - 1 ==> line[i] != '\n'
    ensures |line| < |input| ==> line[|line| - 1] == '\n'
  {
    input[..StreamReaders.LineLength(input)]
  }

  /** Reading `line CRLF rest` gives the request line `line` and leaves `rest`. */
  lemma ReadRequestLine(line: string, rest: string)
    requires '\n' !in line
    ensures |FirstLine(line + "\r\n" + rest)| >= 2
    ensures Read(line + "\r\n" + rest) == (Request(line, None), rest)
  {
    var input := line + "\r\n" + rest;
    var withCr := line + "\r";
    assert '\n' !in withCr;
    assert input == withCr + "\n" + rest;
    StreamReaders.LineLengthOfLine(withCr, rest);
    assert FirstLine(input) == withCr + "\n";
    assert (withCr + "\n")[..|withCr + "\n"| - 2] == line;
    assert input[|withCr + "\n"|..] == rest;
  }

  /** The request a client sends first, `GET / HTTP/1.1` followed by an empty
      line, reads back as method `GET`, target `/` and version `HTTP/1.1`. */
  lemma ReadGetRoot(rest: string)
    ensures |FirstLine("GET / HTTP/1.1" + "\r\n" + rest)| >= 2
    ensures var r := Read("GET / HTTP/1.1" + "\r\n" + rest).0;
            |Fields(r.statusLine)| == 3 && HttpMethod(r) == "GET" && RequestTarget(r) == "/" && HttpVersion(r) == "HTTP/1.1"
  {
    assert "GET / HTTP/1.1" == "GET" + " " + "/" + " " + "HTTP/1.1";
    assert ' ' !in "GET" && ' ' !in "/" && ' ' !in "HTTP/1.1" && '\n' !in "GET / HTTP/1.1";
    ReadRequestLine("GET / HTTP/1.1", rest);
    AccessorsOfRequestLine("GET", "/", "HTTP/1.1");
  }
}

=== FILE: response_writer.dfy ===
/** The response under construction and its serialisation
    (src/response_writer.rs): a status line as in section 4 of RFC 9112, the
    header block, an empty line and the body, except that a 404 is sent as
    the status line and the empty line alone. */
module ResponseWriters {
  import opened Wrappers
  import StatusCodes
  import Decimal
  import Text
  import SliceExt
  import MultiMaps
  import Headers
  import Requests

  datatype ResponseWriter = ResponseWriter(
    statusCode: Option<StatusCodes.u16>,
    reasonPhrase: Option<string>,
    headers: seq<(string, string)>,
    body: string)

  /** `new_empty`: nothing set yet. */
  function NewEmpty(): (w: ResponseWriter)
    ensures w.statusCode.None? && w.reasonPhrase.None? && w.headers == [] && w.body == []
  {
    ResponseWriter(None, None, [], [])
  }

  /** `set_status_code`: the code is kept whatever it is; the reason becomes
      the registered phrase's text, or none for a code the registry lacks. */
  function SetStatusCode(w: ResponseWriter, code: StatusCodes.u16): (w': ResponseWriter)
    ensures w'.statusCode == Some(code)
    ensures w'.reasonPhrase.Some? <==> StatusCodes.PhraseOf(code).Some?
    ensures w'.reasonPhrase.Some? ==> w'.reasonPhrase.value == StatusCodes.AsStr(StatusCodes.PhraseOf(code).value)
    ensures w'.headers == w.headers && w'.body == w.body
  {
    StatusCodes.RegistryMatchesTable(code);
    var reason := match StatusCodes.GetReasonPhrase(code)
      case None => None
      case Some(p) => Some(StatusCodes.AsStr(p));
    w.(statusCode := Some(code), reasonPhrase := reason)
  }

  /** `set_reason_phrase`: the phrase's registered code and its text. */
  function SetReasonPhrase(w: ResponseWriter, p: StatusCodes.ReasonPhrase): (w': ResponseWriter)
    ensures w'.statusCode == Some(StatusCodes.Code(p) as StatusCodes.u16)
    ensures w'.reasonPhrase == Some(StatusCodes.AsStr(p))
    ensures w'.headers == w.headers && w'.body == w.body
  {
    w.(statusCode := Some(StatusCodes.GetStatusCode(p)), reasonPhrase := Some(StatusCodes.AsStr(p)))
  }

  /** Setting a registered code and setting its phrase lead to the same writer. */
  lemma SetStatusCodeOfPhrase(w: ResponseWriter, p: StatusCodes.ReasonPhrase)
    ensures SetStatusCode(w, StatusCodes.GetStatusCode(p)) == SetReasonPhrase(w, p)
  {
    StatusCodes.PhraseOfCode(p);
  }

  /** `set_status_line`: code and reason as given, unchecked. */
  function SetStatusLine(w: ResponseWriter, code: StatusCodes.u16, reason: string): (w': ResponseWriter)
    ensures w'.statusCode == Some(code) && w'.reasonPhrase == Some(reason)
    ensures w'.headers == w.headers && w'.body == w.body
  {
    w.(statusCode := Some(code), reasonPhrase := Some(reason))
  }

  /** `set_body` (and `set_body_str`, whose bytes are its characters here):
      the body is replaced wholesale. */
  function SetBody(w: ResponseWriter, body: string): (w': ResponseWriter)
    ensures w'.body == body
    ensures w'.statusCode == w.statusCode && w'.reasonPhrase == w.reasonPhrase && w'.headers == w.headers
  {
    w.(body := body)
  }

  /** The last body set is the one sent. */
  lemma SetBodyLastWins(w: ResponseWriter, a: string, b: string)
    ensures SetBody(SetBody(w, a), b) == SetBody(w, b)
  {
  }

  /** The protocol version every status line starts with. */
  const Version: string := "HTTP/1.1"

  /** `HTTP/1.1 <code>[ <reason>]` followed by CRLF. */
  function StatusLine(code: StatusCodes.u16, reason: Option<string>): string
  {
    Version + " " + Decimal.Show(code) + (if reason.Some? then " " + reason.value else "") + "\r\n"
  }

  /** `<name>: <value>` followed by CRLF, for each header in order. */
  function HeaderBlock(headers: seq<(string, string)>): string
  {
    if |headers| == 0 then ""
    else headers[0].0 + ": " + headers[0].1 + "\r\n" + HeaderBlock(headers[1..])
  }

  /** The two headers `write` appends after any others. */
  function FramingHeaders(body: string): seq<(string, string)>
  {
    [("Content-Type", "text/plain"), ("Content-Length", Decimal.Show(|body|))]
  }

  /** `write`: the status code must be set (`unwrap`). A 404 is the status
      line and an empty line; any other status is the status line, the
      headers, `Content-Type` and `Content-Length` last, an empty line and
      the body. */
  function Write(w: ResponseWriter): (out: string)
    requires w.statusCode.Some?
    ensures StatusLine(w.statusCode.value, w.reasonPhrase) <= out
    ensures w.statusCode.value == 404 <==> out == StatusLine(w.statusCode.value, w.reasonPhrase) + "\r\n"
    ensures w.statusCode.value != 404 ==> |w.body| <= |out| && out[|out| - |w.body|..] == w.body
  {
    var code := w.statusCode.value;
    var statusLine := StatusLine(code, w.reasonPhrase);
    if code == 404 then statusLine + "\r\n"
    else
      var out := statusLine + HeaderBlock(w.headers + FramingHeaders(w.body)) + "\r\n" + w.body;
      HeaderBlockLonger(w.headers, FramingHeaders(w.body));
      assert out == statusLine + (HeaderBlock(w.headers + FramingHeaders(w.body)) + "\r\n" + w.body);
      out
  }

  lemma {:induction false} HeaderBlockLonger(a: seq<(string, string)>, b: seq<(string, string)>)
    requires |b| > 0
    ensures |HeaderBlock(a + b)| >= 2
  {
    if |a| == 0 {
      assert a + b == b;
    } else {
      assert (a + b)[1..] == a[1..] + b;
      HeaderBlockLonger(a[1..], b);
    }
  }

  /** A 404 never carries headers or a body: its bytes do not depend on them. */
  lemma NotFoundIgnoresBody(w: ResponseWriter, headers: seq<(string, string)>, body: string)
    requires w.statusCode == Some(404)
    ensures Write(w.(headers := headers, body := body)) == Write(w)
    ensures Write(w) == StatusLine(404, w.reasonPhrase) + "\r\n"
  {
  }

  /** A code the registry lacks is written without a reason phrase. */
  lemma UnregisteredCodeHasNoReason(w: ResponseWriter, code: StatusCodes.u16)
    requires StatusCodes.PhraseOf(code).None?
    ensures StatusLine(SetStatusCode(w, code).statusCode.value, SetStatusCode(w, code).reasonPhrase)
            == Version + " " + Decimal.Show(code) + "\r\n"
  {
  }

  /** The status line reads back: split at spaces it gives the version, the
      code as a numeral that parses back to the code, then the words of the
      reason. */
  lemma StatusLineReadsBack(code: StatusCodes.u16, reason: string)
    ensures StatusLine(code, Some(reason)) == Version + " " + Decimal.Show(code) + " " + reason + "\r\n"
    ensures Requests.Fields(Version + " " + Decimal.Show(code) + " " + reason)
            == [Version, Decimal.Show(code)] + Requests.Fields(reason)
    ensures Decimal.ParseUsize(Decimal.Show(code)) == Some(code as nat)
  {
    var digits := Decimal.Show(code);
    assert StatusLine(code, Some(reason)) == Version + " " + digits + (" " + reason) + "\r\n";
    StatusLineFields(code, reason);
    Decimal.ParseShow(code);
  }

  lemma StatusLineFields(code: StatusCodes.u16, reason: string)
    ensures Requests.Fields(Version + " " + Decimal.Show(code) + " " + reason)
            == [Version, Decimal.Show(code)] + Requests.Fields(reason)
  {
    var digits := Decimal.Show(code);
    assert Decimal.AllDigits(digits);
    assert ' ' !in Version;
    Requests.FieldsOfTwoThenRest(Version, digits, reason);
  }

  /** What `write` sends for a writer built through the public operations,
      whose header list is always empty (`add_header` is private to `write`):
      after the status line come exactly the two framing headers, the empty
      line and the body. */
  lemma WriteReachable(w: ResponseWriter)
    requires w.statusCode.Some? && w.statusCode.value != 404 && w.headers == []
    ensures Write(w) == StatusLine(w.statusCode.value, w.reasonPhrase) + FramedBody(w.body)
  {
    var hs := FramingHeaders(w.body);
    assert w.headers + hs == hs;
    var line1 := hs[0].0 + ": " + hs[0].1 + "\r\n";
    var line2 := hs[1].0 + ": " + hs[1].1 + "\r\n";
    assert HeaderBlock(hs[1..][1..]) == "";
    assert HeaderBlock(hs[1..]) == line2;
    assert HeaderBlock(hs) == line1 + line2;
  }

  /** Everything after the status line of a reachable non-404 response. */
  function FramedBody(body: string): string
  {
    "Content-Type" + ": " + "text/plain" + "\r\n"
    + "Content-Length" + ": " + Decimal.Show(|body|) + "\r\n" + "\r\n" + body
  }

  /** The response frames its body: a client that reads the header block
      after the status line with the server's own header parser finds
      `Content-Type: text/plain` and a `Content-Length` equal to the body's
      length, and the body is exactly that many bytes at the end. */
  lemma WriteFramesBody(w: ResponseWriter)
    requires w.statusCode.Some? && w.statusCode.value != 404 && w.headers == []
    requires |w.body| <= Decimal.USIZE_MAX
    ensures Write(w) == StatusLine(w.statusCode.value, w.reasonPhrase) + FramedBody(w.body)
    ensures Headers.Parse(FramedBody(w.body)).Ok?
    ensures Headers.ContentLength(Headers.Parse(FramedBody(w.body)).value) == Ok(Some(|w.body|))
    ensures "content-type" in Headers.Parse(FramedBody(w.body)).value.entries
    ensures Headers.Parse(FramedBody(w.body)).value.entries["content-type"] == MultiMaps.Vector(["text/plain"])
  {
    WriteReachable(w);
    FramedBodyParses(w.body);
  }

  lemma FramedBodyParses(body: string)
    requires |body| <= Decimal.USIZE_MAX
    ensures Headers.Parse(FramedBody(body)).Ok?
    ensures "content-type" in Headers.Parse(FramedBody(body)).value.entries
    ensures Headers.Parse(FramedBody(body)).value.entries["content-type"] == MultiMaps.Vector(["text/plain"])
    ensures Headers.ContentLength(Headers.Parse(FramedBody(body)).value) == Ok(Some(|body|))
  {
    var m := map["content-type" := MultiMaps.Vector(["text/plain"]),
                 "content-length" := MultiMaps.Vector([Decimal.Show(|body|)])];
    var h := Headers.Parse(FramedBody(body));
    FramedHeaders(body);
    assert h == Ok(MultiMaps.MultiMap(m));
    FramedContentLength(|body|);
    assert Headers.ContentLength(h.value) == Ok(Some(|body|));
    assert "content-type" in m && m["content-type"] == MultiMaps.Vector(["text/plain"]);
  }

  /** The framing head parses to its two entries. */
  lemma FramedHeaders(body: string)
    ensures Headers.Parse(FramedBody(body))
            == Ok(MultiMaps.MultiMap(map["content-type" := MultiMaps.Vector(["text/plain"]),
                                         "content-length" := MultiMaps.Vector([Decimal.Show(|body|)])]))
  {
    var digits := Decimal.Show(|body|);
    ContentTypeName();
    Headers.ContentLengthName();
    TextPlainIsPlain();
    Headers.DigitsArePlain(digits);
    Headers.ParseTwoHeadersThenBody("Content-Type", "text/plain", "Content-Length", digits, body);
  }

  /** The `Content-Length` entry of the framing head reads back as `n`. */
  lemma FramedContentLength(n: nat)
    requires n <= Decimal.USIZE_MAX
    ensures Headers.ContentLength(MultiMaps.MultiMap(map["content-type" := MultiMaps.Vector(["text/plain"]),
                                                         "content-length" := MultiMaps.Vector([Decimal.Show(n)])]))
            == Ok(Some(n))
  {
    Decimal.ParseShow(n);
  }

  /** The body ends what `write` sends, right after the framing headers. */
  lemma FramedBodyEndsWithBody(body: string)
    ensures |body| <= |FramedBody(body)| && FramedBody(body)[|FramedBody(body)| - |body|..] == body
  {
  }

  lemma ContentTypeName()
    ensures ':' !in "Content-Type" && '\n' !in "Content-Type" && Text.Lower("Content-Type") == "content-type"
  {
  }

  lemma TextPlainIsPlain()
    ensures Headers.PlainValue("text/plain")
  {
  }
}

=== FILE: router.dfy ===
/** The per-method router (src/router/mod.rs): one route chain per HTTP
    method, indexed by the method's position in the enumeration. A request
    is dispatched to the handler its own method's chain finds; failing that
    it is refused with 405 Method Not Allowed (section 15.5.6 of RFC 9110)
    when some other method's chain knows the target, 404 Not Found when none
    does, and 400 Bad Request when the method is not one the server knows. */
module Routers {
  import opened Wrappers
  import opened Matches
  import Chains
  import Requests
  import ResponseWriters
  import StatusCodes

  /** The methods the server recognises, in declaration order. */
  datatype Method = Get | Post

  /** `http_method as usize`. */
  function Index(m: Method): (i: nat)
    ensures i < MethodCount
  {
    match m
    case Get => 0
    case Post => 1
  }

  const MethodCount: nat := 2

  /** `HttpMethod::try_from(usize)`: the method at a position, if any. */
  function MethodAt(i: nat): (m: Option<Method>)
    ensures m.Some? <==> i < MethodCount
    ensures m.Some? ==> Index(m.value) == i
  {
    if i == 0 then Some(Get) else if i == 1 then Some(Post) else None
  }

  /** Positions and methods correspond one to one. */
  lemma MethodAtIndex(m: Method)
    ensures MethodAt(Index(m)) == Some(m)
  {
  }

  /** The method's name as a request line spells it. */
  function Name(m: Method): (s: string)
    ensures |s| > 0
  {
    match m
    case Get => "GET"
    case Post => "POST"
  }

  /** `HttpMethod::try_from(&str)`: a request line's method field, when it
      names one of the recognised methods. */
  function ParseMethod(s: string): (m: Option<Method>)
    ensures m.Some? ==> Name(m.value) == s
    ensures m.None? ==> forall m' :: Name(m') != s
  {
    if s == "GET" then Some(Get) else if s == "POST" then Some(Post) else None
  }

  /** Every method's name reads back as that method. */
  lemma ParseName(m: Method)
    ensures ParseMethod(Name(m)) == Some(m)
  {
  }

  datatype Router = Router(chains: seq<Chains.Chain>)

  /** One well-formed chain per method. */
  predicate Valid(r: Router)
  {
    |r.chains| == MethodCount && forall i :: 0 <= i < |r.chains| ==> Chains.Valid(r.chains[i])
  }

  function ChainOf(r: Router, m: Method): (c: Chains.Chain)
    requires Valid(r)
    ensures Chains.Valid(c)
  {
    r.chains[Index(m)]
  }

  /** `new`: every method's chain is empty, so nothing matches. */
  function NewRouter(): (r: Router)
    ensures Valid(r)
    ensures forall m, t :: Chains.PatternMatch(ChainOf(r, m), t).None?
  {
    Router([Chains.NewChain(), Chains.NewChain()])
  }

  /** `add_route`: the pattern goes into the chain of its method only. */
  function AddRoute(r: Router, m: Method, pattern: string, handler: HandlerId): (r': Router)
    requires Valid(r) && Chains.CanAdd(pattern)
    ensures Valid(r')
    ensures ChainOf(r', m) == Chains.AddRoute(ChainOf(r, m), pattern, handler)
    ensures forall m' :: m' != m ==> ChainOf(r', m') == ChainOf(r, m')
  {
    Router(r.chains[Index(m) := Chains.AddRoute(ChainOf(r, m), pattern, handler)])
  }

  /** `pattern_match`: the lookup in the method's own chain. */
  function PatternMatch(r: Router, m: Method, target: string): (res: Option<(Match, Option<string>)>)
    requires Valid(r)
    ensures res == Chains.PatternMatch(ChainOf(r, m), target)
  {
    Chains.PatternMatch(r.chains[Index(m)], target)
  }

  /** Does some chain know the target? */
  predicate Hits(r: Router, m: Method, target: string)
    requires Valid(r)
  {
    PatternMatch(r, m, target).Some?
  }

  /** The methods at positions `i` onwards whose chains match the target. */
  function AllowedFrom(r: Router, target: string, i: nat): (allowed: seq<Method>)
    requires Valid(r) && i <= MethodCount
    ensures forall m :: m in allowed <==> Index(m) >= i && Hits(r, m, target)
    ensures forall j, k :: 0 <= j < k < |allowed| ==> Index(allowed[j]) < Index(allowed[k])
    ensures forall j :: 0 <= j < |allowed| ==> Index(allowed[j]) >= i
    decreases MethodCount - i
  {
    if i == MethodCount then []
    else
      var m := MethodAt(i).value;
      var rest := AllowedFrom(r, target, i + 1);
      assert forall m' :: Index(m') == i ==> m' == m;
      assert Hits(r, m, target) <==> Chains.PatternMatch(r.chains[i], target).Some?;
      if Chains.PatternMatch(r.chains[i], target).Some? then [m] + rest else rest
  }

  /** `find_allowed_methods`: exactly the methods whose chain matches the
      target, each once, in enumeration order. */
  function FindAllowedMethods(r: Router, target: string): (allowed: seq<Method>)
    requires Valid(r)
    ensures forall m :: m in allowed <==> Hits(r, m, target)
    ensures forall j, k :: 0 <= j < k < |allowed| ==> Index(allowed[j]) < Index(allowed[k])
  {
    AllowedFrom(r, target, 0)
  }

  /** What `handle` decides for a request. */
  datatype Outcome =
    | Dispatch(handler: HandlerId, param: Option<string>)
    | MethodNotAllowed(allowed: seq<Method>)
    | NotFound
    | BadRequest

  /** `handle`, for a request whose method is `verb` (None when the
      request line names a method the server does not know) and whose
      target is `target`. A dispatched handler's own effect on the response
      is not part of routing: the writer is returned as it came, and the
      request carries the parameter when the match produced one. Refusals
      set the status through its reason phrase and leave the request as it
      was. */
  function Handle(r: Router, verb: Option<Method>, target: string, w: ResponseWriters.ResponseWriter,
                  req: Requests.Request): (res: (Outcome, ResponseWriters.ResponseWriter, Requests.Request))
    requires Valid(r)
    ensures res.0.BadRequest? <==> verb.None?
    ensures res.0.Dispatch? <==> verb.Some? && Hits(r, verb.value, target)
    ensures res.0.MethodNotAllowed? <==>
              verb.Some? && !Hits(r, verb.value, target) && exists m :: Hits(r, m, target)
    ensures res.0.NotFound? <==> verb.Some? && forall m :: !Hits(r, m, target)
    ensures res.0.MethodNotAllowed? ==> verb.value !in res.0.allowed && res.0.allowed != []
                                        && res.0.allowed == FindAllowedMethods(r, target)
    ensures res.0.Dispatch? ==>
              var (m, param) := PatternMatch(r, verb.value, target).value;
              res.0 == Dispatch(m.handler, param) && res.1 == w
              && res.2 == (if param.Some? then Requests.SetParam(req, param.value) else req)
    ensures !res.0.Dispatch? ==> res.2 == req
    ensures res.0.BadRequest? ==> res.1 == ResponseWriters.SetReasonPhrase(w, StatusCodes.BadRequest)
    ensures res.0.MethodNotAllowed? ==> res.1 == ResponseWriters.SetReasonPhrase(w, StatusCodes.MethodNotAllowed)
    ensures res.0.NotFound? ==> res.1 == ResponseWriters.SetReasonPhrase(w, StatusCodes.NotFound)
  {
    match verb
    case None => (BadRequest, ResponseWriters.SetReasonPhrase(w, StatusCodes.BadRequest), req)
    case Some(m) =>
      match PatternMatch(r, m, target)
      case Some((hit, param)) =>
        var req' := if param.Some? then Requests.SetParam(req, param.value) else req;
        (Dispatch(hit.handler, param), w, req')
      case None =>
        var allowed := FindAllowedMethods(r, target);
        AllowedIffSomeHit(r, target);
        if allowed != [] then
          (MethodNotAllowed(allowed), ResponseWriters.SetReasonPhrase(w, StatusCodes.MethodNotAllowed), req)
        else
          (NotFound, ResponseWriters.SetReasonPhrase(w, StatusCodes.NotFound), req)
  }

  /** Some method is allowed exactly when some chain knows the target. */
  lemma AllowedIffSomeHit(r: Router, target: string)
    requires Valid(r)
    ensures FindAllowedMethods(r, target) != [] <==> exists m :: Hits(r, m, target)
    ensures FindAllowedMethods(r, target) == [] <==> forall m :: !Hits(r, m, target)
  {
    var allowed := FindAllowedMethods(r, target);
    if allowed != [] {
      assert allowed[0] in allowed;
    }
  }

  /** `handle` on a request as the reader delivers it: the method is the
      first field of the request line, and the target, the second field,
      is read (with `unwrap`) only once the method is recognised. */
  function HandleRequest(r: Router, w: ResponseWriters.ResponseWriter, req: Requests.Request)
    : (res: (Outcome, ResponseWriters.ResponseWriter, Requests.Request))
    requires Valid(r)
    requires ParseMethod(Requests.HttpMethod(req)).Some? ==> |Requests.Fields(req.statusLine)| >= 2
    ensures res.0.BadRequest? <==> ParseMethod(Requests.HttpMethod(req)).None?
    ensures res.0.Dispatch? ==> Hits(r, ParseMethod(Requests.HttpMethod(req)).value, Requests.RequestTarget(req))
    ensures res.2.statusLine == req.statusLine
  {
    var verb := ParseMethod(Requests.HttpMethod(req));
    var target := if verb.Some? then Requests.RequestTarget(req) else "";
    Handle(r, verb, target, w, req)
  }

  /** A request line `<method> <target> <version>` is routed by its method
      and its target. */
  lemma HandleRequestLine(r: Router, m: Method, target: string, version: string,
                          w: ResponseWriters.ResponseWriter)
    requires Valid(r) && ' ' !in target && ' ' !in version
    ensures var req := Requests.Request(Name(m) + " " + target + " " + version, None);
            |Requests.Fields(req.statusLine)| == 3
            && HandleRequest(r, w, req) == Handle(r, Some(m), target, w, req)
  {
    assert ' ' !in Name(m);
    Requests.AccessorsOfRequestLine(Name(m), target, version);
  }

  /** The status each refusal leaves on the response. */
  lemma RefusalStatus(r: Router, verb: Option<Method>, target: string, w: ResponseWriters.ResponseWriter,
                      req: Requests.Request)
    requires Valid(r)
    ensures var (o, w', _) := Handle(r, verb, target, w, req);
            (o.BadRequest? ==> w'.statusCode == Some(400))
            && (o.MethodNotAllowed? ==> w'.statusCode == Some(405))
            && (o.NotFound? ==> w'.statusCode == Some(404))
  {
    RefusalCodes(w);
  }

  lemma RefusalCodes(w: ResponseWriters.ResponseWriter)
    ensures ResponseWriters.SetReasonPhrase(w, StatusCodes.BadRequest).statusCode == Some(400)
    ensures ResponseWriters.SetReasonPhrase(w, StatusCodes.MethodNotAllowed).statusCode == Some(405)
    ensures ResponseWriters.SetReasonPhrase(w, StatusCodes.NotFound).statusCode == Some(404)
  {
    assert StatusCodes.Code(StatusCodes.BadRequest) == 400;
    assert StatusCodes.Code(StatusCodes.MethodNotAllowed) == 405;
    assert StatusCodes.Code(StatusCodes.NotFound) == 404;
  }

  /** When exactly one method's chain knows the target, that method is
      the whole allowed list. */
  lemma AllowedOnly(r: Router, target: string, m: Method)
    requires Valid(r) && Hits(r, m, target)
    requires forall m' :: m' != m ==> !Hits(r, m', target)
    ensures FindAllowedMethods(r, target) == [m]
  {
    var allowed := FindAllowedMethods(r, target);
    assert m in allowed;
    assert forall j :: 0 <= j < |allowed| ==> allowed[j] == m;
  }

  /** A route for GET at an exact pattern makes GET, and only GET, allowed
      for that target. */
  lemma AllowedAfterGet(pattern: string, handler: HandlerId)
    requires Chains.CanAdd(pattern) && Chains.Classify(pattern).ToExact?
    ensures FindAllowedMethods(AddRoute(NewRouter(), Get, pattern, handler), pattern) == [Get]
  {
    var r := AddRoute(NewRouter(), Get, pattern, handler);
    Chains.AddExactThenMatch(ChainOf(NewRouter(), Get), pattern, handler);
    AllowedOnly(r, pattern, Get);
  }

  /** A target routed only for POST, requested with GET, is refused with
      405 and POST as the one allowed method. */
  lemma GetOnPostRoute(pattern: string, handler: HandlerId, w: ResponseWriters.ResponseWriter,
                       req: Requests.Request)
    requires Chains.CanAdd(pattern) && Chains.Classify(pattern).ToExact?
    ensures var (o, w', _) := Handle(AddRoute(NewRouter(), Post, pattern, handler), Some(Get), pattern, w, req);
            o == MethodNotAllowed([Post]) && w'.statusCode == Some(405)
  {
    var r := AddRoute(NewRouter(), Post, pattern, handler);
    Chains.AddExactThenMatch(ChainOf(NewRouter(), Post), pattern, handler);
    AllowedOnly(r, pattern, Post);
    RefusalCodes(w);
  }
}

=== FILE: slice_ext.dfy ===
/** Pattern search and splitting over sequences (src/slice_ext.rs). The Rust
    functions hand out mutable sub-slices; here they return the sub-sequences
    themselves, which is all the rest of the server observes. The same
    functions also stand for `str::split_once` and `str::split` with a string
    pattern, which have the same semantics on the characters of a string. */
module SliceExt {
  import opened Wrappers

  /** `p` occurs in `s` starting at index `i`. */
  predicate OccursAt<T(==)>(s: seq<T>, p: seq<T>, i: int)
  {
    0 <= i && i + |p| <= |s| && s[i..i + |p|] == p
  }

  /** `p` occurs nowhere in `s`. */
  ghost predicate Absent<T>(s: seq<T>, p: seq<T>)
  {
    forall j :: !OccursAt(s, p, j)
  }

  /** The search behind `position_pattern`: the first window, from index `i`
      on, that equals `p`. */
  function PositionFrom<T(==)>(s: seq<T>, p: seq<T>, i: nat): (r: Option<nat>)
    ensures r.Some? ==> i <= r.value && OccursAt(s, p, r.value)
    ensures r.Some? ==> forall j :: i <= j < r.value ==> !OccursAt(s, p, j)
    ensures r.None? ==> forall j :: i <= j ==> !OccursAt(s, p, j)
    decreases |s| - i
  {
    if i + |p| > |s| then None
    else if s[i..i + |p|] == p then Some(i)
    else PositionFrom(s, p, i + 1)
  }

  /** `position_pattern`: the least index at which `p` occurs, or None when it
      never occurs (in particular when `p` is longer than `s`). `windows(0)`
      panics, so the pattern must be non-empty. */
  function PositionPattern<T(==)>(s: seq<T>, p: seq<T>): (r: Option<nat>)
    requires |p| > 0
    ensures r.Some? ==> OccursAt(s, p, r.value)
    ensures r.Some? ==> forall j :: 0 <= j < r.value ==> !OccursAt(s, p, j)
    ensures r.None? <==> Absent(s, p)
  {
    PositionFrom(s, p, 0)
  }

  /** `split_once_mut`: the parts before and after the first occurrence of `p`. */
  function SplitOnce<T(==)>(s: seq<T>, p: seq<T>): (r: Option<(seq<T>, seq<T>)>)
    requires |p| > 0
    ensures r.None? <==> Absent(s, p)
    ensures r.Some? ==> s == r.value.0 + p + r.value.1
    ensures r.Some? ==> forall j :: 0 <= j < |r.value.0| ==> !OccursAt(s, p, j)
  {
    match PositionPattern(s, p)
    case None => None
    case Some(pos) =>
      assert s == s[..pos] + s[pos..pos + |p|] + s[pos + |p|..];
      Some((s[..pos], s[pos + |p|..]))
  }

  /** A one-element pattern that never occurs is an element that is absent. */
  lemma AbsentElement<T>(s: seq<T>, c: T)
    requires Absent(s, [c])
    ensures c !in s
  {
    forall k | 0 <= k < |s|
      ensures s[k] != c
    {
      assert s[k..k + 1] == [s[k]];
      assert !OccursAt(s, [c], k);
    }
  }

  /** The left part of `SplitOnce` holds no occurrence of the pattern at all:
      the first occurrence is the one split at. */
  lemma SplitOnceLeftClean<T>(s: seq<T>, p: seq<T>)
    requires |p| > 0 && SplitOnce(s, p).Some?
    ensures Absent(SplitOnce(s, p).value.0, p)
  {
    var left := SplitOnce(s, p).value.0;
    forall j | OccursAt(left, p, j)
      ensures false
    {
      assert s[j..j + |p|] == left[j..j + |p|];
      assert OccursAt(s, p, j);
    }
  }

  /** The state of a `SplitPatternMut` iterator: the part not yet split (None
      once the last part has been yielded) and the pattern. */
  datatype SplitPattern<T> = SplitPattern(rest: Option<seq<T>>, pattern: seq<T>)

  /** A measure that every `SplitNext` step decreases. */
  function Remaining<T>(it: SplitPattern<T>): nat
  {
    if it.rest.None? then 0 else |it.rest.value| + 1
  }

  /** `SplitPatternMut::next`: yields the part before the next occurrence of the
      pattern and keeps what follows it; with no occurrence left it yields the
      whole rest and is exhausted afterwards. */
  function SplitNext<T(==)>(it: SplitPattern<T>): (r: (Option<seq<T>>, SplitPattern<T>))
    requires |it.pattern| > 0
    ensures r.1.pattern == it.pattern
    ensures it.rest.None? ==> r.0.None? && r.1.rest.None?
    ensures it.rest.Some? ==> r.0.Some?
    ensures it.rest.Some? && r.1.rest.None? ==>
              r.0.value == it.rest.value && Absent(it.rest.value, it.pattern)
    ensures it.rest.Some? && r.1.rest.Some? ==>
              it.rest.value == r.0.value + it.pattern + r.1.rest.value
    ensures it.rest.Some? ==> Remaining(r.1) < Remaining(it)
  {
    match it.rest
    case None => (None, it)
    case Some(s) =>
      match SplitOnce(s, it.pattern)
      case None => (Some(s), SplitPattern(None, it.pattern))
      case Some((left, right)) => (Some(left), SplitPattern(Some(right), it.pattern))
  }

  /** Everything the iterator still yields, in order. */
  function Drain<T(==)>(it: SplitPattern<T>): seq<seq<T>>
    requires |it.pattern| > 0
    decreases Remaining(it)
  {
    match SplitNext(it)
    case (None, _) => []
    case (Some(part), next) => [part] + Drain(next)
  }

  /** `split_pattern_mut(s, p)` collected: the parts of `s` between the
      occurrences of `p`. */
  function Split<T(==)>(s: seq<T>, p: seq<T>): seq<seq<T>>
    requires |p| > 0
  {
    Drain(SplitPattern(Some(s), p))
  }

  /** The parts joined back with the separator between consecutive ones. */
  function Join<T>(parts: seq<seq<T>>, sep: seq<T>): seq<T>
  {
    if |parts| == 0 then []
    else if |parts| == 1 then parts[0]
    else parts[0] + sep + Join(parts[1..], sep)
  }

  /** One step of `Split`: the part before the first occurrence, then the
      split of the rest. */
  lemma SplitUnfold<T>(s: seq<T>, p: seq<T>)
    requires |p| > 0
    ensures SplitOnce(s, p).None? ==> Split(s, p) == [s]
    ensures SplitOnce(s, p).Some? ==>
              Split(s, p) == [SplitOnce(s, p).value.0] + Split(SplitOnce(s, p).value.1, p)
  {
    var it := SplitPattern(Some(s), p);
    match SplitOnce(s, p)
    case None =>
      assert SplitNext(it) == (Some(s), SplitPattern(None, p));
      assert Drain(SplitPattern(None, p)) == [];
    case Some((left, right)) =>
      assert SplitNext(it) == (Some(left), SplitPattern(Some(right), p));
  }

  /** The parts yielded by `split` re-join with the pattern to give the input,
      there is at least one part, and no part contains the pattern. */
  lemma {:induction false} SplitJoin<T>(s: seq<T>, p: seq<T>)
    requires |p| > 0
    ensures |Split(s, p)| >= 1
    ensures Join(Split(s, p), p) == s
    ensures forall k :: 0 <= k < |Split(s, p)| ==> Absent(Split(s, p)[k], p)
    decreases |s|
  {
    SplitUnfold(s, p);
    match SplitOnce(s, p)
    case None =>
    case Some((left, right)) =>
      SplitOnceLeftClean(s, p);
      SplitJoin(right, p);
      var tail := Split(right, p);
      assert Split(s, p) == [left] + tail;
      assert ([left] + tail)[1..] == tail;
  }

  /** With no occurrence the iterator yields the whole input once and is then
      exhausted. */
  lemma SplitWithoutPattern<T>(s: seq<T>, p: seq<T>)
    requires |p| > 0 && Absent(s, p)
    ensures SplitNext(SplitPattern(Some(s), p)).0 == Some(s)
    ensures SplitNext(SplitNext(SplitPattern(Some(s), p)).1).0 == None
    ensures Split(s, p) == [s]
  {
    SplitUnfold(s, p);
  }

  /** If `left` does not contain the one-element separator, splitting
      `left + [c] + right` yields `left` and then the parts of `right`. */
  lemma SplitCons<T>(left: seq<T>, c: T, right: seq<T>)
    requires c !in left
    ensures Split(left + [c] + right, [c]) == [left] + Split(right, [c])
  {
    var s := left + [c] + right;
    assert OccursAt(s, [c], |left|);
    forall j | 0 <= j < |left|
      ensures !OccursAt(s, [c], j)
    {
      assert s[j] == left[j];
    }
    var pos := PositionPattern(s, [c]);
    assert pos == Some(|left|);
    SplitUnfold(s, [c]);
    assert s[..|left|] == left;
    assert s[|left| + 1..] == right;
  }

  /** A sequence without the one-element separator is a single part. */
  lemma SplitSingle<T>(s: seq<T>, c: T)
    requires c !in s
    ensures Split(s, [c]) == [s]
  {
    SplitUnfold(s, [c]);
  }
}

=== FILE: status_codes.dfy ===
/** The IANA HTTP status code registry (section 15 of RFC 9110) as the
    server holds it (src/status_code_registry.rs): a `ReasonPhrase` enumeration
    whose discriminants are the status codes, the text of each phrase, and the
    two lookup tables built by iterating over the enumeration. */
module StatusCodes {
  import opened Wrappers

  /** `ReasonPhrase`, in declaration order. */
  datatype ReasonPhrase =
    | Continue
    | SwitchingProtocols
    | Processing
    | EarlyHints
    | OK
    | Created
    | Accepted
    | NonAuthoritativeInformation
    | NoContent
    | ResetContent
    | PartialContent
    | MultiStatus
    | AlreadyReported
    | IMUsed
    | MultipleChoices
    | MovedPermanently
    | Found
    | SeeOther
    | NotModified
    | UseProxy
    | TemporaryRedirect
    | PermanentRedirect
    | BadRequest
    | Unauthorized
    | PaymentRequired
    | Forbidden
    | NotFound
    | MethodNotAllowed
    | NotAcceptable
    | ProxyAuthenticationRequired
    | RequestTimeout
    | Conflict
    | Gone
    | LengthRequired
    | PreconditionFailed
    | ContentTooLarge
    | URITooLong
    | UnsupportedMediaType
    | RangeNotSatisfiable
    | ExpectationFailed
    | MisdirectedRequest
    | UnprocessableContent
    | Locked
    | FailedDependency
    | TooEarly
    | UpgradeRequired
    | PreconditionRequired
    | TooManyRequests
    | RequestHeaderFieldsTooLarge
    | UnavailableForLegalReasons
    | InternalServerError
    | NotImplemented
    | BadGateway
    | ServiceUnavailable
    | GatewayTimeout
    | HTTPVersionNotSupported
    | VariantAlsoNegotiates
    | InsufficientStorage
    | LoopDetected
    | NetworkAuthenticationRequired

  /** The discriminant of each phrase (`reason_phrase as u16`): its status code. */
  function Code(p: ReasonPhrase): (c: nat)
    ensures 100 <= c <= 511
  {
    match p
    case Continue => 100
    case SwitchingProtocols => 101
    case Processing => 102
    case EarlyHints => 103
    case OK => 200
    case Created => 201
    case Accepted => 202
    case NonAuthoritativeInformation => 203
    case NoContent => 204
    case ResetContent => 205
    case PartialContent => 206
    case MultiStatus => 207
    case AlreadyReported => 208
    case IMUsed => 226
    case MultipleChoices => 300
    case MovedPermanently => 301
    case Found => 302
    case SeeOther => 303
    case NotModified => 304
    case UseProxy => 305
    case TemporaryRedirect => 307
    case PermanentRedirect => 308
    case BadRequest => 400
    case Unauthorized => 401
    case PaymentRequired => 402
    case Forbidden => 403
    case NotFound => 404
    case MethodNotAllowed => 405
    case NotAcceptable => 406
    case ProxyAuthenticationRequired => 407
    case RequestTimeout => 408
    case Conflict => 409
    case Gone => 410
    case LengthRequired => 411
    case PreconditionFailed => 412
    case ContentTooLarge => 413
    case URITooLong => 414
    case UnsupportedMediaType => 415
    case RangeNotSatisfiable => 416
    case ExpectationFailed => 417
    case MisdirectedRequest => 421
    case UnprocessableContent => 422
    case Locked => 423
    case FailedDependency => 424
    case TooEarly => 425
    case UpgradeRequired => 426
    case PreconditionRequired => 428
    case TooManyRequests => 429
    case RequestHeaderFieldsTooLarge => 431
    case UnavailableForLegalReasons => 451
    case InternalServerError => 500
    case NotImplemented => 501
    case BadGateway => 502
    case ServiceUnavailable => 503
    case GatewayTimeout => 504
    case HTTPVersionNotSupported => 505
    case VariantAlsoNegotiates => 506
    case InsufficientStorage => 507
    case LoopDetected => 508
    case NetworkAuthenticationRequired => 511
  }

  /** `ReasonPhrase::as_str`: the reason phrase text of the registry. */
  function AsStr(p: ReasonPhrase): (s: string)
    ensures |s| > 0
  {
    match p
    case Continue => "Continue"
    case SwitchingProtocols => "Switching Protocols"
    case Processing => "Processing"
    case EarlyHints => "Early Hints"
    case OK => "OK"
    case Created => "Created"
    case Accepted => "Accepted"
    case NonAuthoritativeInformation => "Non-Authoritative Information"
    case NoContent => "No Content"
    case ResetContent => "Reset Content"
    case PartialContent => "Partial Content"
    case MultiStatus => "Multi-Status"
    case AlreadyReported => "Already Reported"
    case IMUsed => "IM Used"
    case MultipleChoices => "Multiple Choices"
    case MovedPermanently => "Moved Permanently"
    case Found => "Found"
    case SeeOther => "See Other"
    case NotModified => "Not Modified"
    case UseProxy => "Use Proxy"
    case TemporaryRedirect => "Temporary Redirect"
    case PermanentRedirect => "Permanent Redirect"
    case BadRequest => "Bad Request"
    case Unauthorized => "Unauthorized"
    case PaymentRequired => "Payment Required"
    case Forbidden => "Forbidden"
    case NotFound => "Not Found"
    case MethodNotAllowed => "Method Not Allowed"
    case NotAcceptable => "Not Acceptable"
    case ProxyAuthenticationRequired => "Proxy Authentication Required"
    case RequestTimeout => "Request Timeout"
    case Conflict => "Conflict"
    case Gone => "Gone"
    case LengthRequired => "Length Required"
    case PreconditionFailed => "Precondition Failed"
    case ContentTooLarge => "Content Too Large"
    case URITooLong => "URI Too Long"
    case UnsupportedMediaType => "Unsupported Media Type"
    case RangeNotSatisfiable => "Range Not Satisfiable"
    case ExpectationFailed => "Expectation Failed"
    case MisdirectedRequest => "Misdirected Request"
    case UnprocessableContent => "Unprocessable Content"
    case Locked => "Locked"
    case FailedDependency => "Failed Dependency"
    case TooEarly => "Too Early"
    case UpgradeRequired => "Upgrade Required"
    case PreconditionRequired => "Precondition Required"
    case TooManyRequests => "Too Many Requests"
    case RequestHeaderFieldsTooLarge => "Request Header Fields Too Large"
    case UnavailableForLegalReasons => "Unavailable For Legal Reasons"
    case InternalServerError => "Internal Server Error"
    case NotImplemented => "Not Implemented"
    case BadGateway => "Bad Gateway"
    case ServiceUnavailable => "Service Unavailable"
    case GatewayTimeout => "Gateway Timeout"
    case HTTPVersionNotSupported => "HTTP Version Not Supported"
    case VariantAlsoNegotiates => "Variant Also Negotiates"
    case InsufficientStorage => "Insufficient Storage"
    case LoopDetected => "Loop Detected"
    case NetworkAuthenticationRequired => "Network Authentication Required"
  }

  /** The registry read from the code side: the phrase registered for a code,
      if any. This is an independent statement of the IANA table, used to show
      that the discriminants are distinct and the lookup tables agree with it. */
  function PhraseOf(c: int): Option<ReasonPhrase>
  {
    if c < 200 then InformationalOf(c)
    else if c < 300 then SuccessfulOf(c)
    else if c < 400 then RedirectionOf(c)
    else if c < 500 then ClientErrorOf(c)
    else ServerErrorOf(c)
  }

  /** The 1xx rows of the table. */
  function InformationalOf(c: int): Option<ReasonPhrase>
  {
    if c == 100 then Some(Continue)
    else if c == 101 then Some(SwitchingProtocols)
    else if c == 102 then Some(Processing)
    else if c == 103 then Some(EarlyHints)
    else None
  }

  /** The 2xx rows of the table. */
  function SuccessfulOf(c: int): Option<ReasonPhrase>
  {
    if c == 200 then Some(OK)
    else if c == 201 then Some(Created)
    else if c == 202 then Some(Accepted)
    else if c == 203 then Some(NonAuthoritativeInformation)
    else if c == 204 then Some(NoContent)
    else if c == 205 then Some(ResetContent)
    else if c == 206 then Some(PartialContent)
    else if c == 207 then Some(MultiStatus)
    else if c == 208 then Some(AlreadyReported)
    else if c == 226 then Some(IMUsed)
    else None
  }

  /** The 3xx rows of the table. */
  function RedirectionOf(c: int): Option<ReasonPhrase>
  {
    if c == 300 then Some(MultipleChoices)
    else if c == 301 then Some(MovedPermanently)
    else if c == 302 then Some(Found)
    else if c == 303 then Some(SeeOther)
    else if c == 304 then Some(NotModified)
    else if c == 305 then Some(UseProxy)
    else if c == 307 then Some(TemporaryRedirect)
    else if c == 308 then Some(PermanentRedirect)
    else None
  }

  /** The 4xx rows of the table. */
  function ClientErrorOf(c: int): Option<ReasonPhrase>
  {
    if c == 400 then Some(BadRequest)
    else if c == 401 then Some(Unauthorized)
    else if c == 402 then Some(PaymentRequired)
    else if c == 403 then Some(Forbidden)
    else if c == 404 then Some(NotFound)
    else if c == 405 then Some(MethodNotAllowed)
    else if c == 406 then Some(NotAcceptable)
    else if c == 407 then Some(ProxyAuthenticationRequired)
    else if c == 408 then Some(RequestTimeout)
    else if c == 409 then Some(Conflict)
    else if c == 410 then Some(Gone)
    else if c == 411 then Some(LengthRequired)
    else if c == 412 then Some(PreconditionFailed)
    else if c == 413 then Some(ContentTooLarge)
    else if c == 414 then Some(URITooLong)
    else if c == 415 then Some(UnsupportedMediaType)
    else if c == 416 then Some(RangeNotSatisfiable)
    else if c == 417 then Some(ExpectationFailed)
    else if c == 421 then Some(MisdirectedRequest)
    else if c == 422 then Some(UnprocessableContent)
    else if c == 423 then Some(Locked)
    else if c == 424 then Some(FailedDependency)
    else if c == 425 then Some(TooEarly)
    else if c == 426 then Some(UpgradeRequired)
    else if c == 428 then Some(PreconditionRequired)
    else if c == 429 then Some(TooManyRequests)
    else if c == 431 then Some(RequestHeaderFieldsTooLarge)
    else if c == 451 then Some(UnavailableForLegalReasons)
    else None
  }

  /** The 5xx rows of the table. */
  function ServerErrorOf(c: int): Option<ReasonPhrase>
  {
    if c == 500 then Some(InternalServerError)
    else if c == 501 then Some(NotImplemented)
    else if c == 502 then Some(BadGateway)
    else if c == 503 then Some(ServiceUnavailable)
    else if c == 504 then Some(GatewayTimeout)
    else if c == 505 then Some(HTTPVersionNotSupported)
    else if c == 506 then Some(VariantAlsoNegotiates)
    else if c == 507 then Some(InsufficientStorage)
    else if c == 508 then Some(LoopDetected)
    else if c == 511 then Some(NetworkAuthenticationRequired)
    else None
  }

  /** The order in which `ReasonPhrase::iter()` visits the phrases: the
      declaration order, class by class. */
  const AllPhrases: seq<ReasonPhrase> :=
    Informational + Successful + Redirection + ClientError + ServerError

  const Informational: seq<ReasonPhrase> := [
    Continue,
    SwitchingProtocols,
    Processing,
    EarlyHints
  ]

  const Successful: seq<ReasonPhrase> := [
    OK,
    Created,
    Accepted,
    NonAuthoritativeInformation,
    NoContent,
    ResetContent,
    PartialContent,
    MultiStatus,
    AlreadyReported,
    IMUsed
  ]

  const Redirection: seq<ReasonPhrase> := [
    MultipleChoices,
    MovedPermanently,
    Found,
    SeeOther,
    NotModified,
    UseProxy,
    TemporaryRedirect,
    PermanentRedirect
  ]

  const ClientError: seq<ReasonPhrase> := [
    BadRequest,
    Unauthorized,
    PaymentRequired,
    Forbidden,
    NotFound,
    MethodNotAllowed,
    NotAcceptable,
    ProxyAuthenticationRequired,
    RequestTimeout,
    Conflict,
    Gone,
    LengthRequired,
    PreconditionFailed,
    ContentTooLarge,
    URITooLong,
    UnsupportedMediaType,
    RangeNotSatisfiable,
    ExpectationFailed,
    MisdirectedRequest,
    UnprocessableContent,
    Locked,
    FailedDependency,
    TooEarly,
    UpgradeRequired,
    PreconditionRequired,
    TooManyRequests,
    RequestHeaderFieldsTooLarge,
    UnavailableForLegalReasons
  ]

  const ServerError: seq<ReasonPhrase> := [
    InternalServerError,
    NotImplemented,
    BadGateway,
    ServiceUnavailable,
    GatewayTimeout,
    HTTPVersionNotSupported,
    VariantAlsoNegotiates,
    InsufficientStorage,
    LoopDetected,
    NetworkAuthenticationRequired
  ]

  /** The type of a status code argument (`u16`). */
  type u16 = x: int | 0 <= x < 0x1_0000

  /** Every phrase is visited by the iteration. */
  lemma EveryPhraseListed(p: ReasonPhrase)
    ensures p in AllPhrases
  {
  }

  /** Reading the table from the code side recovers the phrase. */
  lemma PhraseOfCode(p: ReasonPhrase)
    ensures PhraseOf(Code(p)) == Some(p)
  {
    // one lemma per block of the table keeps each proof small
    match p
    case Continue | SwitchingProtocols | Processing | EarlyHints =>
      InformationalCode(p);
    case OK | Created | Accepted | NonAuthoritativeInformation | NoContent | ResetContent |
      PartialContent | MultiStatus | AlreadyReported | IMUsed =>
      SuccessfulCode(p);
    case MultipleChoices | MovedPermanently | Found | SeeOther | NotModified | UseProxy |
      TemporaryRedirect | PermanentRedirect =>
      RedirectionCode(p);
    case BadRequest | Unauthorized | PaymentRequired | Forbidden | NotFound |
      MethodNotAllowed | NotAcceptable | ProxyAuthenticationRequired | RequestTimeout |
      Conflict | Gone | LengthRequired | PreconditionFailed | ContentTooLarge |
      URITooLong =>
      ClientErrorLowCode(p);
    case UnsupportedMediaType | RangeNotSatisfiable | ExpectationFailed |
      MisdirectedRequest | UnprocessableContent | Locked | FailedDependency | TooEarly |
      UpgradeRequired | PreconditionRequired | TooManyRequests |
      RequestHeaderFieldsTooLarge | UnavailableForLegalReasons =>
      ClientErrorHighCode(p);
    case InternalServerError | NotImplemented | BadGateway | ServiceUnavailable |
      GatewayTimeout | HTTPVersionNotSupported | VariantAlsoNegotiates |
      InsufficientStorage | LoopDetected | NetworkAuthenticationRequired =>
      ServerErrorCode(p);
  }

  /** The phrases whose codes are 1xx. */
  predicate IsInformational(p: ReasonPhrase) {
    p.Continue? || p.SwitchingProtocols? || p.Processing? || p.EarlyHints?
  }

  lemma InformationalCode(p: ReasonPhrase)
    requires IsInformational(p)
    ensures PhraseOf(Code(p)) == Some(p)
  {
    match p
    case Continue | SwitchingProtocols | Processing | EarlyHints =>
    case _ => assert false;
  }

  /** The phrases whose codes are 2xx. */
  predicate IsSuccessful(p: ReasonPhrase) {
    p.OK? || p.Created? || p.Accepted? || p.NonAuthoritativeInformation? || p.NoContent? ||
    p.ResetContent? || p.PartialContent? || p.MultiStatus? || p.AlreadyReported? ||
    p.IMUsed?
  }

  lemma SuccessfulCode(p: ReasonPhrase)
    requires IsSuccessful(p)
    ensures PhraseOf(Code(p)) == Some(p)
  {
    match p
    case OK | Created | Accepted | NonAuthoritativeInformation | NoContent | ResetContent |
      PartialContent | MultiStatus | AlreadyReported | IMUsed =>
    case _ => assert false;
  }

  /** The phrases whose codes are 3xx. */
  predicate IsRedirection(p: ReasonPhrase) {
    p.MultipleChoices? || p.MovedPermanently? || p.Found? || p.SeeOther? ||
    p.NotModified? || p.UseProxy? || p.TemporaryRedirect? || p.PermanentRedirect?
  }

  lemma RedirectionCode(p: ReasonPhrase)
    requires IsRedirection(p)
    ensures PhraseOf(Code(p)) == Some(p)
  {
    match p
    case MultipleChoices | MovedPermanently | Found | SeeOther | NotModified | UseProxy |
      TemporaryRedirect | PermanentRedirect =>
    case _ => assert false;
  }

  /** The phrases whose codes are 400 to 414. */
  predicate IsClientErrorLow(p: ReasonPhrase) {
    p.BadRequest? || p.Unauthorized? || p.PaymentRequired? || p.Forbidden? || p.NotFound? ||
    p.MethodNotAllowed? || p.NotAcceptable? || p.ProxyAuthenticationRequired? ||
    p.RequestTimeout? || p.Conflict? || p.Gone? || p.LengthRequired? ||
    p.PreconditionFailed? || p.ContentTooLarge? || p.URITooLong?
  }

  lemma ClientErrorLowCode(p: ReasonPhrase)
    requires IsClientErrorLow(p)
    ensures PhraseOf(Code(p)) == Some(p)
  {
    match p
    case BadRequest | Unauthorized | PaymentRequired | Forbidden | NotFound |
      MethodNotAllowed | NotAcceptable | ProxyAuthenticationRequired | RequestTimeout |
      Conflict | Gone | LengthRequired | PreconditionFailed | ContentTooLarge |
      URITooLong =>
    case _ => assert false;
  }

  /** The phrases whose codes are 415 to 451. */
  predicate IsClientErrorHigh(p: ReasonPhrase) {
    p.UnsupportedMediaType? || p.RangeNotSatisfiable? || p.ExpectationFailed? ||
    p.MisdirectedRequest? || p.UnprocessableContent? || p.Locked? || p.FailedDependency? ||
    p.TooEarly? || p.UpgradeRequired? || p.PreconditionRequired? || p.TooManyRequests? ||
    p.RequestHeaderFieldsTooLarge? || p.UnavailableForLegalReasons?
  }

  lemma ClientErrorHighCode(p: ReasonPhrase)
    requires IsClientErrorHigh(p)
    ensures PhraseOf(Code(p)) == Some(p)
  {
    match p
    case UnsupportedMediaType | RangeNotSatisfiable | ExpectationFailed |
      MisdirectedRequest | UnprocessableContent | Locked | FailedDependency | TooEarly |
      UpgradeRequired | PreconditionRequired | TooManyRequests |
      RequestHeaderFieldsTooLarge | UnavailableForLegalReasons =>
    case _ => assert false;
  }

  /** The phrases whose codes are 5xx. */
  predicate IsServerError(p: ReasonPhrase) {
    p.InternalServerError? || p.NotImplemented? || p.BadGateway? || p.ServiceUnavailable? ||
    p.GatewayTimeout? || p.HTTPVersionNotSupported? || p.VariantAlsoNegotiates? ||
    p.InsufficientStorage? || p.LoopDetected? || p.NetworkAuthenticationRequired?
  }

  lemma ServerErrorCode(p: ReasonPhrase)
    requires IsServerError(p)
    ensures PhraseOf(Code(p)) == Some(p)
  {
    match p
    case InternalServerError | NotImplemented | BadGateway | ServiceUnavailable |
      GatewayTimeout | HTTPVersionNotSupported | VariantAlsoNegotiates |
      InsufficientStorage | LoopDetected | NetworkAuthenticationRequired =>
    case _ => assert false;
  }

  /** A code that the table maps to a phrase is that phrase's discriminant. */
  lemma CodeOfPhrase(c: int)
    ensures PhraseOf(c).Some? ==> Code(PhraseOf(c).value) == c
  {
    if PhraseOf(c).Some? {
      var p := PhraseOf(c).value;
      if c < 200 {
        InformationalPhrase(c, p);
      } else if c < 300 {
        SuccessfulPhrase(c, p);
      } else if c < 400 {
        RedirectionPhrase(c, p);
      } else if c < 415 {
        ClientErrorPhraseLow(c, p);
      } else if c < 500 {
        ClientErrorPhraseHigh(c, p);
      } else {
        ServerErrorPhrase(c, p);
      }
    }
  }

  /** Every phrase with a 1xx code is in the 1xx group. */
  lemma InformationalListed(p: ReasonPhrase)
    requires 100 <= Code(p) < 200
    ensures p in Informational
  {
  }

  /** Every phrase with a 2xx code is in the 2xx group. */
  lemma SuccessfulListed(p: ReasonPhrase)
    requires 200 <= Code(p) < 300
    ensures p in Successful
  {
  }

  /** Every phrase with a 3xx code is in the 3xx group. */
  lemma RedirectionListed(p: ReasonPhrase)
    requires 300 <= Code(p) < 400
    ensures p in Redirection
  {
  }

  /** Every phrase with a 4xx code is in the 4xx group. */
  lemma ClientErrorListed(p: ReasonPhrase)
    requires 400 <= Code(p) < 500
    ensures p in ClientError
  {
  }

  /** Every phrase with a 5xx code is in the 5xx group. */
  lemma ServerErrorListed(p: ReasonPhrase)
    requires 500 <= Code(p) < 600
    ensures p in ServerError
  {
  }

  lemma InformationalPhrase(c: int, p: ReasonPhrase)
    requires InformationalOf(c) == Some(p)
    ensures Code(p) == c
  {
    match p
    case Continue | SwitchingProtocols | Processing | EarlyHints =>
    case _ => assert false;
  }

  lemma SuccessfulPhrase(c: int, p: ReasonPhrase)
    requires SuccessfulOf(c) == Some(p)
    ensures Code(p) == c
  {
    match p
    case OK | Created | Accepted | NonAuthoritativeInformation | NoContent | ResetContent |
      PartialContent | MultiStatus | AlreadyReported | IMUsed =>
    case _ => assert false;
  }

  lemma RedirectionPhrase(c: int, p: ReasonPhrase)
    requires RedirectionOf(c) == Some(p)
    ensures Code(p) == c
  {
    match p
    case MultipleChoices | MovedPermanently | Found | SeeOther | NotModified | UseProxy |
      TemporaryRedirect | PermanentRedirect =>
    case _ => assert false;
  }

  lemma ClientErrorPhraseLow(c: int, p: ReasonPhrase)
    requires c < 415 && ClientErrorOf(c) == Some(p)
    ensures Code(p) == c
  {
    match p
    case BadRequest | Unauthorized | PaymentRequired | Forbidden | NotFound |
      MethodNotAllowed | NotAcceptable | ProxyAuthenticationRequired | RequestTimeout |
      Conflict | Gone | LengthRequired | PreconditionFailed | ContentTooLarge |
      URITooLong =>
    case _ => assert false;
  }

  lemma ClientErrorPhraseHigh(c: int, p: ReasonPhrase)
    requires 415 <= c && ClientErrorOf(c) == Some(p)
    ensures Code(p) == c
  {
    match p
    case UnsupportedMediaType | RangeNotSatisfiable | ExpectationFailed |
      MisdirectedRequest | UnprocessableContent | Locked | FailedDependency | TooEarly |
      UpgradeRequired | PreconditionRequired | TooManyRequests |
      RequestHeaderFieldsTooLarge | UnavailableForLegalReasons =>
    case _ => assert false;
  }

  lemma ServerErrorPhrase(c: int, p: ReasonPhrase)
    requires ServerErrorOf(c) == Some(p)
    ensures Code(p) == c
  {
    match p
    case InternalServerError | NotImplemented | BadGateway | ServiceUnavailable |
      GatewayTimeout | HTTPVersionNotSupported | VariantAlsoNegotiates |
      InsufficientStorage | LoopDetected | NetworkAuthenticationRequired =>
    case _ => assert false;
  }

  /** Distinct phrases have distinct codes. */
  lemma CodeInjective(p: ReasonPhrase, q: ReasonPhrase)
    requires Code(p) == Code(q)
    ensures p == q
  {
    PhraseOfCode(p);
    PhraseOfCode(q);
  }

  /** `StatusCodeRegistry`: the code-to-phrase and phrase-to-code tables. */
  datatype Registry = Registry(reasonPhraseLookup: map<int, ReasonPhrase>, statusCodeLookup: map<ReasonPhrase, int>)

  /** The loop of `StatusCodeRegistry::new` run over `ps`: each phrase is
      inserted into both tables under its discriminant. */
  function Build(ps: seq<ReasonPhrase>): (r: Registry)
    ensures forall p :: p in r.statusCodeLookup <==> p in ps
    ensures forall p :: p in r.statusCodeLookup ==> r.statusCodeLookup[p] == Code(p)
    ensures forall c :: c in r.reasonPhraseLookup ==>
              r.reasonPhraseLookup[c] in ps && Code(r.reasonPhraseLookup[c]) == c
    ensures forall p :: p in ps ==> Code(p) in r.reasonPhraseLookup
  {
    if |ps| == 0 then Registry(map[], map[])
    else
      var r := Build(ps[..|ps| - 1]);
      var p := ps[|ps| - 1];
      assert forall q :: q in ps <==> q in ps[..|ps| - 1] || q == p;
      Registry(r.reasonPhraseLookup[Code(p) := p], r.statusCodeLookup[p := Code(p)])
  }

  /** The process-wide registry (`STATUS_CODE_REGISTRY`). */
  function TheRegistry(): Registry
  {
    Build(AllPhrases)
  }

  /** `get_reason_phrase`: the phrase registered for a code, if any. */
  function GetReasonPhrase(code: u16): (r: Option<ReasonPhrase>)
    ensures r.Some? ==> Code(r.value) == code
  {
    var lookup := TheRegistry().reasonPhraseLookup;
    if code in lookup then Some(lookup[code]) else None
  }

  /** `get_status_code`: total over the enumeration, and equal to the
      phrase's declared discriminant. */
  function GetStatusCode(p: ReasonPhrase): (c: u16)
    ensures c == Code(p)
  {
    EveryPhraseListed(p);
    TheRegistry().statusCodeLookup[p]
  }

  /** For every phrase, looking up its code gives the phrase back. */
  lemma ReasonOfStatus(p: ReasonPhrase)
    ensures GetReasonPhrase(GetStatusCode(p)) == Some(p)
  {
    EveryPhraseListed(p);
    var q := TheRegistry().reasonPhraseLookup[Code(p)];
    CodeInjective(p, q);
  }

  /** Whenever a code has a phrase, that phrase's code is the code. */
  lemma StatusOfReason(c: u16)
    ensures GetReasonPhrase(c).Some? ==> GetStatusCode(GetReasonPhrase(c).value) == c
  {
  }

  /** The registry built by the loop agrees everywhere with the IANA table:
      in particular a code that is not registered, such as 600, has no phrase. */
  lemma RegistryMatchesTable(c: u16)
    ensures GetReasonPhrase(c) == PhraseOf(c)
  {
    CodeOfPhrase(c);
    match PhraseOf(c)
    case Some(p) =>
      ReasonOfStatus(p);
    case None =>
      if GetReasonPhrase(c).Some? {
        PhraseOfCode(GetReasonPhrase(c).value);
      }
  }

  /** The cases the source's tests pin down: 200 is OK and OK is 200, 600
      has no phrase, and `NotFound` reads "Not Found". */
  lemma OkExample()
    ensures GetReasonPhrase(200) == Some(OK)
  {
    RegistryMatchesTable(200);
  }

  lemma UnregisteredExample()
    ensures GetReasonPhrase(600) == None
  {
    RegistryMatchesTable(600);
  }

  lemma NotFoundText()
    ensures AsStr(NotFound) == "Not Found"
  {
  }
}

=== FILE: stream_reader.dfy ===
/** The bounded reader over a connection (src/stream_reader.rs): a buffered
    reader behind a byte budget (`Take`). The state is what the stream still
    holds and how many more bytes the budget lets through; reading consumes
    from both. The stream is a finite sequence here: an endless stream is one
    longer than any budget it is read under. */
module StreamReaders {
  import opened Wrappers

  /** `u64::MAX`, the budget of a fresh reader. */
  const U64_MAX: nat := 0xFFFF_FFFF_FFFF_FFFF

  datatype StreamReader = StreamReader(input: string, limit: nat)

  datatype ReadError =
    | EndOfFile      // `read_line` read nothing
    | UnexpectedEof  // `read_exact` ran out of bytes or budget first

  /** `StreamReader::new`: the whole stream under the largest budget. */
  function New(input: string): (r: StreamReader)
    ensures r.input == input && r.limit == U64_MAX
  {
    StreamReader(input, U64_MAX)
  }

  /** `set_limit`: the budget is replaced, whatever was left of it. */
  function SetLimit(r: StreamReader, limit: nat): (r': StreamReader)
    requires limit <= U64_MAX
    ensures r'.input == r.input && r'.limit == limit
  {
    StreamReader(r.input, limit)
  }

  /** The bytes the budget lets through from what the stream still holds. */
  function Available(r: StreamReader): (s: string)
    ensures |s| <= r.limit && s <= r.input
    ensures |s| == r.limit || s == r.input
  {
    if |r.input| <= r.limit then r.input else r.input[..r.limit]
  }

  /** The length of the first line of `s`: up to and including the first
      LF, or all of `s` when it holds none. */
  function LineLength(s: string): (n: nat)
    ensures n <= |s|
    ensures n < |s| ==> n > 0 && s[n - 1] == '\n'
    ensures forall i :: 0 <= i < n - 1 ==> s[i] != '\n'
    ensures n == |s| && n > 0 ==> s[n - 1] == '\n' || '\n' !in s
  {
    if |s| == 0 then 0
    else if s[0] == '\n' then 1
    else 1 + LineLength(s[1..])
  }

  /** `read_line`: the bytes up to and including the first LF among the
      available ones, or all of them when there is no LF; EndOfFile when no
      byte is available (an empty stream or a spent budget). The budget goes
      down by the bytes consumed. */
  function ReadLine(r: StreamReader): (res: Result<(string, StreamReader), ReadError>)
    ensures res.Err? <==> Available(r) == []
    ensures res.Err? ==> res.error == EndOfFile
    ensures res.Ok? ==> var (line, r') := res.value;
              |line| > 0 && r.input == line + r'.input && r'.limit == r.limit - |line|
    ensures res.Ok? ==> var line := res.value.0;
              line <= Available(r) && forall i :: 0 <= i < |line| - 1 ==> line[i] != '\n'
    ensures res.Ok? ==> var line := res.value.0;
              line[|line| - 1] == '\n' || line == Available(r)
  {
    var avail := Available(r);
    if |avail| == 0 then Err(EndOfFile)
    else
      var n := LineLength(avail);
      assert r.input == avail[..n] + r.input[n..];
      Ok((avail[..n], StreamReader(r.input[n..], r.limit - n)))
  }

  /** `read_exact` into a buffer of `n` bytes: the next `n` bytes when the
      stream holds them and the budget allows them, an error otherwise. */
  function ReadExact(r: StreamReader, n: nat): (res: Result<(string, StreamReader), ReadError>)
    ensures res.Ok? <==> n <= |r.input| && n <= r.limit
    ensures res.Err? ==> res.error == UnexpectedEof
    ensures res.Ok? ==> var (buf, r') := res.value;
              |buf| == n && r.input == buf + r'.input && r'.limit == r.limit - n
  {
    if n <= |r.input| && n <= r.limit then
      assert r.input == r.input[..n] + r.input[n..];
      Ok((r.input[..n], StreamReader(r.input[n..], r.limit - n)))
    else Err(UnexpectedEof)
  }

  /** Every line `read_line` returns until EndOfFile, in order. */
  function ReadLines(r: StreamReader): seq<string>
    decreases |r.input|
  {
    match ReadLine(r)
    case Err(_) => []
    case Ok((line, r')) => [line] + ReadLines(r')
  }

  function Concat(parts: seq<string>): string
  {
    if |parts| == 0 then [] else parts[0] + Concat(parts[1..])
  }

  /** Reading lines until EndOfFile loses and invents nothing: the lines put
      together are exactly the bytes the budget let through. */
  lemma {:induction false} ReadLinesCoverAvailable(r: StreamReader)
    ensures Concat(ReadLines(r)) == Available(r)
    decreases |r.input|
  {
    match ReadLine(r)
    case Err(_) =>
    case Ok((line, r')) =>
      ReadLinesCoverAvailable(r');
      AvailableAfterRead(r);
  }

  /** What was let through before a read is the line read and then what is
      let through after it. */
  lemma AvailableAfterRead(r: StreamReader)
    requires ReadLine(r).Ok?
    ensures Available(r) == ReadLine(r).value.0 + Available(ReadLine(r).value.1)
  {
    var (line, r') := ReadLine(r).value;
    if |r.input| <= r.limit {
      assert Available(r') == r'.input;
    } else {
      assert r'.input[..r'.limit] == r.input[|line|..r.limit];
    }
  }

  /** A line ended by LF within the budget is read whole, LF included. */
  lemma ReadLineWhole(r: StreamReader, line: string, rest: string)
    requires '\n' !in line && r.input == line + "\n" + rest && |line| + 1 <= r.limit
    ensures ReadLine(r) == Ok((line + "\n", StreamReader(rest, r.limit - |line| - 1)))
  {
    var r' := StreamReader(rest, r.limit - |line| - 1);
    AvailableAfterLine(r, line, rest);
    var avail := Available(r);
    LineLengthOfLine(line, Available(r'));
    assert avail[..|line| + 1] == line + "\n";
    assert r.input[|line| + 1..] == rest;
  }

  /** The bytes let through past a line are the line and then what is let
      through of the rest under the reduced budget. */
  lemma AvailableAfterLine(r: StreamReader, line: string, rest: string)
    requires r.input == line + "\n" + rest && |line| + 1 <= r.limit
    ensures Available(r) == line + "\n" + Available(StreamReader(rest, r.limit - |line| - 1))
  {
    if |r.input| > r.limit {
      assert r.input[..r.limit] == line + "\n" + rest[..r.limit - |line| - 1];
    }
  }

  lemma {:induction false} LineLengthOfLine(line: string, rest: string)
    requires '\n' !in line
    ensures LineLength(line + "\n" + rest) == |line| + 1
  {
    if |line| > 0 {
      assert (line + "\n" + rest)[1..] == line[1..] + "\n" + rest;
      LineLengthOfLine(line[1..], rest);
    }
  }

  /** Without an LF, the available bytes come back as one line. */
  lemma ReadLineNoNewline(r: StreamReader)
    requires Available(r) != [] && '\n' !in Available(r)
    ensures ReadLine(r).Ok? && ReadLine(r).value.0 == Available(r)
  {
  }

  /** A budget caps a line: from a stream of at least `budget` bytes without
      an LF among them (an endless stream, say), `read_line` under that
      budget returns exactly `budget` bytes and leaves nothing to read. */
  lemma ReadLineStopsAtBudget(input: string, budget: nat)
    requires 0 < budget <= U64_MAX && budget <= |input| && '\n' !in input[..budget]
    ensures ReadLine(SetLimit(New(input), budget)).Ok?
    ensures ReadLine(SetLimit(New(input), budget)).value.0 == input[..budget]
    ensures ReadLine(ReadLine(SetLimit(New(input), budget)).value.1) == Err(EndOfFile)
  {
  }

  /** A budget of 1024 over a stream without line breaks of 1024 bytes or more. */
  lemma BudgetOf1024(input: string)
    requires |input| >= 1024 && '\n' !in input
    ensures ReadLine(SetLimit(New(input), 1024)) == Ok((input[..1024], StreamReader(input[1024..], 0)))
  {
    ReadLineStopsAtBudget(input, 1024);
  }

  /** A line of exactly the budget's length is read whole; the next read
      finds the budget spent and reports EndOfFile. */
  lemma ReadLineExactBudget(line: string)
    requires '\n' !in line && |line| + 1 <= U64_MAX
    ensures ReadLine(SetLimit(New(line + "\n"), |line| + 1)).Ok?
    ensures ReadLine(SetLimit(New(line + "\n"), |line| + 1)).value.0 == line + "\n"
    ensures ReadLine(ReadLine(SetLimit(New(line + "\n"), |line| + 1)).value.1) == Err(EndOfFile)
  {
    assert line + "\n" == line + "\n" + "";
    ReadLineWhole(SetLimit(New(line + "\n"), |line| + 1), line, "");
  }

  /** Reading into a buffer consumes exactly its length of budget, and the
      bytes come back in stream order. */
  lemma ReadExactThenRest(r: StreamReader, a: nat, b: nat)
    requires ReadExact(r, a + b).Ok?
    ensures ReadExact(r, a).Ok? && ReadExact(ReadExact(r, a).value.1, b).Ok?
    ensures ReadExact(r, a).value.0 + ReadExact(ReadExact(r, a).value.1, b).value.0 == ReadExact(r, a + b).value.0
    ensures ReadExact(ReadExact(r, a).value.1, b).value.1 == ReadExact(r, a + b).value.1
  {
    var s := r.input;
    assert s[..a] + s[a..][..b] == s[..a + b];
    assert s[a..][b..] == s[a + b..];
  }
}

=== FILE: subtree.dfy ===
/** The prefix table of a route chain (src/router/matcher/subtree.rs): a
    pattern ending in a slash serves every target that starts with it. The
    entries are kept in descending string order, so when one pattern is a
    prefix of another the longer one is tried first, and the first pattern
    that prefixes the target wins. */
module SubtreeMatchers {
  import opened Wrappers
  import opened Matches
  import Text

  datatype Subtree = Subtree(routes: seq<Match>)

  function NewSubtree(): (s: Subtree)
    ensures Sorted(s.routes)
    ensures forall t :: PatternMatch(s, t).None?
  {
    Subtree([])
  }

  /** The `assert!` of `add_route`: a pattern ending in a slash, other than
      the root. */
  predicate ValidPattern(pattern: string)
  {
    pattern != "/" && Text.EndsWith(pattern, "/")
  }

  /** Descending order of the patterns, ties allowed. */
  predicate Sorted(routes: seq<Match>)
  {
    forall i, j :: 0 <= i < j < |routes| ==> !Text.LexLess(routes[i].pattern, routes[j].pattern)
  }

  /** Where the stable descending sort puts an entry pushed at the end of a
      sorted list: after every entry whose pattern is not smaller. */
  function InsertPosition(routes: seq<Match>, pattern: string): (k: nat)
    ensures k <= |routes|
    ensures forall i :: 0 <= i < k ==> !Text.LexLess(routes[i].pattern, pattern)
    ensures k < |routes| ==> Text.LexLess(routes[k].pattern, pattern)
  {
    if |routes| == 0 || Text.LexLess(routes[0].pattern, pattern) then 0
    else 1 + InsertPosition(routes[1..], pattern)
  }

  /** `add_route`: push, then `sort_by` descending, which is stable. On a
      sorted list that is an insertion after every entry that is not
      smaller, so an equal pattern added later is tried later. */
  function AddRoute(s: Subtree, pattern: string, handler: HandlerId): (s': Subtree)
    requires ValidPattern(pattern)
    requires Sorted(s.routes)
    ensures Sorted(s'.routes)
    ensures multiset(s'.routes) == multiset(s.routes) + multiset{Match(pattern, handler)}
    ensures |s'.routes| == |s.routes| + 1
    ensures var k := InsertPosition(s.routes, pattern);
            s'.routes == s.routes[..k] + [Match(pattern, handler)] + s.routes[k..]
  {
    var k := InsertPosition(s.routes, pattern);
    var routes := s.routes[..k] + [Match(pattern, handler)] + s.routes[k..];
    InsertKeepsSorted(s.routes, k, Match(pattern, handler));
    InsertAddsOne(s.routes, k, Match(pattern, handler));
    Subtree(routes)
  }

  lemma InsertAddsOne(routes: seq<Match>, k: nat, m: Match)
    requires k <= |routes|
    ensures multiset(routes[..k] + [m] + routes[k..]) == multiset(routes) + multiset{m}
  {
    assert routes == routes[..k] + routes[k..];
  }

  lemma InsertKeepsSorted(routes: seq<Match>, k: nat, m: Match)
    requires Sorted(routes) && k <= |routes|
    requires forall i :: 0 <= i < k ==> !Text.LexLess(routes[i].pattern, m.pattern)
    requires k < |routes| ==> Text.LexLess(routes[k].pattern, m.pattern)
    ensures Sorted(routes[..k] + [m] + routes[k..])
  {
    var r := routes[..k] + [m] + routes[k..];
    forall i, j | 0 <= i < j < |r|
      ensures !Text.LexLess(r[i].pattern, r[j].pattern)
    {
      if i < k && j == k {
        assert r[i] == routes[i];
      } else if i < k && j > k {
        assert r[i] == routes[i] && r[j] == routes[j - 1];
      } else if i == k {
        assert r[j] == routes[j - 1];
        if j - 1 > k {
          assert !Text.LexLess(routes[k].pattern, routes[j - 1].pattern);
          LexLessOrder(routes[j - 1].pattern, routes[k].pattern, m.pattern);
        } else {
          Text.LexLessAsymmetric(routes[k].pattern, m.pattern);
        }
      } else if j < k {
        assert r[i] == routes[i] && r[j] == routes[j];
      } else {
        assert r[i] == routes[i - 1] && r[j] == routes[j - 1];
      }
    }
  }

  /** `c <= b < a` in the descending sense gives `c < a`. */
  lemma LexLessOrder(c: string, b: string, a: string)
    requires !Text.LexLess(b, c) && Text.LexLess(b, a)
    ensures !Text.LexLess(a, c)
  {
    if Text.LexLess(a, c) {
      Text.LexLessTransitive(b, a, c);
    }
  }

  /** The index of the first entry whose pattern prefixes the target. */
  function FirstPrefix(routes: seq<Match>, target: string): (r: Option<nat>)
    ensures r.Some? ==> r.value < |routes| && routes[r.value].pattern <= target
    ensures r.Some? ==> forall j :: 0 <= j < r.value ==> !(routes[j].pattern <= target)
    ensures r.None? ==> forall j :: 0 <= j < |routes| ==> !(routes[j].pattern <= target)
  {
    if |routes| == 0 then None
    else if routes[0].pattern <= target then Some(0)
    else match FirstPrefix(routes[1..], target)
      case None => None
      case Some(i) => Some(i + 1)
  }

  /** `pattern_match`: the first entry, in list order, whose pattern the
      target starts with; the parameter is the rest of the target. It may be
      empty and may hold slashes. */
  function PatternMatch(s: Subtree, target: string): (r: Option<(Match, string)>)
    ensures r.None? <==> forall j :: 0 <= j < |s.routes| ==> !(s.routes[j].pattern <= target)
    ensures r.Some? ==> r.value.0 in s.routes && target == r.value.0.pattern + r.value.1
    ensures r.Some? ==> FirstPrefix(s.routes, target).Some?
                        && r.value.0 == s.routes[FirstPrefix(s.routes, target).value]
  {
    match FirstPrefix(s.routes, target)
    case None => None
    case Some(i) =>
      var m := s.routes[i];
      var param := Text.StripPrefix(target, m.pattern).value;
      Some((m, param))
  }

  /** A registered pattern sorts before the place where the same pattern is
      inserted again. */
  lemma RegisteredBeforeInsert(routes: seq<Match>, pattern: string, j: nat)
    requires Sorted(routes) && j < |routes| && routes[j].pattern == pattern
    ensures j < InsertPosition(routes, pattern)
  {
    Text.LexLessIrreflexive(pattern);
  }

  /** The least index whose pattern prefixes the target is the first prefix. */
  lemma FirstPrefixIs(routes: seq<Match>, target: string, i: nat)
    requires i < |routes| && routes[i].pattern <= target
    requires forall j :: 0 <= j < i ==> !(routes[j].pattern <= target)
    ensures FirstPrefix(routes, target) == Some(i)
  {
  }

  /** With no pattern prefixing the target there is no first prefix. */
  lemma FirstPrefixNone(routes: seq<Match>, target: string)
    requires forall j :: 0 <= j < |routes| ==> !(routes[j].pattern <= target)
    ensures FirstPrefix(routes, target) == None
  {
  }

  /** Registering a pattern again changes no match: the stable sort keeps the
      older entry first, so the older handler keeps winning. */
  lemma ReAddKeepsMatch(s: Subtree, pattern: string, handler: HandlerId, j: nat, target: string)
    requires ValidPattern(pattern) && Sorted(s.routes)
    requires j < |s.routes| && s.routes[j].pattern == pattern
    ensures PatternMatch(AddRoute(s, pattern, handler), target) == PatternMatch(s, target)
  {
    var k := InsertPosition(s.routes, pattern);
    var s' := AddRoute(s, pattern, handler);
    RegisteredBeforeInsert(s.routes, pattern, j);
    AddRouteInserts(s, pattern, handler);
    match FirstPrefix(s.routes, target)
    case Some(i) =>
      if i < k {
        EarlierHitKept(s', s, k, target, i);
      } else {
        LaterHitShifted(s', s, k, target, i);
      }
    case None =>
      NoHitStill(s', s, k, target);
  }

  /** `r` is `routes` with one entry inserted at `k`. */
  predicate InsertedAt(r: seq<Match>, routes: seq<Match>, k: nat)
  {
    k <= |routes| && |r| == |routes| + 1
    && (forall x :: 0 <= x < k ==> r[x] == routes[x])
    && (forall x :: k < x < |r| ==> r[x] == routes[x - 1])
  }

  lemma AddRouteInserts(s: Subtree, pattern: string, handler: HandlerId)
    requires ValidPattern(pattern) && Sorted(s.routes)
    ensures InsertedAt(AddRoute(s, pattern, handler).routes, s.routes, InsertPosition(s.routes, pattern))
    ensures AddRoute(s, pattern, handler).routes[InsertPosition(s.routes, pattern)] == Match(pattern, handler)
  {
  }

  /** A hit before the inserted entry is still the first hit. */
  lemma EarlierHitKept(a: Subtree, b: Subtree, k: nat, target: string, i: nat)
    requires InsertedAt(a.routes, b.routes, k)
    requires FirstPrefix(b.routes, target) == Some(i) && i < k
    ensures PatternMatch(a, target) == PatternMatch(b, target)
  {
    FirstPrefixIs(a.routes, target, i);
    SameFirstEntry(a, i, b, i, target);
  }

  /** A hit after an inserted entry that misses moves up by one. */
  lemma LaterHitShifted(a: Subtree, b: Subtree, k: nat, target: string, i: nat)
    requires InsertedAt(a.routes, b.routes, k) && !(a.routes[k].pattern <= target)
    requires FirstPrefix(b.routes, target) == Some(i) && k <= i
    ensures PatternMatch(a, target) == PatternMatch(b, target)
  {
    assert a.routes[i + 1] == b.routes[i];
    FirstPrefixIs(a.routes, target, i + 1);
    SameFirstEntry(a, i + 1, b, i, target);
  }

  /** With no hit and an inserted entry that misses there is still no hit. */
  lemma NoHitStill(a: Subtree, b: Subtree, k: nat, target: string)
    requires InsertedAt(a.routes, b.routes, k) && !(a.routes[k].pattern <= target)
    requires FirstPrefix(b.routes, target).None?
    ensures PatternMatch(a, target) == PatternMatch(b, target)
  {
    FirstPrefixNone(a.routes, target);
  }

  /** Two tables whose first prefixes of the target are the same entry give
      the same match. */
  lemma SameFirstEntry(a: Subtree, i: nat, b: Subtree, j: nat, target: string)
    requires FirstPrefix(a.routes, target) == Some(i) && FirstPrefix(b.routes, target) == Some(j)
    requires a.routes[i] == b.routes[j]
    ensures PatternMatch(a, target) == PatternMatch(b, target)
  {
  }

  /** In a sorted table the match is the longest pattern that prefixes the
      target: a longer pattern sorts first, so it is reached first. */
  lemma LongestPrefixWins(s: Subtree, target: string, j: nat)
    requires Sorted(s.routes) && j < |s.routes| && s.routes[j].pattern <= target
    ensures PatternMatch(s, target).Some?
    ensures |s.routes[j].pattern| <= |PatternMatch(s, target).value.0.pattern|
  {
    var i := FirstPrefix(s.routes, target).value;
    var p, q := s.routes[i].pattern, s.routes[j].pattern;
    if |q| > |p| {
      assert p == target[..|p|] && q == target[..|q|];
      assert p < q;
      Text.ProperPrefixLexLess(p, q);
    }
  }

  /** Of two registered patterns where one is a proper prefix of the other,
      the longer one comes first in the table. */
  lemma LongerPatternFirst(s: Subtree, i: nat, j: nat)
    requires Sorted(s.routes) && i < |s.routes| && j < |s.routes|
    requires s.routes[i].pattern < s.routes[j].pattern
    ensures j < i
  {
    Text.ProperPrefixLexLess(s.routes[i].pattern, s.routes[j].pattern);
    Text.LexLessIrreflexive(s.routes[i].pattern);
  }

  /** A table holding only `pat`: every target that starts with `pat`
      matches it with the rest as parameter (so `pat` itself gives the empty
      parameter), and a target that does not start with `pat` (such as `pat`
      without its final slash) does not match. */
  lemma SinglePattern(pat: string, handler: HandlerId, target: string)
    requires ValidPattern(pat)
    ensures PatternMatch(AddRoute(NewSubtree(), pat, handler), target)
            == if pat <= target then Some((Match(pat, handler), target[|pat|..])) else None
  {
    var s := AddRoute(NewSubtree(), pat, handler);
    assert s.routes == [Match(pat, handler)];
  }

  /** `/fst` is a proper prefix of `/fst/`, so it cannot start with it. */
  lemma ShorterTargetMisses(pat: string, handler: HandlerId)
    requires ValidPattern(pat)
    ensures PatternMatch(AddRoute(NewSubtree(), pat, handler), pat[..|pat| - 1]).None?
  {
    SinglePattern(pat, handler, pat[..|pat| - 1]);
  }
}

=== FILE: text.dfy ===
/** The pieces of Rust's `str` API that the server relies on, over strings in
    which one character stands for one octet: ASCII lower-casing, whitespace
    trimming, `rsplit_once` on a character, `lines`, and the byte-wise
    ordering of `String`. */
module Text {
  import opened Wrappers
  import SliceExt

  predicate EndsWith(s: string, suffix: string)
  {
    |suffix| <= |s| && s[|s| - |suffix|..] == suffix
  }

  /** `str::strip_prefix`: the rest of `s` after `prefix`, if `s` starts with it. */
  function StripPrefix(s: string, prefix: string): (r: Option<string>)
    ensures r.Some? <==> prefix <= s
    ensures r.Some? ==> s == prefix + r.value
  {
    if prefix <= s then
      assert s == s[..|prefix|] + s[|prefix|..];
      Some(s[|prefix|..])
    else None
  }

  function LowerChar(c: char): char
  {
    if 'A' <= c <= 'Z' then (c as int - 'A' as int + 'a' as int) as char else c
  }

  /** `str::to_lowercase` restricted to ASCII letters. */
  function Lower(s: string): (r: string)
    ensures |r| == |s|
    ensures forall i :: 0 <= i < |s| ==> r[i] == LowerChar(s[i])
  {
    seq(|s|, i requires 0 <= i < |s| => LowerChar(s[i]))
  }

  /** Lower-casing leaves no upper-case ASCII letter behind, so doing it twice
      is doing it once; this is why a lookup key and a stored key agree. */
  lemma LowerIdempotent(s: string)
    ensures forall i :: 0 <= i < |s| ==> !('A' <= Lower(s)[i] <= 'Z')
    ensures Lower(Lower(s)) == Lower(s)
  {
  }

  /** Rust's `char::is_whitespace` as it shows on single octets: the ASCII
      white space, tab through carriage return and the space. The other
      Unicode white space is encoded in several octets. */
  predicate IsWhitespace(c: char)
  {
    ('\t' <= c <= '\r') || c == ' '
  }

  function TrimStart(s: string): (r: string)
    ensures |r| <= |s| && r == s[|s| - |r|..]
    ensures forall i :: 0 <= i < |s| - |r| ==> IsWhitespace(s[i])
    ensures |r| > 0 ==> !IsWhitespace(r[0])
  {
    if |s| > 0 && IsWhitespace(s[0]) then TrimStart(s[1..]) else s
  }

  function TrimEnd(s: string): (r: string)
    ensures |r| <= |s| && r == s[..|r|]
    ensures forall i :: |r| <= i < |s| ==> IsWhitespace(s[i])
    ensures |r| > 0 ==> !IsWhitespace(r[|r| - 1])
  {
    if |s| > 0 && IsWhitespace(s[|s| - 1]) then TrimEnd(s[..|s| - 1]) else s
  }

  /** The number of leading whitespace characters of `s`. */
  function LeadingWhitespace(s: string): (n: nat)
    ensures n <= |s|
    ensures forall i :: 0 <= i < n ==> IsWhitespace(s[i])
    ensures n < |s| ==> !IsWhitespace(s[n])
  {
    |s| - |TrimStart(s)|
  }

  /** `str::trim`: `s` without its leading and trailing whitespace. The result
      is a slice of `s`, everything outside it is whitespace, and it neither
      starts nor ends with whitespace. */
  function Trim(s: string): (r: string)
    ensures LeadingWhitespace(s) + |r| <= |s|
    ensures r == s[LeadingWhitespace(s)..LeadingWhitespace(s) + |r|]
    ensures forall i :: LeadingWhitespace(s) + |r| <= i < |s| ==> IsWhitespace(s[i])
    ensures |r| > 0 ==> !IsWhitespace(r[0]) && !IsWhitespace(r[|r| - 1])
  {
    TrimEnd(TrimStart(s))
  }

  /** A single leading space is trimmed away from text that neither starts
      nor ends with whitespace. */
  lemma TrimLeadingSpace(s: string)
    requires |s| > 0 && !IsWhitespace(s[0]) && !IsWhitespace(s[|s| - 1])
    ensures Trim(" " + s) == s
  {
    assert (" " + s)[1..] == s;
  }

  /** The position of the last `c` in `s`. */
  function LastIndexOf(s: string, c: char): (r: Option<nat>)
    ensures r.None? <==> c !in s
    ensures r.Some? ==> r.value < |s| && s[r.value] == c
    ensures r.Some? ==> forall j :: r.value < j < |s| ==> s[j] != c
  {
    if |s| == 0 then None
    else if s[|s| - 1] == c then Some(|s| - 1)
    else LastIndexOf(s[..|s| - 1], c)
  }

  /** `str::rsplit_once` on a character: the text before and after the last
      occurrence of `c`. */
  function RSplitOnce(s: string, c: char): (r: Option<(string, string)>)
    ensures r.None? <==> c !in s
    ensures r.Some? ==> s == r.value.0 + [c] + r.value.1 && c !in r.value.1
  {
    match LastIndexOf(s, c)
    case None => None
    case Some(i) =>
      assert s == s[..i] + [c] + s[i + 1..];
      Some((s[..i], s[i + 1..]))
  }

  /** The last `c` of `a + [c] + b` is the one after `a` when `b` holds none. */
  lemma {:induction false} LastIndexOfSplit(a: string, c: char, b: string)
    requires c !in b
    ensures LastIndexOf(a + [c] + b, c) == Some(|a|)
    decreases |b|
  {
    var s := a + [c] + b;
    if |b| == 0 {
      assert s[|s| - 1] == c;
    } else {
      assert s[|s| - 1] == b[|b| - 1];
      assert s[..|s| - 1] == a + [c] + b[..|b| - 1];
      LastIndexOfSplit(a, c, b[..|b| - 1]);
    }
  }

  /** `RSplitOnce` is determined by its two promises: any split at a `c` whose
      right part holds no `c` is the one it returns. */
  lemma RSplitOnceUnique(a: string, c: char, b: string)
    requires c !in b
    ensures RSplitOnce(a + [c] + b, c) == Some((a, b))
  {
    var s := a + [c] + b;
    LastIndexOfSplit(a, c, b);
    assert s[..|a|] == a;
    assert s[|a| + 1..] == b;
  }

  /** Every split of `s` at a `c` with no `c` to its right is the one
      `RSplitOnce` returns. */
  lemma RSplitOnceOnly(s: string, c: char, left: string, right: string)
    requires RSplitOnce(s, c) == Some((left, right))
    ensures forall a, b :: s == a + [c] + b && c !in b ==> a == left && b == right
  {
    forall a, b | s == a + [c] + b && c !in b
      ensures a == left && b == right
    {
      RSplitOnceUnique(a, c, b);
    }
  }

  /** `str::lines` drops a `\r` only when it comes right before the `\n`. */
  function StripCr(line: string): string
  {
    if EndsWith(line, "\r") then line[..|line| - 1] else line
  }

  /** `str::lines`: the text split at each `\n`, with a `\r` just before the
      `\n` removed too; a final line terminator does not start an empty line. */
  function Lines(s: string): seq<string>
    decreases |s|
  {
    if |s| == 0 then []
    else match SliceExt.PositionPattern(s, "\n")
      case None => [s]
      case Some(i) => [StripCr(s[..i])] + Lines(s[i + 1..])
  }

  /** A line terminated by CRLF is exactly one element of `Lines`. */
  lemma LinesCons(line: string, rest: string)
    requires '\n' !in line && !EndsWith(line, "\r")
    ensures Lines(line + "\r\n" + rest) == [line] + Lines(rest)
  {
    var s := line + "\r\n" + rest;
    var i := |line| + 1;
    assert SliceExt.OccursAt(s, "\n", i);
    forall j | 0 <= j < i
      ensures !SliceExt.OccursAt(s, "\n", j)
    {
      assert s[j..j + 1] == [s[j]];
      if j < |line| {
        assert s[j] == line[j];
      }
    }
    assert SliceExt.PositionPattern(s, "\n") == Some(i);
    assert s[..i] == line + "\r";
    assert StripCr(line + "\r") == line;
    assert s[i + 1..] == rest;
  }

  /** Rust's `Ord` on `String`: lexicographic on the characters, a proper
      prefix first. */
  predicate LexLess(a: string, b: string)
    decreases |a|
  {
    |b| > 0 && (|a| == 0 || a[0] < b[0] || (a[0] == b[0] && LexLess(a[1..], b[1..])))
  }

  lemma {:induction false} LexLessIrreflexive(a: string)
    ensures !LexLess(a, a)
    decreases |a|
  {
    if |a| > 0 {
      LexLessIrreflexive(a[1..]);
    }
  }

  lemma {:induction false} LexLessAsymmetric(a: string, b: string)
    requires LexLess(a, b)
    ensures !LexLess(b, a)
    decreases |a|
  {
    if |a| > 0 && a[0] == b[0] {
      LexLessAsymmetric(a[1..], b[1..]);
    }
  }

  lemma {:induction false} LexLessTransitive(a: string, b: string, c: string)
    requires LexLess(a, b) && LexLess(b, c)
    ensures LexLess(a, c)
    decreases |a|
  {
    if |a| > 0 && a[0] == b[0] && b[0] == c[0] {
      LexLessTransitive(a[1..], b[1..], c[1..]);
    }
  }

  lemma {:induction false} LexLessTotal(a: string, b: string)
    requires a != b
    ensures LexLess(a, b) || LexLess(b, a)
    decreases |a|
  {
    if |a| > 0 && |b| > 0 && a[0] == b[0] {
      assert a[1..] != b[1..];
      LexLessTotal(a[1..], b[1..]);
    }
  }

  /** A proper prefix sorts first. */
  lemma {:induction false} ProperPrefixLexLess(a: string, b: string)
    requires a < b
    ensures LexLess(a, b)
    decreases |a|
  {
    if |a| > 0 {
      assert a[1..] < b[1..];
      ProperPrefixLexLess(a[1..], b[1..]);
    }
  }
}

=== FILE: wrappers.dfy ===
/** Failure-carrying datatypes shared by every module of the model: `Option`
    for Rust's `Option<T>` and `Result` for `anyhow::Result<T>` / `io::Result<T>`. */
module Wrappers {

  datatype Option<+T> = None | Some(value: T)

  datatype Result<+T, +E> = Ok(value: T) | Err(error: E)

  /** `xs.iter().map(f).collect::<Result<Vec<_>, _>>()`: every result in
      order, or the error of the first element that fails. */
  function Collect<A, B, E>(f: A -> Result<B, E>, xs: seq<A>): (r: Result<seq<B>, E>)
    ensures r.Ok? ==> |r.value| == |xs|
  {
    if |xs| == 0 then Ok([])
    else match f(xs[0])
      case Err(e) => Err(e)
      case Ok(y) =>
        match Collect(f, xs[1..])
        case Err(e) => Err(e)
        case Ok(ys) => Ok([y] + ys)
  }

  /** Collecting fails exactly at the first element that fails, with its
      error: every element before it succeeded. */
  lemma {:induction false} CollectFirstError<A, B, E>(f: A -> Result<B, E>, xs: seq<A>)
    ensures Collect(f, xs).Err? <==> exists i :: 0 <= i < |xs| && f(xs[i]).Err?
    ensures Collect(f, xs).Err? ==>
              exists i :: 0 <= i < |xs| && f(xs[i]) == Err(Collect(f, xs).error)
                          && forall j :: 0 <= j < i ==> f(xs[j]).Ok?
  {
    if |xs| > 0 {
      var rest := xs[1..];
      CollectFirstError(f, rest);
      if f(xs[0]).Err? {
        assert f(xs[0]) == Err(Collect(f, xs).error);
      } else if Collect(f, rest).Err? {
        var i :| 0 <= i < |rest| && f(rest[i]) == Err(Collect(f, rest).error)
                 && forall j :: 0 <= j < i ==> f(rest[j]).Ok?;
        assert xs[i + 1] == rest[i];
        forall j | 0 <= j < i + 1
          ensures f(xs[j]).Ok?
        {
          if j > 0 {
            assert xs[j] == rest[j - 1];
          }
        }
      } else {
        forall i | 0 <= i < |xs|
          ensures f(xs[i]).Ok?
        {
          if i > 0 {
            assert xs[i] == rest[i - 1];
          }
        }
      }
    }
  }

  /** A successful collection holds each element's result at its position. */
  lemma {:induction false} CollectValues<A, B, E>(f: A -> Result<B, E>, xs: seq<A>)
    requires Collect(f, xs).Ok?
    ensures forall i :: 0 <= i < |xs| ==> f(xs[i]) == Ok(Collect(f, xs).value[i])
  {
    if |xs| > 0 {
      var rest := xs[1..];
      CollectValues(f, rest);
      var r := Collect(f, xs).value;
      assert r == [f(xs[0]).value] + Collect(f, rest).value;
      forall i | 0 < i < |xs|
        ensures f(xs[i]) == Ok(r[i])
      {
        assert xs[i] == rest[i - 1];
      }
    }
  }

  /** When every element succeeds, collecting yields exactly their results. */
  lemma {:induction false} CollectAll<A, B, E>(f: A -> Result<B, E>, xs: seq<A>, ys: seq<B>)
    requires |ys| == |xs|
    requires forall i :: 0 <= i < |xs| ==> f(xs[i]) == Ok(ys[i])
    ensures Collect(f, xs) == Ok(ys)
  {
    if |xs| > 0 {
      var rest, more := xs[1..], ys[1..];
      forall i | 0 <= i < |rest|
        ensures f(rest[i]) == Ok(more[i])
      {
        assert rest[i] == xs[i + 1];
      }
      CollectAll(f, rest, more);
      assert f(xs[0]) == Ok(ys[0]);
      assert ys == [ys[0]] + more;
    }
  }
}
